=== FILE: README.md ===
# Yemzo order core in Dafny

A model of the decision logic of Yemzo, a food-ordering web application.
Customers browse dishes, keep a cart and place orders with hotel owners.
Owners move orders through their kitchen statuses. Couriers accept, pick
up and deliver orders. A chat bot turns a free-text request into an order.
The model covers:

- the Order document and its two tracked states, `status` and
  `deliveryStatus`;
- the courier's guarded actions and the order router's unguarded ones;
- the order bot's fallback parser and its candidate, ranking, address and
  order pipeline;
- the server cart and the cart page;
- reviews and dish averages;
- the dish schema, the owner handlers with their cascade delete and
  orphan cleanup, and the combined search;
- the customer, courier and owner pages: their derived views and how they
  merge real-time events;
- the account validators of the customer routes, the courier form and the
  login/signup popup.

Every handler is a pure function. The document store is a map or a
sequence in store order. Each handler returns the new store, its reply,
and the list of real-time events it publishes, each a room, an event name
and a payload. A page is a value, and an event is a function from page to
page. Clocks, random codes and password hashing are parameters.

| module | file | models |
|---|---|---|
| Wrappers, Seqs, Text | wrappers.dfy, seqs.dfy, text.dfy | Option/Result, filtering and sums, JavaScript string operations (trim, lower-case, whitespace split, substring search) |
| Orders | order.dfy | the Order document, its enums and defaults, rooms, events, payloads |
| DeliveryRoutes | delivery_routes.dfy | backend/routes/deliveryRoutes.js |
| OrderRoutes | order_routes.dfy | backend/routes/orderRoutes.js |
| Catalog, OwnerRoutes | catalog.dfy, owner_routes.dfy | backend/models/Dish.js, backend/routes/ownerRoutes.js |
| CartRoutes, CartClient | cart_routes.dfy, cart_client.dfy | backend/routes/cartRoutes.js, backend/models/Cart.js, frontend/src/components/Cart.js |
| Reviews | reviews.dfy | backend/routes/reviewRoutes.js, backend/models/Review.js |
| OrderViews, CustomerDashboard, DeliveryPage, OwnerOrders | order_views.dfy, customer_dashboard.dfy, delivery_page.dfy, owner_orders.dfy | the three order pages |
| Validators, CustomerRoutes, DeliveryAuth, LoginPopup | validators.dfy, customer_routes.dfy, delivery_auth.dfy, login_popup.dfy | the account rules |
| BotParser, BotPipeline | bot_parser.dfy, bot_pipeline.dfy | backend/routes/aiOrderBot.js |

What the model shows about the code:

- The guarded courier routes keep an order's courier fields consistent
  (`DeliveryRoutes.TraceAdvances`). The router's owner status route can
  still put an order into PickedUp with no courier
  (`OrderRoutes.StatusRouteLeavesPickupWithoutCourier`). The router's
  assign route takes an order back from PickedUp to Assigned
  (`OrderRoutes.AssignMovesBackwards`).
- The status route stores any text, and the courier routes save with
  `order.save()`, which checks the whole document again. An order whose
  status is outside the enum can then be neither accepted nor picked up
  (`DeliveryRoutes.UnlistedStatusBlocksCourier`). Likewise the profile
  route stores a two-letter name, after which every password change fails
  (`CustomerRoutes.ShortNameBlocksPasswordChange`).
- The status and assign routes write first and then read the populated
  customer and owner; when either document is gone the route answers 500
  with the write kept (`OrderRoutes.NotifyParties`).
- The courier page calls the unguarded router actions, not the guarded
  courier routes. Another courier's accept is never withdrawn from a page
  (`DeliveryPage.AcceptIsNotWithdrawn`). A pickup broadcast lets a
  stranger deliver the order (`DeliveryPage.StrangerCanDeliver`). The
  router's pickup and delivered answer an unknown id by broadcasting
  `null`, and the page's update handler reads `_id` of it, so every
  courier page that lists an order unmounts
  (`DeliveryPage.UnknownIdUnmountsPages`).
- The owner's order page opens its socket without joining its room, so
  no route's events ever update it live (`OwnerOrders.RoutesNeverReachPage`). The
  order router publishes populated documents, whose owner is an object, so
  its `order-updated` payloads never pass the page's owner check
  (`OwnerOrders.PopulatedNeverMerges`). Had the page joined its room, it
  would hear both (`OwnerOrders.JoinedPageWouldGetNewOrder`,
  `OwnerOrders.JoinedPageWouldSeePickup`).
- The order router's create (backend/routes/orderRoutes.js:30-39) tells
  only the owner's room and the courier pool. The customer hears
  `order-created` only when the bot places the order
  (backend/routes/aiOrderBot.js:279).
- The bot's quantity pattern reads the digits of a price ceiling as the
  quantity (`BotParser.QuantityTakesPriceDigits`). Its hotel capture
  (backend/routes/aiOrderBot.js:103-104) runs to the end of the text, a
  trailing "hotel" or "restaurant" included (`BotParser.HotelRunsToEnd`).
- The bot's hotel filter (backend/routes/aiOrderBot.js:188-192) compares
  against a `hotelName` field that the dish schema (backend/models/Dish.js)
  does not define, so it always widens (`BotPipeline.HotelNeverNarrows`).
- The popup's confirmation goes stale when the password is changed after
  it, and the first submit sends anyway (`LoginPopup.ConfirmGoesStale`).
  Submit decides on the messages held before the press, but the checks it
  re-runs on every field still land: a press on a stale confirmation
  flags it, and every later submit is refused until the confirmation is
  retyped (`LoginPopup.StaleConfirmBlocksRetry`).

## Model

| member | source | states |
|---|---|---|
| Orders.ParseStatus | backend/models/Order.js:51-61 | a stored status string maps to one of the five listed statuses exactly when it is one of the enum values; any other string is kept as an unlisted status with the same text |
| Orders.ParseStatusName | backend/models/Order.js:51-61 | each of the five listed statuses reads back as itself from its wire name |
| Orders.ParsePayment | backend/models/Order.js:45 | a payment string is accepted exactly when it is COD, UPI or Card, and the accepted value carries the same name |
| Orders.FreshOrder | backend/models/Order.js:51-88 | a new order is Pending and Unassigned, has no courier and no assigned, picked or delivered time, empty remarks, and carries the caller's ids, items, total, address and payment |
| DeliveryRoutes.FreshOrderIsConsistent | backend/models/Order.js:67-88 | a new order satisfies the courier-track invariant: no courier exactly when Unassigned, each timestamp present exactly from its stage on |
| DeliveryRoutes.AcceptOrder | backend/routes/deliveryRoutes.js:82-88 | accept succeeds exactly on an Unassigned order; it records the courier, Assigned and the time, changes no other field (status included) and keeps the courier-track invariant |
| DeliveryRoutes.PickupOrder | backend/routes/deliveryRoutes.js:109-113 | pickup succeeds exactly on an Assigned order; it records PickedUp and the time, leaves status and courier alone and keeps the invariant |
| DeliveryRoutes.DeliverOrder | backend/routes/deliveryRoutes.js:133-138 | delivered succeeds exactly on a PickedUp order; it sets both tracks to Delivered with the time, changes nothing else and keeps the invariant |
| DeliveryRoutes.Accept | backend/routes/deliveryRoutes.js:74-97 | a missing courier id is a bad request before any lookup; an unknown order is not found; a non-Unassigned order is refused; otherwise the accept transition is saved exactly when the whole document passes the order schema, else the answer is a server error with nothing written; a saved accept sends `order-updated` to exactly the customer and owner rooms and `order-assigned` to exactly the courier's room |
| DeliveryRoutes.Pickup | backend/routes/deliveryRoutes.js:105-121 | unknown order is not found; a non-Assigned order is refused; otherwise the pickup transition is saved exactly when the whole document passes the order schema (a status outside the enum makes the save throw and nothing is written); on success `order-updated` goes to exactly the customer, owner and recorded courier rooms |
| DeliveryRoutes.Deliver | backend/routes/deliveryRoutes.js:129-146 | unknown order is not found; a non-PickedUp order is refused; otherwise the delivered transition is saved exactly when the resulting document passes the order schema, else a server error with nothing written; on success `order-updated` goes to exactly the customer, owner and courier rooms |
| DeliveryRoutes.Save | backend/routes/deliveryRoutes.js:84-88 | `order.save()` writes the order exactly when the whole document passes the order schema, and otherwise throws with nothing written |
| DeliveryRoutes.UnlistedStatusBlocksCourier | backend/routes/deliveryRoutes.js:105-146 | an order whose status the owner set to a text outside the enum can be neither accepted nor picked up (the save throws), while delivering it succeeds because it overwrites the status |
| DeliveryRoutes.StepAdvances | backend/routes/deliveryRoutes.js:82-138 | every successful courier action keeps the courier-track invariant and moves the delivery status exactly one stage forward |
| DeliveryRoutes.TraceAdvances | backend/routes/deliveryRoutes.js:82-139 | along any run of successful courier actions every state is consistent and the k-th state is k stages past the start |
| DeliveryRoutes.FromNewOrder | backend/routes/deliveryRoutes.js:82-139 | from a new order the guarded actions go Unassigned, Assigned, PickedUp, Delivered in that order, at most three succeed, and a courier is recorded in every state after the first |
| OrderRoutes.CastItems | backend/models/Order.js:27-38 | the items are accepted exactly when every one has a dish id, a name, a price and a quantity, and then each stored item carries the fields sent, in order |
| OrderRoutes.Create | backend/routes/orderRoutes.js:10-45 | a missing customer, owner, item list, total (0 included), address or payment is a bad request; otherwise the order is stored exactly when every item and the payment pass the schema, is Pending and Unassigned with no courier, keeps the sent fields, holds exactly the sent items in order field by field, and is announced as `new-order` to exactly the owner's room and as the reduced notice to exactly the courier pool, with nothing to the customer |
| OrderRoutes.ApplyStatus | backend/routes/orderRoutes.js:95-101 | the status route writes the given status text; only the picked-up label also moves the courier track to PickedUp with a pick time; every other field is kept |
| OrderRoutes.UpdateStatus | backend/routes/orderRoutes.js:90-129 | a missing status is a bad request and an unknown order not found; any other request writes the status whatever the order's state; the reply follows exactly when the order's customer and owner documents both exist, and otherwise the route fails after the write, having told the customer's room only when the customer exists; the reply's populated update goes to the customer and owner rooms and to the courier's room exactly when a courier is recorded and its document exists |
| OrderRoutes.Assign | backend/routes/orderRoutes.js:136-172 | a missing courier id is a bad request and an unknown order not found; otherwise, whatever the current state, the courier, Assigned and the time are written and nothing else changes; the reply follows exactly when the order's customer and owner documents exist, telling the customer, owner and named courier rooms, and otherwise the route fails after the write |
| OrderRoutes.NotifyParties | backend/routes/orderRoutes.js:115-116 | the customer's and owner's emits read through the populated references: the handler answers exactly when both documents exist, the write stands either way, and the customer's emit goes out exactly when the customer exists |
| OrderRoutes.CourierNotice | backend/routes/orderRoutes.js:117-119 | the status route tells the courier's room exactly when a courier is recorded and that courier's document exists |
| OrderRoutes.Pickup | backend/routes/orderRoutes.js:175-201 | with no state check the picked-up label, PickedUp and the time are written and the populated order is broadcast to every socket; an unknown id changes nothing and broadcasts `null` |
| OrderRoutes.Deliver | backend/routes/orderRoutes.js:204-230 | with no state check both tracks become Delivered with the time and the order is broadcast to every socket; an unknown id changes nothing and broadcasts `null` |
| OrderRoutes.AgreesWithGuardedRoutes | backend/routes/orderRoutes.js:136-213 | where the courier routes' guards hold, assign and delivered write what accept and delivered write, and pickup differs only by also setting the picked-up status |
| OrderRoutes.StatusRouteLeavesPickupWithoutCourier | backend/routes/orderRoutes.js:93-101 | the owner marking a new order picked up yields PickedUp with no courier, a state outside the courier-track invariant |
| OrderRoutes.AssignMovesBackwards | backend/routes/orderRoutes.js:139-149 | assign on a PickedUp order moves it back to Assigned |
| OrderRoutes.DeliverWithoutCourier | backend/routes/orderRoutes.js:206-213 | delivered on a new order finishes it with no courier ever recorded, outside the invariant |
| Catalog.SchemeEnd | backend/models/Dish.js:34 | the scheme prefix of the image pattern is recognised exactly when the value starts with `https://` (length 8) or `http://` (length 7) |
| Catalog.CastDish | backend/models/Dish.js:3-52 | a dish document is created exactly when the owner is given, the trimmed name has two or more characters, the price is at least 1, the image (placeholder when absent) passes the URL check and the description has at most 200 characters; the stored dish satisfies every field constraint, has the trimmed name and starts with rating 0 |
| Catalog.FindDish | backend/models/Dish.js:59 | a lookup by id finds a stored dish with that id, and finds nothing exactly when no stored dish has it |
| Catalog.PlaceholderImageOk | backend/models/Dish.js:30-35 | the default image passes the schema's own image validator |
| OwnerRoutes.FindOwner | backend/routes/ownerRoutes.js:120-122 | an owner is found by id exactly when one with that id is stored |
| OwnerRoutes.FirstFree | backend/routes/ownerRoutes.js:36-39 | the chosen candidate code is held by no owner and every earlier candidate is held; nothing is chosen only when every candidate is held |
| OwnerRoutes.Register | backend/routes/ownerRoutes.js:19-62 | missing hotel name, phone, e-mail or password is a bad request; registration succeeds exactly when the e-mail and phone are new and the owner schema accepts the fields; the new owner is appended with trimmed hotel name, lower-cased e-mail, hashed password and a code no owner holds, which is the caller's trimmed code whenever that one is free |
| OwnerRoutes.RegisterKeepsCodesUnique | backend/routes/ownerRoutes.js:36-51 | if owner codes are distinct before a registration they are distinct after it |
| OwnerRoutes.FindLogin | backend/routes/ownerRoutes.js:78-83 | the login query finds an owner whose e-mail or code matches a given non-empty alternative, and finds none only when no owner matches either |
| OwnerRoutes.Login | backend/routes/ownerRoutes.js:70-101 | a missing password, or neither e-mail nor code, is a bad request; login succeeds exactly when the first matching owner's password hash matches, and returns a stored owner |
| OwnerRoutes.LoginByCode | backend/routes/ownerRoutes.js:74-90 | with unique codes an owner logs in with the code and password alone |
| OwnerRoutes.AddDish | backend/routes/ownerRoutes.js:113-130 | missing owner id, name or price (0 included) is a bad request and an unknown owner not found; otherwise the dish is appended exactly when the dish schema accepts it, belongs to that owner and satisfies every dish constraint |
| OwnerRoutes.DeleteOwner | backend/routes/ownerRoutes.js:187-191 | deleting an owner removes exactly that owner's dishes and the owner, and keeps everything else |
| OwnerRoutes.DeleteOwnerKeepsNoDangling | backend/routes/ownerRoutes.js:189-190 | if every dish pointed at a stored owner before the cascade, every remaining dish still does after it |
| OwnerRoutes.CleanupOrphans | backend/routes/ownerRoutes.js:198-201 | after cleanup every dish points at a stored owner, every dish with a valid owner is kept, nothing new appears, and a catalog with no orphans is unchanged |
| OwnerRoutes.CleanupIdempotent | backend/routes/ownerRoutes.js:200-201 | a second cleanup removes nothing more |
| OwnerRoutes.HotelOf | backend/routes/ownerRoutes.js:232 | a dish shows its owner's hotel name when the owner exists with a non-empty name, and the fallback when the owner is gone |
| OwnerRoutes.AllDishes | backend/routes/ownerRoutes.js:225-238 | the public listing has one entry per dish in store order with its id, name, price, image and description; the owner id is present exactly when the owner exists, and the hotel name is that owner's name when it is not empty and "Unknown Hotel" otherwise, orphans included |
| OwnerRoutes.HotelHits | backend/routes/ownerRoutes.js:267-280 | the hotel hits are exactly the owners whose hotel name contains the query, ignoring case |
| OwnerRoutes.DishHits | backend/routes/ownerRoutes.js:271-288 | the dish hits are exactly the dishes whose name contains the query, ignoring case |
| OwnerRoutes.Search | backend/routes/ownerRoutes.js:262-291 | an absent or empty query gives nothing; otherwise every matching hotel and every matching dish is returned, and all hotels come before any dish |
| CartRoutes.FindPair | backend/routes/cartRoutes.js:22 | the lookup finds the first row of that customer and dish, and finds none exactly when no row has the pair |
| CartRoutes.Add | backend/routes/cartRoutes.js:10-54 | a missing customer or dish id is a bad request and an unknown dish not found; an existing row for the pair grows by the sent quantity (1 when absent or 0), otherwise one new in-cart row with that quantity is appended; the write is refused exactly when the resulting quantity is below the schema minimum of 1 |
| CartRoutes.AddKeepsInvariant | backend/models/Cart.js:5-21 | add keeps every row valid, row ids distinct and at most one row per customer and dish |
| CartRoutes.AddTwiceOneRow | backend/routes/cartRoutes.js:22-36 | adding the same dish twice leaves a single row whose quantity is the sum of the two |
| CartRoutes.LineOf | backend/routes/cartRoutes.js:70-81 | a listing line's subtotal is the dish price (0 for a deleted dish) times the row's quantity, and it names the dish exactly when the dish still exists |
| CartRoutes.Get | backend/routes/cartRoutes.js:59-85 | the listing has one line per row of that customer, each priced as above, and its total is the sum of the subtotals |
| CartRoutes.Update | backend/routes/cartRoutes.js:95-133 | a quantity below 1 deletes the row and answers success even for an unknown id; otherwise an unknown row is not found, and an existing row takes the new quantity with all other rows unchanged |
| CartRoutes.Remove | backend/routes/cartRoutes.js:143-149 | removal succeeds exactly when the row exists, and drops exactly that row |
| CartRoutes.Clear | backend/routes/cartRoutes.js:159-164 | clearing keeps exactly the rows of other customers |
| CartRoutes.ClearIsolated | backend/routes/cartRoutes.js:159-164 | after clearing, the customer has no rows and every other customer keeps the same rows in the same order |
| CartRoutes.Checkout | backend/routes/cartRoutes.js:174-198 | checkout is refused exactly for an empty cart; otherwise it charges the sum of price times quantity (1 when 0) over the customer's rows, deletes all of them and names the payment method, "Cash on Delivery" by default |
| CartRoutes.ListingTotalIsCheckoutTotal | backend/routes/cartRoutes.js:80-83 | on rows with quantities of at least 1 the listing's total equals the checkout's total |
| CartRoutes.CheckoutChargesListedTotal | backend/routes/cartRoutes.js:174-192 | for a customer whose rows were written by the add route, checkout charges exactly the total the cart listing showed |
| CartClient.ShownTotal | frontend/src/components/Cart.js:30 | after a fetch the page shows the server's total, and its own sum only when the server's total is 0 |
| CartClient.ShownTotalIsServerTotal | frontend/src/components/Cart.js:16-30 | on rows the server keeps, the page's own sum equals the server's total, so the fallback never changes what is shown |
| CartClient.UpdateQuantity | frontend/src/components/Cart.js:45-56 | a quantity below 1, or a failed request, leaves the list unchanged; otherwise every line with that id takes the new quantity and every other line is unchanged, with ids and length kept |
| CartClient.UpdateQuantityIdempotent | frontend/src/components/Cart.js:52-54 | applying the same quantity update twice gives what one update gives |
| CartClient.UpdateMirrorsServer | frontend/src/components/Cart.js:49-55 | after an update the server accepted, the page's lines still match the server's rows one for one in id and quantity |
| CartClient.RemoveLine | frontend/src/components/Cart.js:65-72 | after a successful delete the page keeps exactly the lines with another id; a failed delete changes nothing |
| CartClient.RemoveLowersTotal | frontend/src/components/Cart.js:70-72 | after a removal the recomputed total is the old total less what the removed lines were worth |
| CartClient.RemoveMirrorsServer | frontend/src/components/Cart.js:69-71 | after a removal the server accepted, the page still mirrors the server's rows |
| CartClient.ChargedSumIsTotal | frontend/src/components/Cart.js:16-20 | when no quantity is 0, pricing lines as price times quantity gives the same sum as the page total with its defaults |
| CartClient.OwnerKeys | frontend/src/components/Cart.js:107-126 | the groups are keyed by each distinct owner of the lines, once each, and by nothing else |
| CartClient.OwnerLines | frontend/src/components/Cart.js:116-122 | an owner's group holds exactly the cart lines of that owner |
| CartClient.GroupAmount | frontend/src/components/Cart.js:127-131 | a group's total is defined exactly when every price in it is present, and is then the sum of price times quantity |
| CartClient.PlaceOrder | frontend/src/components/Cart.js:99-143 | an empty cart, a blank address, or any line without owner or dish sends nothing; otherwise there is one request per distinct owner and every line's owner gets one |
| CartClient.PlaceOrderPayloads | frontend/src/components/Cart.js:127-140 | each request carries exactly its owner's lines, their total, the customer, the address as typed and the payment |
| CartClient.GroupsPartitionTotal | frontend/src/components/Cart.js:107-131 | splitting by owner neither loses nor repeats a line: the group totals add up to what the whole cart charges |
| CartClient.GroupTotalsAddUp | frontend/src/components/Cart.js:16-20 | with every price present and quantities of at least 1, the per-owner orders together charge exactly the cart total the page shows, and none carries a null total |
| CartClient.Submit | frontend/src/components/Cart.js:126-149 | requests go one at a time: every one before the first refusal is acceptable, the one it stops at is not, and the cart is cleared exactly when none was refused |
| CartClient.SubmitStore | frontend/src/components/Cart.js:126-149 | the orders created are exactly those of the requests sent before the first refusal, and every order already stored is kept unchanged |
| CartClient.ClearedIffAllAccepted | frontend/src/components/Cart.js:126-149 | the cart is cleared exactly when the create route accepts every per-owner request |
| CartClient.PartialPlacement | frontend/src/components/Cart.js:143-155 | when the second owner's request is refused, the first owner's order stays placed and the cart is not cleared |
| Reviews.RatingsOf | backend/routes/reviewRoutes.js:30 | the ratings gathered for a dish are no more than the reviews, and stay within 1..5 when every stored rating does |
| Reviews.MeanTenthsBounds | backend/routes/reviewRoutes.js:31-33 | the rounded mean of one or more ratings in 1..5 lies between 1.0 and 5.0 stars, so it always fits the dish schema's 0..5 |
| Reviews.SetRating | backend/routes/reviewRoutes.js:36 | writing the average changes only the rating of the dishes with that id, and a missing dish leaves the catalog unchanged |
| Reviews.AddReview | backend/routes/reviewRoutes.js:10-41 | a missing customer, dish or rating (0 included) is a bad request; an existing review by the same customer of the same dish is refused before anything is written; otherwise the review is stored exactly when the rating is in 1..5, its comment trimmed, and the dish's average is then recomputed over all its reviews including the new one |
| Reviews.AddReviewKeepsInvariants | backend/models/Review.js:20-38 | adding keeps every rating in 1..5 and at most one review per customer and dish, counts the new review in the dish's ratings, writes an average between 1.0 and 5.0, and keeps every valid dish valid |
| Reviews.SecondReviewRefused | backend/routes/reviewRoutes.js:19-24 | after one review of a dish, the same customer's second review of it is refused |
| Reviews.ReviewedDishes | backend/routes/reviewRoutes.js:73-81 | the grouping keys are the reviewed dishes, each exactly once |
| Reviews.AveragesAll | backend/routes/reviewRoutes.js:71-94 | the averages list has exactly one entry per reviewed dish, with that dish's rounded mean and its number of reviews, which is positive |
| Reviews.AddAgreesWithAverages | backend/routes/reviewRoutes.js:27-36 | the average the add route writes is the one the averages route reports for that dish, with its review count |
| OrderViews.ReplaceById | frontend/src/components/DeliveryBoyPage.js:40-44 | the merge keeps the list's length, puts the update at every position holding that id and leaves every other entry as it was |
| OrderViews.ReplaceByIdKeepsIds | frontend/src/components/OwnerOrders.js:35-41 | an update that carries its own id never changes which ids the list holds |
| OrderViews.ReplaceByIdAbsorbs | frontend/src/components/CustomerDashboard.js:141-143 | merging two versions of the same order leaves the later one, as if only it had arrived |
| OrderViews.ReplaceByIdUnknown | frontend/src/components/CustomerDashboard.js:141-143 | an update for an order the list does not hold leaves the list unchanged: a merge never adds an entry |
| OrderViews.ReplaceByIdKeepsMember | frontend/src/components/CustomerDashboard.js:141-146 | a listed order is still listed after a merge, as the update when it has that id and unchanged otherwise |
| CustomerDashboard.TimelineIndex | frontend/src/components/CustomerDashboard.js:290-301 | the step index is always 0..3: 3 exactly for "Delivered", 2 exactly for the picked-up label, "OutForDelivery" or "PickedUp", 1 exactly for "Preparing", and 0 for everything else, absent and empty included |
| CustomerDashboard.StatusIndexOfOrder | frontend/src/components/CustomerDashboard.js:290-301 | for every stored status, the timeline shows step 3 exactly for Delivered, step 2 exactly for the picked-up label and the two courier-track names, step 1 exactly for Preparing, and step 0 for Pending and Cancelled |
| CustomerDashboard.EtaText | frontend/src/components/CustomerDashboard.js:303-318 | the ETA text is "Delivered" exactly for index 3 and empty exactly for an index outside 0..3 |
| CustomerDashboard.Eta | frontend/src/components/CustomerDashboard.js:303-305 | the ETA of a tracked order, or of none, is never empty, and is "Delivered" exactly for a delivered order |
| CustomerDashboard.Steps | frontend/src/components/CustomerDashboard.js:747-756 | of the four steps the first is always done, a done step has every earlier step done, the last is done exactly when the order is delivered, and a step is done exactly when its index is at most the current one |
| CustomerDashboard.CourierActionsKeepTimeline | frontend/src/components/CustomerDashboard.js:290-301 | accept and pickup by the courier routes leave the customer's timeline where it was, and delivered moves it to the last step, never back |
| CustomerDashboard.OwnerRouteCanRewindTimeline | backend/routes/orderRoutes.js:93-101 | the owner's unchecked status route takes a delivered order's timeline back to the first step |
| CustomerDashboard.MergeCreated | frontend/src/components/CustomerDashboard.js:123-127 | a created order goes to the front and the rest of the list follows unchanged |
| CustomerDashboard.MergeUpdated | frontend/src/components/CustomerDashboard.js:134-143 | an update for this customer replaces the entry with its id; an update for another customer, a `null` payload or a pool notice changes nothing; length and ids are kept |
| CustomerDashboard.MergeSelected | frontend/src/components/CustomerDashboard.js:144-146 | the tracked order becomes the payload exactly when the payload is this customer's update of that same order; an update of another order, or another customer's, leaves it as it was, and an empty selection stays empty |
| CustomerDashboard.PopulationIrrelevant | frontend/src/components/CustomerDashboard.js:135-138 | a populated and a plain customer reference merge the same way |
| CustomerDashboard.SelectedStaysListed | frontend/src/components/CustomerDashboard.js:134-147 | a tracked order taken from the list is still in the list after any update, so the two never disagree |
| CustomerDashboard.CreatedThenUpdated | frontend/src/components/CustomerDashboard.js:123-143 | a newly created order followed by its update leaves the update at the front of the unchanged list |
| CustomerDashboard.HotelDishes | frontend/src/components/CustomerDashboard.js:179 | the hotel filter keeps exactly the dishes of that hotel |
| CustomerDashboard.Matching | frontend/src/components/CustomerDashboard.js:183-186 | the search keeps exactly the dishes whose name or hotel name contains the search text, ignoring case |
| CustomerDashboard.SearchFilter | frontend/src/components/CustomerDashboard.js:177-188 | a blank search shows all dishes, or exactly the chosen hotel's; any other search shows exactly the dishes whose name or hotel contains the text, ignoring case; the result is never longer than the list |
| CustomerDashboard.SearchIgnoresSelectedHotel | frontend/src/components/CustomerDashboard.js:183-187 | a non-blank search gives the same result whichever hotel is chosen |
| CustomerDashboard.SearchFindsItsName | frontend/src/components/CustomerDashboard.js:183-186 | a dish is found by searching for its exact name |
| CustomerDashboard.SearchIsNotTrimmed | frontend/src/components/CustomerDashboard.js:178-185 | the search text is used untrimmed: a leading space stops it finding a dish with no spaces in its name or hotel |
| CustomerDashboard.DashboardRequest | frontend/src/components/CustomerDashboard.js:246-271 | without a customer or with an empty cart nothing is sent; otherwise one order for the whole cart, addressed to the first line's owner, with every line as an item and the server's cart total |
| CustomerDashboard.DashboardIgnoresSecondOwner | frontend/src/components/CustomerDashboard.js:256-271 | with two hotels in the cart the cart page sends two or more orders, while this page sends one to the first hotel that also carries the other hotel's dish |
| CustomerDashboard.DashboardChargesCartTotal | frontend/src/components/CustomerDashboard.js:257 | on rows the server keeps, this page's single order charges the same total the cart page shows |
| DeliveryPage.VisibleOrders | frontend/src/components/DeliveryBoyPage.js:54-66 | the page lists exactly the fetched orders that are Unassigned or carry this courier, and no more than were fetched |
| DeliveryPage.OfferedAction | frontend/src/components/DeliveryBoyPage.js:240-265 | exactly one button per state: Accept exactly for Unassigned, Mark as Picked Up exactly for Assigned, Mark as Delivered exactly for PickedUp, and none otherwise |
| DeliveryPage.OfferedIffGuardAllows | frontend/src/components/DeliveryBoyPage.js:240-265 | each button is offered exactly when the guarded courier route for that action would accept the order |
| DeliveryPage.MergeUpdate | frontend/src/components/DeliveryBoyPage.js:40-44 | an update replaces the entry with its id, with no ownership check and the length kept; a pool notice changes nothing; a `null` payload throws in the updater and unmounts the page exactly when the list is not empty, and leaves an empty list as it is |
| DeliveryPage.Step | frontend/src/components/DeliveryBoyPage.js:27-44 | an unmounted page stays unmounted; a mounted page ignores every event that is not an `order-updated` in a room it listens in, and merges every one that is |
| DeliveryPage.Receive | frontend/src/components/DeliveryBoyPage.js:27-44 | across any published events an unmounted page stays unmounted and a mounted list keeps its length; the page is unchanged when none of them is an `order-updated` in a room it listens in; it ends unmounted exactly when it was, or when its list was not empty and some heard update carried `null`; a single event is exactly one step |
| DeliveryPage.ReceiveAppend | frontend/src/components/DeliveryBoyPage.js:40-44 | events are handled one at a time: receiving two batches in a row is receiving their concatenation |
| DeliveryPage.UnknownIdUnmountsPages | backend/routes/orderRoutes.js:175-191 | pickup or delivered for an id not in the store broadcasts `null`, which unmounts every courier page listing at least one order and leaves a page listing none mounted |
| DeliveryPage.Act | frontend/src/components/DeliveryBoyPage.js:77-128 | accept, pickup and delivered go to the unguarded order routes: the store takes that route's write, even when accept then fails because the order's customer or owner document is gone; the answer replaces exactly the entry with the requested id, a failed accept leaves the list alone, and an unknown id changes neither store nor list |
| DeliveryPage.OfferedActionsAgreeWithGuarded | frontend/src/components/DeliveryBoyPage.js:79-117 | used only as offered, the page's actions write what the guarded routes would, except that pickup also sets the picked-up status |
| DeliveryPage.AcceptIsNotWithdrawn | frontend/src/components/DeliveryBoyPage.js:77-84 | another courier's accept never reaches this page, so the order still shows Accept here and pressing it takes the order over |
| DeliveryPage.StrangerCanDeliver | frontend/src/components/DeliveryBoyPage.js:40-44 | a broadcast pickup is merged by every courier page that listed the order, which then offers Mark as Delivered for another courier's order and can deliver it |
| OwnerOrders.FilterOrders | frontend/src/components/OwnerOrders.js:87-88 | the "All" tab lists every order unchanged; any other tab lists exactly the orders whose status equals its label |
| OwnerOrders.FinishedOnlyUnderAll | frontend/src/components/OwnerOrders.js:87-88 | a delivered or cancelled order is listed under "All" and under no status tab |
| OwnerOrders.WorkingUnderOneTab | frontend/src/components/OwnerOrders.js:87-88 | an order in one of the three working states is listed under exactly one status tab |
| OwnerOrders.NextStatus | frontend/src/components/OwnerOrders.js:185-207 | the page offers "Preparing" exactly for a pending order, the picked-up label exactly for a preparing one, and no transition for any other status |
| OwnerOrders.NextStatusAdvancesTimeline | frontend/src/components/OwnerOrders.js:185-207 | each offered transition moves the order exactly one step along the customer's timeline |
| OwnerOrders.ChangeStatus | frontend/src/components/OwnerOrders.js:64-76 | a status change the route refuses leaves store and page alone; otherwise the store takes the status route's write, and the page replaces exactly the entry with the requested id by the answer when the route answers, and is left alone when the route fails after writing |
| OwnerOrders.ButtonsPickUpWithoutCourier | frontend/src/components/OwnerOrders.js:185-207 | two presses of the offered buttons take a new order to the picked-up label, after which no button is offered and the courier track reads PickedUp with no courier ever assigned |
| OwnerOrders.MergeNew | frontend/src/components/OwnerOrders.js:28-32 | a `new-order` event goes to the front exactly when its plain owner id is this owner's; otherwise nothing changes |
| OwnerOrders.MergeUpdated | frontend/src/components/OwnerOrders.js:35-41 | an `order-updated` event replaces the entry with its id exactly when its plain owner id is this owner's; the length is always kept |
| OwnerOrders.Receive | frontend/src/components/OwnerOrders.js:20-41 | published events that none of the listeners acts on leave the list unchanged, without a `new-order` the length is kept, and a single event is handled by its listener alone |
| OwnerOrders.ReceiveOne | frontend/src/components/OwnerOrders.js:28-41 | one event the page merges puts a `new-order` payload in front or replaces the entry with an `order-updated` payload's id; any other event leaves the list alone |
| OwnerOrders.ReceiveAppend | frontend/src/components/OwnerOrders.js:28-41 | events are handled one at a time: receiving two batches in a row is receiving their concatenation |
| OwnerOrders.PageIgnores | frontend/src/components/OwnerOrders.js:20-25 | a page that joined no room, facing broadcasts that carry only populated orders or `null`, never changes its list |
| OwnerOrders.RoutesNeverReachPage | backend/routes/orderRoutes.js:31-40 | create, the broadcasting pickup and delivered, and the courier accept and pickup all publish only what such a page ignores, so it never updates live |
| OwnerOrders.JoinedPageWouldGetNewOrder | backend/routes/orderRoutes.js:32 | had the page joined its owner room, a created order would be put in front of its list |
| OwnerOrders.JoinedPageWouldSeePickup | backend/routes/deliveryRoutes.js:117-118 | had the page joined its owner room, a courier's pickup would replace that order's entry |
| OwnerOrders.PopulatedNeverMerges | frontend/src/components/OwnerOrders.js:29-36 | an event carrying a populated order is never merged, whatever rooms the page joined |
| Validators.EmailWithDotIsWithAt | frontend/src/components/LoginPopup.js:23 | every address the dotted rule accepts is also accepted by the popup's looser rule |
| Validators.EmailWithDotIffDotAfterAt | backend/routes/customerRoutes.js:29 | an address passes the dotted rule exactly when it passes the popup's rule and has a dot after the `@` with a character on each side of the dot, so the rules differ by that dot alone |
| Validators.StrongPasswordRotates | frontend/src/components/LoginPopup.js:24-25 | the strong-password rule depends only on which characters occur: moving any prefix to the end never changes the verdict, so the capital letter need not come first |
| CustomerRoutes.FindByEmail | backend/routes/customerRoutes.js:33 | the lookup finds the first customer whose stored address is the lower-cased query, and none exactly when no customer has it |
| CustomerRoutes.FindById | backend/routes/customerRoutes.js:179-181 | the lookup finds a customer with that id, and none exactly when no customer has it |
| CustomerRoutes.Register | backend/routes/customerRoutes.js:12-55 | any missing field is a bad request; registration succeeds exactly when the name, phone and dotted e-mail patterns hold, the e-mail is new, the trimmed name has three or more characters and the phone is new; the customer is appended with trimmed name, lower-cased e-mail, hashed password and empty address; an existing e-mail gives "already exists" |
| CustomerRoutes.RegisterIgnoresPasswordLength | backend/routes/customerRoutes.js:17-45 | a registration accepted with one password is accepted with any other non-empty one, however short |
| CustomerRoutes.Login | backend/routes/customerRoutes.js:63-85 | a missing field is a bad request; login succeeds exactly when the customer with that e-mail has that password, and an unknown e-mail and a wrong password get the same answer |
| CustomerRoutes.LoginAfterRegister | backend/routes/customerRoutes.js:33-74 | logging in with the details just registered succeeds |
| CustomerRoutes.Profile | backend/routes/customerRoutes.js:121-161 | the update succeeds exactly when every supplied field passes its pattern, no other customer holds the supplied e-mail or phone, and the customer exists; the refusals come in the order name, phone, e-mail pattern, e-mail in use, not found, phone taken; on success only the customer's own entry changes, taking the truthy fields and any sent address |
| CustomerRoutes.UnclaimedAfterOwnUpdate | backend/routes/customerRoutes.js:133-155 | after an accepted update no other customer holds the e-mail or phone it supplied, since only the customer's own entry was rewritten |
| CustomerRoutes.ProfileIdempotent | backend/routes/customerRoutes.js:121-161 | sending an accepted update a second time is accepted again and changes nothing |
| CustomerRoutes.ProfileClearsAddress | backend/routes/customerRoutes.js:147 | an update with only an empty address clears the stored address and keeps every other field |
| CustomerRoutes.ChangePassword | backend/routes/customerRoutes.js:172-198 | a missing password is a bad request and an unknown customer not found; a wrong current password, then a short new one, are refused in that order; the change succeeds exactly when the current password matches, the new one has six or more characters and the stored customer passes the customer schema as the save checks it, and then only that customer's password changes; otherwise it is a server error |
| CustomerRoutes.WrongCurrentReportedFirst | backend/routes/customerRoutes.js:183-188 | for every customer and every wrong current password, the answer is a wrong current password whatever the new one, because its length is checked only after the match |
| CustomerRoutes.ShortNameBlocksPasswordChange | backend/routes/customerRoutes.js:125-128 | the profile route stores a name shorter than the schema's three characters, after which every password change fails, as a server error once the current password matches and the new one is long enough |
| DeliveryAuth.Validate | frontend/src/components/DeliveryBoyAuth.js:20-40 | e-mail fails exactly when the dotted rule fails and the password exactly when it is under six characters; name, phone and confirmation fail only in signup mode, exactly when the name is blank, the phone pattern fails, or the confirmation is empty or different |
| DeliveryAuth.EmailInputValue | frontend/src/components/DeliveryBoyAuth.js:135-145 | the `type="email"` input holds no line break and no ASCII whitespace at either end, and never more characters than were typed |
| DeliveryAuth.EmailInputKeepsSanitized | frontend/src/components/DeliveryBoyAuth.js:135-145 | the input holds what was typed exactly when it has no line break and no ASCII whitespace at either end |
| DeliveryAuth.EmailInputStripsPadding | frontend/src/components/DeliveryBoyAuth.js:135-145 | ASCII whitespace typed before and after an address, line breaks included, is dropped, and the address itself is held unchanged |
| DeliveryAuth.InputValue | frontend/src/components/DeliveryBoyAuth.js:108-174 | every input drops line breaks and keeps text without them; the e-mail input also strips ASCII whitespace from both ends |
| DeliveryAuth.Typed | frontend/src/components/DeliveryBoyAuth.js:46-51 | typing into one input stores that input's value in its field and changes no other field |
| DeliveryAuth.Submit | frontend/src/components/DeliveryBoyAuth.js:53-83 | the browser withholds the submit exactly when the e-mail is not empty and is not a valid address under the HTML rule; otherwise the form is refused exactly when some check fails, reporting exactly those fields, and else a login sends e-mail and password and a signup sends the form as stored |
| DeliveryAuth.SentIsValid | frontend/src/components/DeliveryBoyAuth.js:20-40 | whatever is sent has a dotted e-mail that is also a valid address under the HTML rule and a long-enough password, and a signup also has a name, a valid phone and a matching confirmation |
| DeliveryAuth.SignupChecksMore | frontend/src/components/DeliveryBoyAuth.js:29-37 | a signup finds every error a login finds, and more only among name, phone and confirmation |
| DeliveryAuth.LoginIgnoresSignupFields | frontend/src/components/DeliveryBoyAuth.js:29 | a login's outcome does not depend on the name, phone or confirmation fields |
| DeliveryAuth.PaddedEmailSubmitsAsBare | frontend/src/components/DeliveryBoyAuth.js:135-145 | blanks typed around an address change nothing: the submit goes exactly as for the bare address |
| DeliveryAuth.UnicodeBlankIsBlocked | frontend/src/components/DeliveryBoyAuth.js:102 | an e-mail starting with a blank the input keeps (a vertical tab or a non-ASCII space) never reaches the page's checks: the browser withholds the submit |
| DeliveryAuth.CourierEmailPassesPopup | frontend/src/components/DeliveryBoyAuth.js:23-24 | an address the courier form accepts is accepted by the customer and owner popup too |
| LoginPopup.SetValue | frontend/src/components/LoginPopup.js:76-78 | a keystroke stores the typed value in its own field and leaves the other four fields as they were |
| LoginPopup.Open | frontend/src/components/LoginPopup.js:28-39 | opening the popup or switching mode or between login and signup clears all five fields and every error message |
| LoginPopup.Change | frontend/src/components/LoginPopup.js:42-80 | a keystroke re-checks only the field typed in, on its trimmed value, with the confirmation compared to the password held at that moment; every other message, the server's included, keeps its state |
| LoginPopup.ChangeAll | frontend/src/components/LoginPopup.js:76-80 | a run of keystrokes never changes the popup's mode or whether it is a signup |
| LoginPopup.RequestOf | frontend/src/components/LoginPopup.js:101-124 | the request body carries the trimmed e-mail and password, plus the trimmed name and phone exactly when signing up, and never the confirmation |
| LoginPopup.Submit | frontend/src/components/LoginPopup.js:83-99 | the browser holds back a form with an empty required input; otherwise a submit is refused exactly when some message held before the press is set, the server's included, and otherwise sends the request body |
| LoginPopup.Recheck | frontend/src/components/LoginPopup.js:42-72 | submit's check of one field sets that field's message exactly when its value fails, the confirmation against the current password, and keeps the form and every other message |
| LoginPopup.AfterPress | frontend/src/components/LoginPopup.js:83-86 | a press the browser holds back changes nothing; otherwise the form, mode and server message are kept while the field messages are re-checked |
| LoginPopup.AfterPressRechecksAll | frontend/src/components/LoginPopup.js:83-86 | after a press that reaches the handler, every field's message, hidden fields and the confirmation included, is set exactly when that field fails on the form as it stands |
| LoginPopup.AfterPressTracked | frontend/src/components/LoginPopup.js:83-86 | after any press the messages agree with the fields again |
| LoginPopup.AfterPressIdempotent | frontend/src/components/LoginPopup.js:83-86 | a second press without typing leaves the error state as the first left it |
| LoginPopup.NextPressSendsIffValid | frontend/src/components/LoginPopup.js:83-91 | the press after one that reached the handler sends exactly when the server's message is unset and every field passes on the current form |
| LoginPopup.NextPressSendsOnlyValid | frontend/src/components/LoginPopup.js:83-91 | a next press that sends has no server message and every field passing |
| LoginPopup.ValidNextPressSends | frontend/src/components/LoginPopup.js:83-124 | with no server message and every field passing, the next press sends the form's request |
| LoginPopup.FailureAfterPress | frontend/src/components/LoginPopup.js:151-157 | a failed request discards whatever the press left in the error state |
| LoginPopup.PressFlagsStaleConfirm | frontend/src/components/LoginPopup.js:64-67 | on a signup whose confirmation differs from the current password, a press flags the confirmation and the next press is refused |
| LoginPopup.FlagBlocksRetry | frontend/src/components/LoginPopup.js:72-91 | a flagged field stays flagged through keystrokes in other fields, so no later submit goes out until it is retyped |
| LoginPopup.FieldKeyStays | frontend/src/components/LoginPopup.js:72 | keystrokes in other fields never clear a field's message |
| LoginPopup.StaleConfirmBlocksRetry | frontend/src/components/LoginPopup.js:64-91 | after a press on a signup with a stale confirmation, no run of keystrokes that avoids the confirmation lets the form out |
| LoginPopup.Failed | frontend/src/components/LoginPopup.js:151-157 | a failed request replaces the whole error state with the server's message and keeps the form |
| LoginPopup.OpenTracked | frontend/src/components/LoginPopup.js:28-39 | a freshly opened popup's messages agree with its fields |
| LoginPopup.ChangeKeepsTracked | frontend/src/components/LoginPopup.js:42-80 | if each self-contained field's message agrees with its value before a keystroke, it still does afterwards |
| LoginPopup.ChangeAllKeepsTracked | frontend/src/components/LoginPopup.js:42-80 | the agreement between messages and fields survives any run of keystrokes |
| LoginPopup.SentRequestPassesRules | frontend/src/components/LoginPopup.js:21-25 | whatever the popup sends has an address with one `@`, a strong password and, on signup, a capitalised name and a valid phone |
| LoginPopup.SentPasswordIsLongEnough | frontend/src/components/LoginPopup.js:24-25 | every password the popup sends has at least six characters |
| LoginPopup.ApiKeyStays | frontend/src/components/LoginPopup.js:72 | once the server's message is set, no keystroke removes it |
| LoginPopup.StuckAfterFailure | frontend/src/components/LoginPopup.js:88-91 | after one failed request, every later submit is refused whatever is typed, until the popup is reopened or its mode switched |
| LoginPopup.SubmitCorrected | frontend/src/components/LoginPopup.js:88-91 | the intended gate: a filled form is refused exactly when some field message is set, the server's message being display only |
| LoginPopup.FailedCorrected | frontend/src/components/LoginPopup.js:151-157 | with the intended gate, a failure adds the server's message to the field messages and keeps the form |
| LoginPopup.RetryAfterFailure | frontend/src/components/LoginPopup.js:83-157 | with the intended gate, a request the server refused can be sent again unchanged, while the written gate refuses it, and messages keep agreeing with fields |
| LoginPopup.CorrectedSentPassesRules | frontend/src/components/LoginPopup.js:21-25 | the intended gate still sends only requests that pass the popup's own rules |
| LoginPopup.ConfirmGoesStale | frontend/src/components/LoginPopup.js:42-80 | retyping the password of a filled, error-free signup to another strong value leaves the confirmation unflagged, so submit sends a request whose password differs from its confirmation |
| BotParser.DetectIntent | backend/routes/aiOrderBot.js:57-65 | the fallback reads an order exactly when the lower-cased message contains one of the seven order phrases, and a search otherwise; it never yields the info intent |
| BotParser.BeforeSeparator | backend/routes/aiOrderBot.js:79 | the text before the split is the longest prefix in which no separator word starts, and it stops exactly where one does |
| BotParser.DishName | backend/routes/aiOrderBot.js:67-86 | the dish is the first known dish, in list order, that the message contains; failing that, the word fallback when it is 1 to 40 characters long; otherwise empty |
| BotParser.TokenCandidateWords | backend/routes/aiOrderBot.js:79-84 | read back as words, the word fallback is exactly the last one or two words of the text before the first separator |
| BotParser.LastTwoRoundTrip | backend/routes/aiOrderBot.js:83 | joining the last two non-empty words with a space and splitting the result on whitespace gives those words back |
| BotParser.KeywordPriceAt | backend/routes/aiOrderBot.js:90 | a keyword price is read only where "under", "below", "less than" or "<" starts |
| BotParser.RupeePriceAt | backend/routes/aiOrderBot.js:91 | a rupee price is read exactly where a rupee sign is followed, after optional blanks, by a digit, and its value is the number written there |
| BotParser.MaxPrice | backend/routes/aiOrderBot.js:88-94 | the price ceiling is the whole-rupee value of the leftmost keyword price; only when there is none, of the leftmost rupee price; otherwise there is no ceiling, and then neither pattern matches anywhere |
| BotParser.RatingAfter | backend/routes/aiOrderBot.js:98 | after a rating word and optional blanks, a rating is read exactly when a digit 0 to 5 follows; its whole part is that digit and its tenths digit is the one after a following dot, or 0 when there is none |
| BotParser.MinRating | backend/routes/aiOrderBot.js:96-99 | the rating floor is present exactly when the rating pattern matches, is the leftmost match's value, is the rating read after some rating word in the message, and never exceeds 5.9 stars |
| BotParser.RatingAfterReadsText | backend/routes/aiOrderBot.js:98 | a rating written as digit, dot, digit after any prefix and any number of blanks is read back as exactly that many tenths of a star |
| BotParser.HotelName | backend/routes/aiOrderBot.js:101-104 | the hotel is the trimmed capture of the leftmost "from" or "at" match, and empty when the pattern matches nowhere |
| BotParser.HotelRunsToEnd | backend/routes/aiOrderBot.js:103-104 | the capture is greedy: when the rest of the message after "from" and its blanks is 2 to 60 allowed characters, the hotel is the whole trimmed rest, a trailing "hotel" or "restaurant" included |
| BotParser.DigitQuantityAt | backend/routes/aiOrderBot.js:108 | the quantity pattern matches at a position exactly when a digit run starts there and, after optional blanks, a letter follows it; the quantity is the number the run spells |
| BotParser.NumberWordIndex | backend/routes/aiOrderBot.js:111-118 | the number word chosen is the first of one to five, in that order, that stands as a word before the dish name |
| BotParser.Quantity | backend/routes/aiOrderBot.js:106-119 | the quantity is at least 1: the leftmost number in the message (at least 1), else the value of the first number word placed before the dish, else 1 |
| BotParser.QuantityTakesPriceDigits | backend/routes/aiOrderBot.js:90-109 | when "under N" holds the first digits of the message and a word follows them, N is read both as the price ceiling and as the quantity |
| BotParser.Fallback | backend/routes/aiOrderBot.js:52-135 | each field is the corresponding parse of the lower-cased message; the parse always has a quantity of at least 1, an order or search intent, a rating floor of at most 5.9 stars, and a dish that is known or at most 40 characters |
| BotParser.FallbackIgnoresCase | backend/routes/aiOrderBot.js:55 | a message and its lower-cased form parse the same |
| BotPipeline.Query | backend/routes/aiOrderBot.js:186-196 | the query returns exactly the dishes whose name contains the parsed dish name ignoring case, whose hotel is the parsed one when asked, and whose price is within a truthy ceiling |
| BotPipeline.Candidates | backend/routes/aiOrderBot.js:196-203 | the candidates are the full query when it finds anything, and otherwise the query without the hotel; so they honour the parsed hotel whenever one of its dishes matches and are empty exactly when nothing matches even without it |
| BotPipeline.HotelNeverNarrows | backend/routes/aiOrderBot.js:188-193 | dishes as the schema stores them have no hotel name, so a parsed hotel never changes the candidates |
| BotPipeline.MeanHundredthsBounds | backend/routes/aiOrderBot.js:210-217 | a dish with reviews of one to five stars averages between 1.00 and 5.00 stars |
| BotPipeline.RatingAtMostFive | backend/routes/aiOrderBot.js:216-218 | with valid reviews, every dish's rating is between 0 and 5.00 stars, 0 meaning unreviewed |
| BotPipeline.Enrich | backend/routes/aiOrderBot.js:218 | each candidate keeps its place and carries its own average |
| BotPipeline.AboveFloor | backend/routes/aiOrderBot.js:220-221 | a truthy floor keeps exactly the dishes rated at or above it; a missing or zero floor keeps everything |
| BotPipeline.FloorAboveFiveEmpties | backend/routes/aiOrderBot.js:221-225 | a floor above five stars leaves no dish, whatever the candidates |
| BotPipeline.Best | backend/routes/aiOrderBot.js:227-234 | the dish picked is one no other beats on rating and then price, and every entry before it is beaten by it, as a stable sort puts first |
| BotPipeline.BestIsUnique | backend/routes/aiOrderBot.js:227-234 | only one position has both properties, so the pick is the one any stable sort by this order puts first |
| BotPipeline.Choose | backend/routes/aiOrderBot.js:185-234 | the order intent finds nothing exactly when no dish matches even without the hotel; otherwise it picks a candidate that clears the floor and that no other candidate clearing the floor beats, or reports that none clears it |
| BotPipeline.DeliveryAddress | backend/routes/aiOrderBot.js:237-240 | the address is the trimmed override when it is not blank, otherwise the customer's stored address when it is not empty, and is never empty |
| BotPipeline.Search | backend/routes/aiOrderBot.js:163-183 | a non-order intent lists the first thirty (or all, when fewer) dishes matching name and hotel, ignoring the price ceiling, in query order, each with its average rating |
| BotPipeline.SearchIgnoresPrice | backend/routes/aiOrderBot.js:163-169 | the search answer is the same whatever price ceiling was parsed |
| BotPipeline.OrderedQuantity | backend/routes/aiOrderBot.js:261 | the quantity ordered is the parsed one, or 1 when that is zero |
| BotPipeline.BotOrder | backend/routes/aiOrderBot.js:252-269 | the stored order holds one line for the chosen dish at its price, a total of price times quantity, the dish's owner, cash on delivery, pending and unassigned |
| BotPipeline.BotOrderSchemaValid | backend/models/Order.js:26-37 | with a customer id and an address present, the bot's order passes the order schema exactly when the chosen dish has an owner, an id and a name |
| BotPipeline.BotEmits | backend/routes/aiOrderBot.js:274-295 | a placed order is announced as `order-created` to the customer only, `new-order` to its owner only, and a reduced notice to the courier pool |
| BotPipeline.OrderBot | backend/routes/aiOrderBot.js:144-310 | the endpoint rejects a missing message or customer id, answers a non-order intent with the search, and for an order answers no match, no rated match, a request for an address, a rejected create or the placed order according to the choice, the address and the chosen dish; an order is placed exactly when a dish is chosen, an address is found and the dish has an owner, an id and a name, so that `Order.create` accepts it, and only then is the store changed and the order announced |
| BotPipeline.OrderBotKeepsCourierConsistency | backend/routes/aiOrderBot.js:262-276 | every order the bot stores satisfies the courier-track invariant, so a store where all orders do keeps that property |
| BotPipeline.NonOrderIntentOnlySearches | backend/routes/aiOrderBot.js:163-183 | a non-order intent answers with the search results, stores nothing and publishes nothing |
| BotPipeline.PlacedOrderShape | backend/routes/aiOrderBot.js:252-269 | a placed order holds the chosen dish at its price, `quantity or 1`, the total, the dish's owner and the requesting customer, and the dish matches the query and clears the floor |
| BotPipeline.NoAddressNoOrder | backend/routes/aiOrderBot.js:242-250 | without a usable override or stored address, no order is placed and the store is unchanged |
| BotPipeline.UnknownCustomerStillServed | backend/routes/aiOrderBot.js:238-271 | the customer id is looked up only for its address: with a non-blank override an order for a storable dish is placed for an id no customer has |
| BotPipeline.FallbackQuantityOrdered | backend/routes/aiOrderBot.js:106-109 | with the fallback parser, the quantity ordered is exactly the parsed one |
| Text.Trim | frontend/src/components/LoginPopup.js:44 | trimming removes exactly a leading and a trailing run of blanks and leaves a result that neither starts nor ends with one |
| Text.TrimIdempotent | frontend/src/components/LoginPopup.js:44 | trimming twice is trimming once |
| Text.ToLowerIdempotent | backend/models/Customer.js:29 | lower-casing a stored, already lower-cased e-mail again leaves it unchanged |
| Text.Words | backend/routes/aiOrderBot.js:80 | splitting on whitespace yields only non-empty words without blanks |
| BotPipeline.ChosenIsBest | backend/routes/aiOrderBot.js:220-234 | the first entry after the floor and the sort is a candidate with its own average, clears the floor, and is beaten by no candidate that clears it |

## Left out

- The language-model call of the bot (backend/routes/aiOrderBot.js:20-50) is a network request. `BotPipeline.OrderBot` takes the parse as a parameter, and `BotParser.Fallback` models the fallback branch.
- Socket transport, connections and room joins (backend/server.js) are left out. A handler returns its events as a list, and a page is given the list of events it would receive.
- Concurrency is left out. The courier accept reads and then saves, so two couriers can race. Each handler runs alone on the store.
- Mongoose mechanics are abstracted: `populate` is a flag on the payload, and `aggregate` is a plain fold. `limit(30)` is a prefix. `sort({ createdAt: -1 })` on listings is left out, so listings keep store order. Timestamps are a `now: nat` parameter. Schema validators that a route bypasses are not applied. `save()` validates every path of the loaded document, not only the modified ones, and the model applies the whole schema there (`DeliveryRoutes.Save`, `CustomerRoutes.CustomerSchemaValid`).
- The bot's hotel filter on dishes (backend/routes/aiOrderBot.js:163-169, 188-192) is modelled as Mongoose 7 and later run it, with `strictQuery` off by default, so the filter on a path the dish schema lacks reaches the database and matches nothing. Mongoose 6 strips such a path from the filter, and the hotel would then be ignored. The project does not pin the version.
- `$regex` with the `i` option on user text is read as a case-insensitive substring test. Pattern characters in the user's text are not interpreted.
- BotParser.NumberWordIndex: the source builds a regular expression out of the number word and the parsed dish name (backend/routes/aiOrderBot.js:114), so pattern characters in the dish name are interpreted, and an unbalanced one such as "(" throws a SyntaxError that the route answers with 500 (backend/routes/aiOrderBot.js:305-308). The model matches the dish name as literal text, so for a dish name holding such characters it can find a number word where the source finds none, and it answers where the source fails.
- BotParser.Quantity: inherits the literal dish-name match of `BotParser.NumberWordIndex`, with the same differences.
- Floating point is left out. Ratings are integers: review averages are tenths, rounded half up as `toFixed(1)` of the exact mean. The bot's averages are hundredths, the same for `toFixed(2)`. The ranking's 1e-6 tie epsilon is equality on those integers. JavaScript rounds the double nearest the mean, not the mean itself, so the two can differ at a half: twenty ratings summing to 23 have mean 1.15, the double below it prints as "1.1" under `toFixed(1)`, and `Reviews.MeanTenths` gives 12. A decimal price such as "199.5" is read as its whole part, as `Math.floor(parseFloat(...))` gives.
- Prices and quantities are unbounded integers. JavaScript number overflow and `NaN` beyond the cart's missing-price case are not modelled.
- Password hashing is an ideal injective digest. The random owner code is a parameter: a list of candidate codes.
- Reverse geocoding (backend/routes/location.js) is an external call and is left out.
- `Text.ToLower` lower-cases only the letters A to Z, while JavaScript's `toLowerCase` and the `i` flag of `$regex` fold every Unicode letter. Every case-insensitive comparison of the model differs there: `CustomerDashboard.Matching` finds no "crème" in "CRÈME BRÛLÉE", while the source does; the same holds for `Text.ContainsIgnoringCase` in `BotPipeline.Query` and `OwnerRoutes.Search`, and for the lower-cased e-mail in `CustomerRoutes.FindByEmail`.
- Strings are sequences of Unicode characters, while JavaScript's `.length` counts UTF-16 code units. Every length check of the model differs for characters outside the Basic Multilingual Plane: "😀😀😀" has length 6 in JavaScript and passes the six-character password rule there, but has length 3 here and fails `Validators.LongEnough`. The same applies to the 200-character description limit and the 40-character dish-name limit.
- Read-only routes that pass documents through are left out: order listings by customer, owner or courier; the owner's dishes, hotels and hotel page; customer look-ups; reviews by dish.
- The owner's dish edit and single-dish delete (backend/routes/ownerRoutes.js:149-171) and the customer account delete are left out. They are single document writes with no rule of their own. The edit runs no validators, so it can store a dish that the schema's rules would refuse.
- Courier register and login (backend/routes/deliveryRoutes.js:14-72) are left out. Only the courier form's checks are modelled (`DeliveryAuth`).
- Home, CustomerSettings, OwnerDashboard, YemzoChatbot, Menu and App are left out. They render, navigate or duplicate filters and merges modelled here.
- The account schemas (Customer, Owner, DeliveryBoy) are modelled only where a route relies on them: trimming, lower-casing, unique indexes, and the customer checks that `save()` repeats on a password change.
- The seed and cleanup scripts and the food routes are left out. The cleanup script repeats the orphan cleanup of the owner routes.
- The courier form's e-mail check follows the "valid e-mail address" rule of section 4.10.5.1.5 of the HTML Living Standard. Browsers that first convert an internationalised domain to its ASCII form accept such domains, which the model blocks.
- A form's `required` inputs are modelled as the browser refusing to submit while a visible input is empty (`LoginPopup.Filled`).
- The bot's reply texts and the order-id suffix are left out; replies are constructors.
- An id that is not a valid document id makes Mongoose's cast throw, which every route answers with 500: the bot's customer lookup, the owner's dish add, the cart routes, the courier routes, the order router's status and assign, and the customer profile and password change. The model treats every id as well formed, so an unknown id is not found (or, for the bot, finds no customer).
- LoginPopup.NameKey has no contract. It only names the request field that carries the name (`hotelName` for owners).
- OrderRoutes.UpdateStatus: a missing customer or owner is modelled as the crash after the write (`OrderRoutes.NotifyParties`), but a missing courier, which the route tolerates, is `null` in the source's payload; the model's payload carries the order with its ids and a populated flag, so the reply and emits do not show that `null`. The same holds for `OrderRoutes.Assign`, and for all three references in `OrderRoutes.Pickup` and `OrderRoutes.Deliver`, which read no field of them (backend/routes/orderRoutes.js:186-191, 215-220).
- The courier page's own `socket.emit("order-updated")` calls are left out. The server has no handler that relays them.
- `available-order` makes the courier page refetch. The refetch is the `DeliveryPage.VisibleOrders` listing and is not replayed inside `DeliveryPage.Receive`.
- CartRoutes.Get: the listing keeps store order rather than newest first.

## Findings

| source | as written | input that shows it | evidently intended | confidence | as-written member | corrected member |
|---|---|---|---|---|---|---|
| frontend/src/components/LoginPopup.js:88-91 | after a failed request the error state holds only the server's message. Typing re-checks single fields and never removes it, and submit refuses while any message is set | a login with a wrong password, then the right one typed in and submitted again | only field messages block a submit, and the server's message is shown without blocking a retry | not executed | LoginPopup.StuckAfterFailure | LoginPopup.RetryAfterFailure |

=== FILE: bot_parser.dfy ===
/** The local fallback of `parseUserInstruction` in
    backend/routes/aiOrderBot.js: substring tests and regular-expression
    matches over the lower-cased message, each regular expression written
    out as the leftmost-position, backtracking search JavaScript performs. */
module BotParser {
  import opened Wrappers
  import opened Text

  datatype Intent = OrderIntent | SearchIntent | InfoIntent

  /** The parse result. `maxPrice` is in whole rupees, `minRating` in
      hundredths of a star; `None` stands for `null`. */
  datatype Parsed = Parsed(
    dishName: string,
    maxPrice: Option<nat>,
    minRating: Option<nat>,
    hotelName: string,
    quantity: nat,
    intent: Intent)

  const OrderWords: seq<string> := ["order", "buy", "i want", "get me", "place order", "please order", "deliver"]
  const KnownDishes: seq<string> := ["biryani", "pizza", "burger", "fried rice", "pasta", "sandwich", "noodles", "sushi"]
  /** The alternatives of the split pattern, in order. */
  const Separators: seq<string> := ["from", "under", "below", "with", "rating", "for", "at"]
  const NumberWords: seq<string> := ["one", "two", "three", "four", "five"]
  const Rupee: char := '\U{20B9}'

  /** Index of the first word of `ws`, from `i` on, that `s` contains. */
  function FirstContained(s: string, ws: seq<string>, i: nat): (r: Option<nat>)
    requires i <= |ws|
    decreases |ws| - i
    ensures r.Some? ==> i <= r.value < |ws| && Contains(s, ws[r.value])
    ensures r.Some? ==> forall k :: i <= k < r.value ==> !Contains(s, ws[k])
    ensures r.None? ==> forall k :: i <= k < |ws| ==> !Contains(s, ws[k])
  {
    if i == |ws| then None
    else if Contains(s, ws[i]) then Some(i)
    else FirstContained(s, ws, i + 1)
  }

  /** Index of the first word of `ws`, from `k` on, that starts at position `i`. */
  function FirstAt(s: string, ws: seq<string>, i: nat, k: nat): (r: Option<nat>)
    requires k <= |ws|
    decreases |ws| - k
    ensures r.Some? ==> k <= r.value < |ws| && OccursAt(s, ws[r.value], i)
    ensures r.None? ==> forall j :: k <= j < |ws| ==> !OccursAt(s, ws[j], i)
  {
    if k == |ws| then None
    else if OccursAt(s, ws[k], i) then Some(k)
    else FirstAt(s, ws, i, k + 1)
  }

  /* ---------------------------------------------------------------
     Intent
     --------------------------------------------------------------- */

  function DetectIntent(lower: string): (r: Intent)
    ensures r == OrderIntent <==> exists k :: 0 <= k < |OrderWords| && Contains(lower, OrderWords[k])
    ensures r != InfoIntent
  {
    if FirstContained(lower, OrderWords, 0).Some? then OrderIntent else SearchIntent
  }

  /* ---------------------------------------------------------------
     Dish name
     --------------------------------------------------------------- */

  /** `lower.split(/from|under|below|with|rating|for|at/)[0]`: the text up
      to the leftmost position where any separator starts, whether or not
      that position is inside a word. */
  function BeforeSeparator(s: string): (r: string)
    ensures r <= s
    ensures forall p: nat, k :: p < |r| && 0 <= k < |Separators| ==> !OccursAt(s, Separators[k], p)
    ensures |r| < |s| ==> exists k :: 0 <= k < |Separators| && OccursAt(s, Separators[k], |r|)
  {
    var at := (i: nat) => FirstAt(s, Separators, i, 0);
    assert forall i: nat :: at(i) == FirstAt(s, Separators, i, 0);
    match Leftmost(|s|, at, 0)
    case Some((p, _)) =>
      assert forall q: nat, k | q < p && 0 <= k < |Separators| :: !OccursAt(s, Separators[k], q) by {
        forall q: nat, k | q < p && 0 <= k < |Separators| ensures !OccursAt(s, Separators[k], q) {
          assert at(q).None?;
        }
      }
      s[..p]
    case None =>
      assert forall q: nat, k | q < |s| && 0 <= k < |Separators| :: !OccursAt(s, Separators[k], q) by {
        forall q: nat, k | q < |s| && 0 <= k < |Separators| ensures !OccursAt(s, Separators[k], q) {
          assert at(q).None?;
        }
      }
      s
  }

  /** `slice(-2)`: the last two elements, or all of them when there are fewer. */
  function LastTwo(ws: seq<string>): (r: seq<string>)
    ensures |r| == if |ws| < 2 then |ws| else 2
    ensures r == ws[|ws| - |r|..]
  {
    if |ws| <= 2 then ws else ws[|ws| - 2..]
  }

  /** The word fallback: the last one or two whitespace-separated words
      before the first separator, joined by a space. */
  function TokenCandidate(lower: string): string {
    JoinSpaced(LastTwo(Words(Trim(BeforeSeparator(lower)))))
  }

  /** The first known dish, in list order, that occurs in the text;
      otherwise the word fallback when its length is 1..40; otherwise empty. */
  function DishName(lower: string): (r: string)
    ensures FirstContained(lower, KnownDishes, 0).Some? ==>
              r == KnownDishes[FirstContained(lower, KnownDishes, 0).value]
    ensures FirstContained(lower, KnownDishes, 0).None? ==>
              |r| <= 40 && (r == [] || r == TokenCandidate(lower))
    ensures FirstContained(lower, KnownDishes, 0).None? && 1 <= |TokenCandidate(lower)| <= 40 ==> r == TokenCandidate(lower)
  {
    match FirstContained(lower, KnownDishes, 0)
    case Some(k) => KnownDishes[k]
    case None =>
      var c := TokenCandidate(lower);
      if 1 <= |c| <= 40 then c else ""
  }

  /** Read back as words, the word fallback is exactly the last one or two
      words of the text before the first separator. */
  lemma TokenCandidateWords(lower: string)
    ensures Words(TokenCandidate(lower)) == LastTwo(Words(Trim(BeforeSeparator(lower))))
  {
    LastTwoRoundTrip(Words(Trim(BeforeSeparator(lower))));
  }

  lemma LastTwoRoundTrip(ws: seq<string>)
    requires forall k :: 0 <= k < |ws| ==> ws[k] != [] && NoSpaces(ws[k])
    ensures Words(JoinSpaced(LastTwo(ws))) == LastTwo(ws)
  {
    var last := LastTwo(ws);
    var n := |ws| - |last|;
    forall k | 0 <= k < |last|
      ensures last[k] != [] && NoSpaces(last[k])
    {
      assert last[k] == ws[n + k];
    }
    WordsOfJoin(last);
  }

  /* ---------------------------------------------------------------
     Price ceiling
     --------------------------------------------------------------- */

  predicate IsGapChar(c: char) { IsSpace(c) || c == Rupee }

  /** End of the run of whitespace and rupee signs that starts at `j`. */
  function GapEnd(s: string, j: nat): (r: nat)
    requires j <= |s|
    decreases |s| - j
    ensures j <= r <= |s|
    ensures forall k :: j <= k < r ==> IsGapChar(s[k])
    ensures r < |s| ==> !IsGapChar(s[r])
  {
    if j < |s| && IsGapChar(s[j]) then GapEnd(s, j + 1) else j
  }

  function RupeeCount(g: string): nat {
    if g == [] then 0 else (if g[0] == Rupee then 1 else 0) + RupeeCount(g[1..])
  }

  /** Index of the first rupee sign in `g`, or `|g|`. */
  function FirstRupee(g: string): (r: nat)
    ensures r <= |g|
    ensures forall k :: 0 <= k < r ==> g[k] != Rupee
    ensures r < |g| ==> g[r] == Rupee
  {
    if g == [] || g[0] == Rupee then 0 else 1 + FirstRupee(g[1..])
  }

  /** Which gaps between keyword and number the price pattern admits:
      `\s*₹?\s*` after any keyword, and additionally `\s?₹?\s*₹?\s*` after
      "under" from its last alternative. */
  predicate GapAdmitted(g: string, afterUnder: bool) {
    RupeeCount(g) <= 1 || (afterUnder && RupeeCount(g) == 2 && FirstRupee(g) <= 1)
  }

  /** A number preceded, from `j`, by an admitted gap. */
  function NumberAfterGap(s: string, j: nat, afterUnder: bool): (r: Option<nat>)
    requires j <= |s|
    ensures r.Some? <==> GapEnd(s, j) < |s| && IsDigit(s[GapEnd(s, j)]) && GapAdmitted(s[j..GapEnd(s, j)], afterUnder)
    ensures r.Some? ==> r.value == NumberAt(s, GapEnd(s, j))
  {
    var e := GapEnd(s, j);
    if e < |s| && IsDigit(s[e]) && GapAdmitted(s[j..e], afterUnder) then Some(NumberAt(s, e)) else None
  }

  /** The first price pattern when its match has to start at `i`. */
  function KeywordPriceAt(s: string, i: nat): (r: Option<nat>)
    ensures r.Some? ==> OccursAt(s, "under", i) || OccursAt(s, "below", i) || OccursAt(s, "less than", i) || OccursAt(s, "<", i)
  {
    if OccursAt(s, "under", i) then NumberAfterGap(s, i + 5, true)
    else if OccursAt(s, "below", i) then NumberAfterGap(s, i + 5, false)
    else if OccursAt(s, "less than", i) then NumberAfterGap(s, i + 9, false)
    else if OccursAt(s, "<", i) then NumberAfterGap(s, i + 1, false)
    else None
  }

  /** The second price pattern, `₹\s*(\d+)`, when its match has to start at `i`. */
  function RupeePriceAt(s: string, i: nat): (r: Option<nat>)
    ensures r.Some? <==> i < |s| && s[i] == Rupee && SkipSpaces(s, i + 1) < |s| && IsDigit(s[SkipSpaces(s, i + 1)])
    ensures r.Some? ==> r.value == NumberAt(s, SkipSpaces(s, i + 1))
  {
    if i < |s| && s[i] == Rupee then
      var e := SkipSpaces(s, i + 1);
      if e < |s| && IsDigit(s[e]) then Some(NumberAt(s, e)) else None
    else None
  }

  /** The leftmost match of the first price pattern: position and value. */
  function KeywordPriceMatch(s: string): (r: Option<(nat, nat)>)
    ensures r.Some? ==> r.value.0 < |s| && KeywordPriceAt(s, r.value.0) == Some(r.value.1)
    ensures r.Some? ==> forall i :: 0 <= i < r.value.0 ==> KeywordPriceAt(s, i).None?
    ensures r.None? ==> forall i :: 0 <= i < |s| ==> KeywordPriceAt(s, i).None?
  {
    var at := (i: nat) => KeywordPriceAt(s, i);
    assert forall i: nat :: at(i) == KeywordPriceAt(s, i);
    Leftmost(|s|, at, 0)
  }

  /** The leftmost match of the second price pattern. */
  function RupeePriceMatch(s: string): (r: Option<(nat, nat)>)
    ensures r.Some? ==> r.value.0 < |s| && RupeePriceAt(s, r.value.0) == Some(r.value.1)
    ensures r.Some? ==> forall i :: 0 <= i < r.value.0 ==> RupeePriceAt(s, i).None?
    ensures r.None? ==> forall i :: 0 <= i < |s| ==> RupeePriceAt(s, i).None?
  {
    var at := (i: nat) => RupeePriceAt(s, i);
    assert forall i: nat :: at(i) == RupeePriceAt(s, i);
    Leftmost(|s|, at, 0)
  }

  /** `Math.floor` of the number the first pattern captures at its
      leftmost match, else of the number the second one captures. */
  function MaxPrice(lower: string): (r: Option<nat>)
    ensures KeywordPriceMatch(lower).Some? ==> r == Some(KeywordPriceMatch(lower).value.1)
    ensures KeywordPriceMatch(lower).None? ==> r == (if RupeePriceMatch(lower).Some? then Some(RupeePriceMatch(lower).value.1) else None)
    ensures r.None? ==> forall i :: 0 <= i < |lower| ==> KeywordPriceAt(lower, i).None? && RupeePriceAt(lower, i).None?
  {
    match KeywordPriceMatch(lower)
    case Some((_, v)) => Some(v)
    case None =>
      match RupeePriceMatch(lower)
      case Some((_, v)) => Some(v)
      case None => None
  }

  /* ---------------------------------------------------------------
     Rating floor
     --------------------------------------------------------------- */

  const RatingWords: seq<string> := ["above", "greater than", ">=", ">", "at least", "minimum"]

  /** `\s*([0-5](?:\.\d)?)` from `j`, in tenths of a star. */
  function RatingAfter(s: string, j: nat): (r: Option<nat>)
    requires j <= |s|
    ensures r.Some? <==> SkipSpaces(s, j) < |s| && '0' <= s[SkipSpaces(s, j)] <= '5'
    ensures r.Some? ==> r.value <= 59 && r.value / 10 == DigitValue(s[SkipSpaces(s, j)])
    ensures var e := SkipSpaces(s, j);
            r.Some? ==> r.value % 10 == if e + 2 < |s| && s[e + 1] == '.' && IsDigit(s[e + 2]) then DigitValue(s[e + 2]) else 0
  {
    var e := SkipSpaces(s, j);
    if e < |s| && '0' <= s[e] <= '5' then
      var tenth := if e + 2 < |s| && s[e + 1] == '.' && IsDigit(s[e + 2]) then DigitValue(s[e + 2]) else 0;
      Some(DigitValue(s[e]) * 10 + tenth)
    else None
  }

  /** The rating pattern when its match has to start at `i`: the
      keywords are tried in order and the first that is followed by a
      rating decides. */
  function RatingAt(s: string, i: nat, k: nat): (r: Option<nat>)
    requires k <= |RatingWords|
    decreases |RatingWords| - k
    ensures r.Some? ==> r.value <= 59 && exists j :: k <= j < |RatingWords| && OccursAt(s, RatingWords[j], i)
    ensures r.Some? ==> exists j :: k <= j < |RatingWords| && OccursAt(s, RatingWords[j], i)
                                    && RatingAfter(s, i + |RatingWords[j]|) == r
    ensures r.None? ==> forall j :: k <= j < |RatingWords| && OccursAt(s, RatingWords[j], i) ==>
                          RatingAfter(s, i + |RatingWords[j]|).None?
  {
    if k == |RatingWords| then None
    else if OccursAt(s, RatingWords[k], i) && RatingAfter(s, i + |RatingWords[k]|).Some? then
      RatingAfter(s, i + |RatingWords[k]|)
    else RatingAt(s, i, k + 1)
  }

  /** The leftmost match of the rating pattern. */
  function RatingMatch(s: string): (r: Option<(nat, nat)>)
    ensures r.Some? ==> r.value.0 < |s| && RatingAt(s, r.value.0, 0) == Some(r.value.1)
    ensures r.Some? ==> forall i :: 0 <= i < r.value.0 ==> RatingAt(s, i, 0).None?
    ensures r.None? ==> forall i :: 0 <= i < |s| ==> RatingAt(s, i, 0).None?
  {
    var at := (i: nat) => RatingAt(s, i, 0);
    assert forall i: nat :: at(i) == RatingAt(s, i, 0);
    Leftmost(|s|, at, 0)
  }

  /** The rating floor in hundredths of a star: the captured value of the
      leftmost match. */
  function MinRating(lower: string): (r: Option<nat>)
    ensures r.Some? <==> RatingMatch(lower).Some?
    ensures r.Some? ==> r.value == 10 * RatingMatch(lower).value.1 && r.value <= 590
    ensures r.Some? ==> exists i, j :: 0 <= i < |lower| && 0 <= j < |RatingWords| && OccursAt(lower, RatingWords[j], i)
                                       && RatingAfter(lower, i + |RatingWords[j]|) == Some(r.value / 10)
    ensures r.Some? ==> r.value % 10 == 0
  {
    match RatingMatch(lower)
    case Some((i, v)) =>
      assert RatingAt(lower, i, 0) == Some(v);
      assert (v * 10) / 10 == v && (v * 10) % 10 == 0;
      Some(v * 10)
    case None => None
  }

  /** A rating written as a digit, a dot and a digit, in tenths of a star. */
  function RatingText(t: nat): (r: string)
    requires t <= 59
    ensures |r| == 3 && r[1] == '.' && IsDigit(r[0]) && IsDigit(r[2])
  {
    [('0' as int + t / 10) as char, '.', ('0' as int + t % 10) as char]
  }

  /** The rating reader gives back what was written, after any amount of
      white space. */
  lemma RatingAfterReadsText(p: string, spaces: nat, t: nat)
    requires t <= 59
    ensures var s := p + Spaces(spaces) + RatingText(t);
            RatingAfter(s, |p|) == Some(t)
  {
    var s := p + Spaces(spaces) + RatingText(t);
    SkipSpacesOver(p, spaces, RatingText(t));
    assert s[|p| + spaces..] == RatingText(t);
    assert s[|p| + spaces] == RatingText(t)[0] && s[|p| + spaces + 1] == '.' && s[|p| + spaces + 2] == RatingText(t)[2];
  }

  function Spaces(n: nat): (r: string)
    ensures |r| == n && forall k :: 0 <= k < n ==> r[k] == ' '
  {
    if n == 0 then [] else [' '] + Spaces(n - 1)
  }

  lemma {:induction false} SkipSpacesOver(p: string, n: nat, rest: string)
    requires rest != [] && !IsSpace(rest[0])
    ensures SkipSpaces(p + Spaces(n) + rest, |p|) == |p| + n
  {
    var s := p + Spaces(n) + rest;
    SkipSpacesFrom(s, |p|, |p| + n);
  }

  lemma {:induction false} SkipSpacesFrom(s: string, i: nat, e: nat)
    requires i <= e < |s| && !IsSpace(s[e])
    requires forall k :: i <= k < e ==> s[k] == ' '
    ensures SkipSpaces(s, i) == e
    decreases e - i
  {
    if i < e {
      assert IsSpace(s[i]);
      SkipSpacesFrom(s, i + 1, e);
    }
  }

  /* ---------------------------------------------------------------
     Hotel
     --------------------------------------------------------------- */

  /** The class `[A-Za-z0-9&\-\s']`. */
  predicate IsHotelChar(c: char) {
    IsLetter(c) || IsDigit(c) || c == '&' || c == '-' || IsSpace(c) || c == '\''
  }

  function HotelRunEnd(s: string, j: nat): (r: nat)
    requires j <= |s|
    decreases |s| - j
    ensures j <= r <= |s|
    ensures forall k :: j <= k < r ==> IsHotelChar(s[k])
    ensures r < |s| ==> !IsHotelChar(s[r])
  {
    if j < |s| && IsHotelChar(s[j]) then HotelRunEnd(s, j + 1) else j
  }

  /** `(?:\s+hotel|\s+restaurant|$)` at `m`. */
  predicate TailAt(s: string, m: nat)
    requires m <= |s|
  {
    m == |s|
    || (SkipSpaces(s, m) > m && (OccursAt(s, "hotel", SkipSpaces(s, m)) || OccursAt(s, "restaurant", SkipSpaces(s, m))))
  }

  /** The end of the capture `{2,60}` starting at `j`: the longest run of
      class characters, at most 60 and at least 2 long, after which the
      tail matches. */
  function CaptureEnd(s: string, j: nat): (r: Option<nat>)
    requires j <= |s|
    ensures r.Some? ==> j + 2 <= r.value <= j + 60 && r.value <= HotelRunEnd(s, j) && TailAt(s, r.value)
    ensures r.Some? ==> forall m :: r.value < m <= j + 60 && m <= HotelRunEnd(s, j) ==> !TailAt(s, m)
    ensures r.None? ==> forall m :: j + 2 <= m <= j + 60 && m <= HotelRunEnd(s, j) ==> !TailAt(s, m)
  {
    var hi := if HotelRunEnd(s, j) < j + 60 then HotelRunEnd(s, j) else j + 60;
    var p := (m: nat) => m <= |s| && TailAt(s, m);
    assert forall m: nat :: p(m) == (m <= |s| && TailAt(s, m));
    Greatest(j + 2, hi, p)
  }

  /** `\s+(capture)tail` from `start`: `\s+` gives back whitespace one
      character at a time until the capture succeeds. */
  function HotelAfter(s: string, start: nat): (r: Option<string>)
    requires start <= |s|
    ensures r.Some? ==> exists j, m :: start < j <= SkipSpaces(s, start) && CaptureEnd(s, j) == Some(m)
                                        && r.value == Trim(s[j..m])
    ensures r.Some? ==> Trim(r.value) == r.value
    ensures r.None? ==> forall j :: start < j <= SkipSpaces(s, start) ==> CaptureEnd(s, j).None?
    ensures var e := SkipSpaces(s, start);
            start < e && CaptureEnd(s, e).Some? ==> r == Some(Trim(s[e..CaptureEnd(s, e).value]))
  {
    var e := SkipSpaces(s, start);
    var p := (j: nat) => j <= |s| && CaptureEnd(s, j).Some?;
    assert forall j: nat :: p(j) == (j <= |s| && CaptureEnd(s, j).Some?);
    match Greatest(start + 1, e, p)
    case Some(j) =>
      TrimIdempotent(s[j..CaptureEnd(s, j).value]);
      Some(Trim(s[j..CaptureEnd(s, j).value]))
    case None => None
  }

  /** The hotel pattern when its match has to start at `i`. */
  function HotelAt(s: string, i: nat): (r: Option<string>)
    ensures r.Some? ==> Trim(r.value) == r.value
    ensures !OccursAt(s, "from", i) && !OccursAt(s, "at", i) ==> r.None?
  {
    if OccursAt(s, "from", i) then HotelAfter(s, i + 4)
    else if OccursAt(s, "at", i) then HotelAfter(s, i + 2)
    else None
  }

  /** The leftmost match of the hotel pattern. */
  function HotelMatch(s: string): (r: Option<(nat, string)>)
    ensures r.Some? ==> r.value.0 < |s| && HotelAt(s, r.value.0) == Some(r.value.1)
    ensures r.Some? ==> forall i :: 0 <= i < r.value.0 ==> HotelAt(s, i).None?
    ensures r.None? ==> forall i :: 0 <= i < |s| ==> HotelAt(s, i).None?
  {
    var at := (i: nat) => HotelAt(s, i);
    assert forall i: nat :: at(i) == HotelAt(s, i);
    Leftmost(|s|, at, 0)
  }

  /** The trimmed capture of the leftmost match of the hotel pattern, or
      empty when there is none. */
  function HotelName(lower: string): (r: string)
    ensures HotelMatch(lower).Some? ==> r == HotelMatch(lower).value.1
    ensures HotelMatch(lower).None? ==> r == []
    ensures Trim(r) == r
  {
    match HotelMatch(lower)
    case Some((_, h)) => h
    case None => ""
  }

  /** The capture is greedy: when everything after "from" and its
      whitespace is class characters (2 to 60 of them), the hotel name is
      the whole rest of the text, a trailing "hotel" or "restaurant"
      included. */
  lemma {:induction false} HotelRunsToEnd(s: string, i: nat)
    requires OccursAt(s, "from", i)
    requires SkipSpaces(s, i + 4) > i + 4
    requires SkipSpaces(s, i + 4) + 2 <= |s| <= SkipSpaces(s, i + 4) + 60
    requires forall k :: SkipSpaces(s, i + 4) <= k < |s| ==> IsHotelChar(s[k])
    ensures HotelAt(s, i) == Some(Trim(s[SkipSpaces(s, i + 4)..]))
  {
    var e := SkipSpaces(s, i + 4);
    HotelRunAll(s, e);
    CaptureToEnd(s, e);
    assert s[e..CaptureEnd(s, e).value] == s[e..];
    assert HotelAfter(s, i + 4) == Some(Trim(s[e..]));
    assert HotelAt(s, i) == HotelAfter(s, i + 4);
  }

  lemma {:induction false} HotelRunAll(s: string, j: nat)
    requires j <= |s|
    requires forall k :: j <= k < |s| ==> IsHotelChar(s[k])
    ensures HotelRunEnd(s, j) == |s|
    decreases |s| - j
  {
    if j < |s| {
      HotelRunAll(s, j + 1);
    }
  }

  lemma CaptureToEnd(s: string, e: nat)
    requires e + 2 <= |s| <= e + 60 && HotelRunEnd(s, e) == |s|
    ensures CaptureEnd(s, e) == Some(|s|)
  {
    assert TailAt(s, |s|);
  }

  /* ---------------------------------------------------------------
     Quantity
     --------------------------------------------------------------- */

  /** The quantity pattern at `i`: a digit run followed, after optional
      whitespace, by an ASCII letter (every optional part of the pattern
      starts with a letter, and `\d+` cannot give digits back usefully). */
  function DigitQuantityAt(s: string, i: nat): (r: Option<nat>)
    ensures r.Some? <==> i < |s| && IsDigit(s[i])
                          && SkipSpaces(s, DigitRunEnd(s, i)) < |s| && IsLetter(s[SkipSpaces(s, DigitRunEnd(s, i))])
    ensures r.Some? ==> r.value == NumberAt(s, i)
  {
    if i < |s| && IsDigit(s[i]) then
      var e := SkipSpaces(s, DigitRunEnd(s, i));
      if e < |s| && IsLetter(s[e]) then Some(NumberAt(s, i)) else None
    else None
  }

  /** `\b` at position `p`. */
  predicate Boundary(s: string, p: nat)
    requires p <= |s|
  {
    (p > 0 && IsWordChar(s[p - 1])) != (p < |s| && IsWordChar(s[p]))
  }

  /** `\bw\b\s+dish` matching at `p`, the dish name taken literally. */
  predicate NumberWordAt(s: string, w: string, dish: string, p: nat) {
    && OccursAt(s, w, p) && Boundary(s, p) && Boundary(s, p + |w|)
    && exists q :: p + |w| < q <= SkipSpaces(s, p + |w|) && OccursAt(s, dish, q)
  }

  predicate NumberWordUsed(s: string, w: string, dish: string) {
    Contains(s, w + " ") && exists p :: 0 <= p <= |s| && NumberWordAt(s, w, dish, p)
  }

  /** The first of one..five, in that order, that the text uses before the dish name. */
  function NumberWordIndex(s: string, dish: string): (r: Option<nat>)
    ensures r.Some? ==> r.value < |NumberWords| && NumberWordUsed(s, NumberWords[r.value], dish)
    ensures r.Some? ==> forall j :: 0 <= j < r.value ==> !NumberWordUsed(s, NumberWords[j], dish)
    ensures r.None? ==> forall j :: 0 <= j < |NumberWords| ==> !NumberWordUsed(s, NumberWords[j], dish)
  {
    var p := (k: nat) => k < |NumberWords| && NumberWordUsed(s, NumberWords[k], dish);
    assert forall k: nat :: p(k) == (k < |NumberWords| && NumberWordUsed(s, NumberWords[k], dish));
    FirstWhere(|NumberWords|, p, 0)
  }

  /** The leftmost match of the digit quantity pattern. */
  function DigitQuantityMatch(s: string): (r: Option<(nat, nat)>)
    ensures r.Some? ==> r.value.0 < |s| && DigitQuantityAt(s, r.value.0) == Some(r.value.1)
    ensures r.Some? ==> forall i :: 0 <= i < r.value.0 ==> DigitQuantityAt(s, i).None?
    ensures r.None? ==> forall i :: 0 <= i < |s| ==> DigitQuantityAt(s, i).None?
  {
    var at := (i: nat) => DigitQuantityAt(s, i);
    assert forall i: nat :: at(i) == DigitQuantityAt(s, i);
    Leftmost(|s|, at, 0)
  }

  /** At least 1: the leftmost digit quantity, else the first number
      word one..five placed before the dish name, else 1. */
  function Quantity(lower: string, dish: string): (r: nat)
    ensures 1 <= r
    ensures DigitQuantityMatch(lower).Some? ==> r == Max1(DigitQuantityMatch(lower).value.1)
    ensures DigitQuantityMatch(lower).None? ==>
              r == (if NumberWordIndex(lower, dish).Some? then NumberWordIndex(lower, dish).value + 1 else 1)
  {
    match DigitQuantityMatch(lower)
    case Some((_, v)) => Max1(v)
    case None =>
      match NumberWordIndex(lower, dish)
      case Some(k) => k + 1
      case None => 1
  }

  function Max1(v: nat): nat {
    if v < 1 then 1 else v
  }

  /** The quantity pattern does not care what the number means: the
      digits of a price ceiling "under N", when they are the first digits
      of the text and a word follows them, are also read as the quantity. */
  lemma {:induction false} QuantityTakesPriceDigits(s: string, dish: string, i: nat)
    requires OccursAt(s, "under ", i)
    requires forall k :: 0 <= k < i ==> !IsDigit(s[k])
    requires i + 6 < |s| && IsDigit(s[i + 6])
    requires SkipSpaces(s, DigitRunEnd(s, i + 6)) < |s| && IsLetter(s[SkipSpaces(s, DigitRunEnd(s, i + 6))])
    ensures KeywordPriceAt(s, i) == Some(NumberAt(s, i + 6))
    ensures Quantity(s, dish) == Max1(NumberAt(s, i + 6))
  {
    UnderPrice(s, i);
    assert forall k :: i <= k < i + 6 ==> s[k] == s[i..i + 6][k - i] == "under "[k - i];
    assert forall k :: 0 <= k < i + 6 ==> !IsDigit(s[k]);
    FirstDigitQuantity(s, i + 6);
  }

  /** A quantity match at the first digit of the text is the leftmost one. */
  lemma FirstDigitQuantity(s: string, j: nat)
    requires DigitQuantityAt(s, j).Some?
    requires forall k :: 0 <= k < j ==> !IsDigit(s[k])
    ensures DigitQuantityMatch(s) == Some((j, DigitQuantityAt(s, j).value))
  {
    var r := DigitQuantityMatch(s);
    if r.None? {
      assert false;
    }
    if r.value.0 < j {
      assert false;
    }
  }

  /** "under " followed at once by a digit is a price ceiling. */
  lemma UnderPrice(s: string, i: nat)
    requires OccursAt(s, "under ", i)
    requires i + 6 < |s| && IsDigit(s[i + 6])
    ensures KeywordPriceAt(s, i) == Some(NumberAt(s, i + 6))
  {
    assert s[i..i + 5] == s[i..i + 6][..5] == "under";
    assert OccursAt(s, "under", i);
    assert s[i + 5] == s[i..i + 6][5] == ' ';
    assert GapEnd(s, i + 6) == i + 6;
    assert GapEnd(s, i + 5) == i + 6;
    assert s[i + 5..i + 6] == " ";
    assert RupeeCount(s[i + 5..i + 6]) == 0;
    assert GapAdmitted(s[i + 5..i + 6], true);
  }

  /* ---------------------------------------------------------------
     The fallback parse
     --------------------------------------------------------------- */

  function Fallback(message: string): (p: Parsed)
    ensures p.quantity >= 1
    ensures p.intent != InfoIntent
    ensures p.minRating.Some? ==> p.minRating.value <= 590
    ensures |p.dishName| <= 40 || exists k :: 0 <= k < |KnownDishes| && p.dishName == KnownDishes[k]
    ensures var lower := ToLower(message);
            && p.dishName == DishName(lower) && p.maxPrice == MaxPrice(lower) && p.minRating == MinRating(lower)
            && p.hotelName == HotelName(lower) && p.quantity == Quantity(lower, p.dishName)
            && p.intent == DetectIntent(lower)
  {
    var lower := ToLower(message);
    var dish := DishName(lower);
    Parsed(dish, MaxPrice(lower), MinRating(lower), HotelName(lower), Quantity(lower, dish), DetectIntent(lower))
  }

  /** The parse does not see case: a message and its lower-cased form
      parse the same. */
  lemma FallbackIgnoresCase(message: string)
    ensures Fallback(ToLower(message)) == Fallback(message)
  {
    ToLowerIdempotent(message);
  }
}

=== FILE: bot_pipeline.dfy ===
/** The order bot's endpoint, POST /order-bot of
    backend/routes/aiOrderBot.js, after the message has been parsed: the
    search answer for a non-order intent, and for an order the candidate
    query with its one widening retry, the review averages, the rating
    floor, the choice of the best dish, the delivery address, and the order
    it stores and announces. The parse itself is a parameter: the language
    model's answer, or the fallback parser of the BotParser module. */
module BotPipeline {
  import opened Wrappers
  import opened Text
  import opened Seqs
  import opened Orders
  import Catalog
  import Reviews
  import CustomerRoutes
  import BotParser
  import DeliveryRoutes

  type Dish = Catalog.Dish
  type Parsed = BotParser.Parsed

  /** A number a JavaScript `if` accepts: present and not zero. */
  predicate Truthy(n: Option<nat>) {
    n.Some? && n.value != 0
  }

  /* ---------------------------------------------------------------
     Candidates
     --------------------------------------------------------------- */

  /** The order query: the name as a case-insensitive pattern when one was
      parsed, the hotel name exactly when one was parsed and `withHotel`,
      and the price cap when it is truthy. */
  predicate Matches(d: Dish, p: Parsed, withHotel: bool) {
    && (p.dishName != [] ==> ContainsIgnoringCase(d.name, p.dishName))
    && (withHotel && p.hotelName != [] ==> d.hotelName == Some(p.hotelName))
    && (Truthy(p.maxPrice) ==> d.price <= p.maxPrice.value)
  }

  function Query(dishes: seq<Dish>, p: Parsed, withHotel: bool): (r: seq<Dish>)
    ensures forall d :: d in r <==> d in dishes && Matches(d, p, withHotel)
    ensures |r| <= |dishes|
  {
    Filter(dishes, (d: Dish) => Matches(d, p, withHotel))
  }

  /** The candidates: the full query, and when it finds nothing and a hotel
      was asked for, the query again without the hotel. The hotel is
      honoured whenever one of its dishes matches, and the candidates are
      empty only when nothing matches even without it. */
  function Candidates(dishes: seq<Dish>, p: Parsed): (r: seq<Dish>)
    ensures forall d :: d in r ==> d in dishes && Matches(d, p, false)
    ensures Query(dishes, p, true) != [] ==> r == Query(dishes, p, true)
    ensures r == [] <==> Query(dishes, p, false) == []
    ensures p.hotelName == [] ==> r == Query(dishes, p, false)
    ensures Query(dishes, p, true) == [] ==> r == Query(dishes, p, false)
  {
    var first := Query(dishes, p, true);
    if first == [] && p.hotelName != [] then Query(dishes, p, false)
    else if p.hotelName == [] then
      FilterSameOn(dishes, (d: Dish) => Matches(d, p, true), (d: Dish) => Matches(d, p, false));
      first
    else first
  }

  /** Dishes written through the schema carry no `hotelName`, so a parsed
      hotel never narrows the choice: the candidates are those of the query
      without it. */
  lemma HotelNeverNarrows(dishes: seq<Dish>, p: Parsed)
    requires forall k :: 0 <= k < |dishes| ==> dishes[k].hotelName.None?
    ensures Candidates(dishes, p) == Query(dishes, p, false)
  {
    if p.hotelName != [] {
      var first := Query(dishes, p, true);
      assert forall d :: d in first ==> d.hotelName.Some?;
    }
  }

  /* ---------------------------------------------------------------
     Ratings
     --------------------------------------------------------------- */

  /** `Number(avg.toFixed(2))` of the mean, in hundredths of a star,
      rounded half up; 0 for a dish without reviews. */
  function MeanHundredths(xs: seq<int>): int {
    if |xs| == 0 then 0 else (200 * Sum(xs) + |xs|) / (2 * |xs|)
  }

  /** With whole-star ratings in 1..5, a reviewed dish averages 1.00 to
      5.00 stars. */
  lemma MeanHundredthsBounds(xs: seq<int>)
    requires |xs| > 0 && forall k :: 0 <= k < |xs| ==> 1 <= xs[k] <= 5
    ensures 100 <= MeanHundredths(xs) <= 500
  {
    Reviews.SumBounds(xs, 1, 5);
    var n := |xs|;
    var s := Sum(xs);
    assert (200 * s + n) / (2 * n) >= 100 by {
      Reviews.DivLower(200 * s + n, 2 * n, 100);
    }
    assert (200 * s + n) / (2 * n) <= 500 by {
      Reviews.DivUpper(200 * s + n, 2 * n, 501);
    }
  }

  datatype Rated = Rated(dish: Dish, rating: int)

  function RatingOf(rs: seq<Reviews.Review>, d: Dish): int {
    MeanHundredths(Reviews.RatingsOf(rs, d.id))
  }

  /** A rating of at most 5.00 for every dish, whatever its reviews, as long
      as they are valid. */
  lemma RatingAtMostFive(rs: seq<Reviews.Review>, d: Dish)
    requires Reviews.ReviewsValid(rs)
    ensures 0 <= RatingOf(rs, d) <= 500
  {
    var xs := Reviews.RatingsOf(rs, d.id);
    if |xs| > 0 {
      MeanHundredthsBounds(xs);
    }
  }

  /** The candidates with their averages, in query order. */
  function Enrich(ds: seq<Dish>, rs: seq<Reviews.Review>): (r: seq<Rated>)
    ensures |r| == |ds|
    ensures forall k :: 0 <= k < |ds| ==> r[k].dish == ds[k] && r[k].rating == RatingOf(rs, ds[k])
  {
    if ds == [] then [] else [Rated(ds[0], RatingOf(rs, ds[0]))] + Enrich(ds[1..], rs)
  }

  /** The rating floor, applied only when it is truthy. */
  function AboveFloor(xs: seq<Rated>, minRating: Option<nat>): (r: seq<Rated>)
    ensures !Truthy(minRating) ==> r == xs
    ensures forall x :: x in r <==> x in xs && (Truthy(minRating) ==> x.rating >= minRating.value)
  {
    if Truthy(minRating) then Filter(xs, (x: Rated) => x.rating >= minRating.value) else xs
  }

  /** A floor above five stars leaves nothing, whatever the candidates. */
  lemma FloorAboveFiveEmpties(cands: seq<Dish>, rs: seq<Reviews.Review>, minRating: nat)
    requires Reviews.ReviewsValid(rs) && minRating > 500
    ensures AboveFloor(Enrich(cands, rs), Some(minRating)) == []
  {
    var xs := Enrich(cands, rs);
    forall k | 0 <= k < |xs|
      ensures xs[k].rating < minRating
    {
      RatingAtMostFive(rs, cands[k]);
    }
  }

  /* ---------------------------------------------------------------
     The choice
     --------------------------------------------------------------- */

  /** The sort order: higher rating first, then lower price. */
  predicate Better(a: Rated, b: Rated) {
    a.rating > b.rating || (a.rating == b.rating && a.dish.price < b.dish.price)
  }

  /** The first element after the (stable) sort: no entry is better, and
      every earlier entry is worse. */
  function Best(xs: seq<Rated>): (k: nat)
    requires |xs| > 0
    ensures k < |xs|
    ensures forall j :: 0 <= j < |xs| ==> !Better(xs[j], xs[k])
    ensures forall j :: 0 <= j < k ==> Better(xs[k], xs[j])
  {
    if |xs| == 1 then 0
    else
      var init := xs[..|xs| - 1];
      var b := Best(init);
      assert forall j :: 0 <= j < |init| ==> init[j] == xs[j];
      if Better(xs[|xs| - 1], xs[b]) then |xs| - 1 else b
  }

  /** Those two properties pin the choice down: any entry with both is the
      one chosen, so any stable sort by this order puts it first. */
  lemma BestIsUnique(xs: seq<Rated>, i: nat)
    requires i < |xs|
    requires forall j :: 0 <= j < |xs| ==> !Better(xs[j], xs[i])
    requires forall j :: 0 <= j < i ==> Better(xs[i], xs[j])
    ensures i == Best(xs)
  {
  }

  /* ---------------------------------------------------------------
     The address
     --------------------------------------------------------------- */

  /** The trimmed override when it is not blank, otherwise the stored
      address of the customer when there is one and it is not empty. */
  function DeliveryAddress(override: Option<string>, cs: seq<CustomerRoutes.Customer>, customerId: Id): (r: Option<string>)
    ensures override.Some? && !Blank(override.value) ==> r == Some(Trim(override.value))
    ensures override.None? || Blank(override.value) ==>
              (r.Some? <==> CustomerRoutes.FindById(cs, customerId).Some?
                            && cs[CustomerRoutes.FindById(cs, customerId).value].address != [])
    ensures r.Some? ==> r.value != []
    ensures r.Some? && (override.None? || Blank(override.value)) ==>
              r.value == cs[CustomerRoutes.FindById(cs, customerId).value].address
  {
    if override.Some? && !Blank(override.value) then Some(Trim(override.value))
    else
      var k := CustomerRoutes.FindById(cs, customerId);
      if k.Some? && cs[k.value].address != [] then Some(cs[k.value].address) else None
  }

  /* ---------------------------------------------------------------
     The endpoint
     --------------------------------------------------------------- */

  datatype BotRequest = BotRequest(message: Option<string>, customerId: Option<string>, address: Option<string>)

  datatype BotReply =
    | MissingField(field: string)
    | NotUnderstood
    | SearchAnswer(results: seq<Rated>)
    | NoMatch
    | NoRatedMatch
    | NeedsAddress(found: Rated)
    | CreateRejected
    | Placed(order: Order, found: Rated)

  /** What the endpoint did: the order store after it, the answer, and the
      events it published. */
  datatype BotOutcome = BotOutcome(store: Store, reply: BotReply, emits: seq<Emit>)

  /** `Dish.find(query).limit(30)` for a non-order intent: name and hotel
      as in an order, no price cap, no retry, at most thirty dishes, each
      with its average. */
  function Search(dishes: seq<Dish>, rs: seq<Reviews.Review>, p: Parsed): (r: seq<Rated>)
    ensures |r| <= 30
    ensures forall k :: 0 <= k < |r| ==> r[k].dish in dishes && Matches(r[k].dish, p.(maxPrice := None), true)
    ensures |Query(dishes, p.(maxPrice := None), true)| >= 30 ==> |r| == 30
    ensures var found := Query(dishes, p.(maxPrice := None), true);
            && |r| == (if |found| <= 30 then |found| else 30)
            && forall k :: 0 <= k < |r| ==> r[k] == Rated(found[k], RatingOf(rs, found[k]))
  {
    var found := Query(dishes, p.(maxPrice := None), true);
    var shown := if |found| <= 30 then found else found[..30];
    assert forall k :: 0 <= k < |shown| ==> shown[k] in found;
    Enrich(shown, rs)
  }

  /** The quantity as ordered: `quantity || 1`. */
  function OrderedQuantity(p: Parsed): (q: nat)
    ensures q >= 1
    ensures p.quantity >= 1 ==> q == p.quantity
  {
    if p.quantity == 0 then 1 else p.quantity
  }

  /** The stored order: one line for the chosen dish, the total its price
      times the quantity, cash on delivery, pending and unassigned. */
  function BotOrder(id: Id, customerId: Id, chosen: Dish, qty: nat, address: string): (o: Order)
    ensures o.items == [Item(chosen.id, chosen.name, chosen.price, qty)]
    ensures o.totalAmount == chosen.price * qty
    ensures o.payment == COD && o.status == Pending && o.deliveryStatus == Unassigned && o.deliveryBoyId.None?
    ensures o.id == id && o.customerId == customerId && o.ownerId == chosen.ownerId && o.address == address
  {
    FreshOrder(id, customerId, chosen.ownerId, [Item(chosen.id, chosen.name, chosen.price, qty)],
               chosen.price * qty, address, COD)
  }

  /** A dish the bot can order: `Order.create` validates the document, and
      the order schema requires the owner and, for the one item, the
      dish's id and a non-empty name. */
  predicate Storable(d: Dish) {
    d.ownerId != [] && d.id != [] && d.name != []
  }

  /** The bot's order passes the order schema exactly when its dish is
      storable: the customer id and the address are never empty when the
      bot gets this far. */
  lemma BotOrderSchemaValid(id: Id, customerId: Id, d: Dish, qty: nat, address: string)
    requires customerId != [] && address != []
    ensures SchemaValid(BotOrder(id, customerId, d, qty, address)) <==> Storable(d)
  {
    var o := BotOrder(id, customerId, d, qty, address);
    assert o.items[0] == Item(d.id, d.name, d.price, qty);
  }

  /** The customer hears `order-created` (the dashboard reads the order out
      of it), the owner `new-order`, and the pool the reduced notice. */
  function BotEmits(o: Order): (es: seq<Emit>)
    ensures RoomsFor(es, OrderCreated) == {CustomerRoom(o.customerId)}
    ensures RoomsFor(es, NewOrder) == {OwnerRoom(o.ownerId)}
    ensures RoomsFor(es, AvailableOrder) == {CourierPool}
    ensures forall k :: 0 <= k < |es| && es[k].room == CourierPool ==> es[k].payload == PoolNoticeOf(o)
  {
    var es := [ Emit(CustomerRoom(o.customerId), OrderCreated, Doc(o, false)),
                Emit(OwnerRoom(o.ownerId), NewOrder, Doc(o, false)),
                Emit(CourierPool, AvailableOrder, PoolNoticeOf(o)) ];
    assert es[0].event == OrderCreated && es[1].event == NewOrder && es[2].event == AvailableOrder;
    es
  }

  /** The outcome of the candidate search for an order intent. */
  datatype Choice = NoCandidate | NoneAboveFloor | Chosen(found: Rated)

  /** The candidates with their averages, after the rating floor. */
  function Kept(dishes: seq<Dish>, rs: seq<Reviews.Review>, p: Parsed): seq<Rated> {
    AboveFloor(Enrich(Candidates(dishes, p), rs), p.minRating)
  }

  /** A candidate clearing the floor, with its average. */
  predicate Eligible(dishes: seq<Dish>, rs: seq<Reviews.Review>, p: Parsed, d: Dish) {
    d in Candidates(dishes, p) && (Truthy(p.minRating) ==> RatingOf(rs, d) >= p.minRating.value)
  }

  /** The dish an order intent settles on: nothing when no dish matches
      even without the hotel, nothing when none of the candidates clears
      the floor, and otherwise a candidate that matches the name and price
      cap, clears the floor, and is first in the sort order among all
      candidates that clear it. */
  function Choose(dishes: seq<Dish>, rs: seq<Reviews.Review>, p: Parsed): (r: Choice)
    ensures r == NoCandidate <==> Query(dishes, p, false) == []
    ensures r == NoneAboveFloor ==> forall d :: d in Candidates(dishes, p) ==> !Eligible(dishes, rs, p, d)
    ensures r.Chosen? ==>
              && r.found.dish in dishes && Matches(r.found.dish, p, false)
              && r.found.rating == RatingOf(rs, r.found.dish)
              && Eligible(dishes, rs, p, r.found.dish)
    ensures r.Chosen? ==> forall d :: Eligible(dishes, rs, p, d) ==> !Better(Rated(d, RatingOf(rs, d)), r.found)
  {
    var cands := Candidates(dishes, p);
    if cands == [] then NoCandidate
    else
      var all := Enrich(cands, rs);
      var kept := AboveFloor(all, p.minRating);
      if kept == [] then
        assert forall d :: d in cands ==> !Eligible(dishes, rs, p, d) by {
          forall d | d in cands
            ensures !Eligible(dishes, rs, p, d)
          {
            var j :| 0 <= j < |cands| && cands[j] == d;
            assert all[j] == Rated(d, RatingOf(rs, d));
          }
        }
        NoneAboveFloor
      else
        var c := kept[Best(kept)];
        ChosenIsBest(cands, rs, p, all, kept, c);
        Chosen(c)
  }

  lemma ChosenIsBest(cands: seq<Dish>, rs: seq<Reviews.Review>, p: Parsed, all: seq<Rated>, kept: seq<Rated>, c: Rated)
    requires all == Enrich(cands, rs) && kept == AboveFloor(all, p.minRating)
    requires |kept| > 0 && c == kept[Best(kept)]
    ensures c.dish in cands && c.rating == RatingOf(rs, c.dish)
    ensures Truthy(p.minRating) ==> c.rating >= p.minRating.value
    ensures forall d :: d in cands && (Truthy(p.minRating) ==> RatingOf(rs, d) >= p.minRating.value)
              ==> !Better(Rated(d, RatingOf(rs, d)), c)
  {
    assert c in kept;
    var i :| 0 <= i < |all| && all[i] == c;
    assert c.dish == cands[i];
    forall d | d in cands && (Truthy(p.minRating) ==> RatingOf(rs, d) >= p.minRating.value)
      ensures !Better(Rated(d, RatingOf(rs, d)), c)
    {
      var j :| 0 <= j < |cands| && cands[j] == d;
      assert all[j] == Rated(d, RatingOf(rs, d));
      assert all[j] in kept;
      var m :| 0 <= m < |kept| && kept[m] == all[j];
    }
  }

  /** POST /order-bot with a fresh order id. A non-order intent only
      searches; an order is stored only for a chosen dish, once an address
      is found and `Order.create` accepts the document, and it is then
      announced. */
  function OrderBot(store: Store, id: Id, dishes: seq<Dish>, rs: seq<Reviews.Review>,
                    cs: seq<CustomerRoutes.Customer>, q: BotRequest, parsed: Option<Parsed>): (r: BotOutcome)
    requires id !in store
    ensures !r.reply.Placed? ==> r.store == store && r.emits == []
    ensures r.reply.Placed? ==> r.store == store[id := r.reply.order] && r.emits == BotEmits(r.reply.order)
    ensures !Present(q.message) ==> r.reply == MissingField("message")
    ensures Present(q.message) && !Present(q.customerId) ==> r.reply == MissingField("customerId")
    ensures Present(q.message) && Present(q.customerId) && parsed.None? ==> r.reply == NotUnderstood
    ensures r.reply.SearchAnswer? <==>
              (Present(q.message) && Present(q.customerId) && parsed.Some? && parsed.value.intent != BotParser.OrderIntent)
    ensures r.reply.Placed? || r.reply.NeedsAddress? ==>
              parsed.Some? && Choose(dishes, rs, parsed.value) == Chosen(r.reply.found)
    ensures r.reply.Placed? ==>
              var d := r.reply.found.dish;
              && d.ownerId != []
              && DeliveryAddress(q.address, cs, q.customerId.value) == Some(r.reply.order.address)
              && r.reply.order == BotOrder(id, q.customerId.value, d, OrderedQuantity(parsed.value), r.reply.order.address)
    ensures r.reply.NeedsAddress? ==> DeliveryAddress(q.address, cs, q.customerId.value).None?
    ensures r.reply.SearchAnswer? ==> r.reply.results == Search(dishes, rs, parsed.value)
    ensures r.reply.Placed? <==>
              && Present(q.message) && Present(q.customerId) && parsed.Some?
              && parsed.value.intent == BotParser.OrderIntent
              && Choose(dishes, rs, parsed.value).Chosen?
              && DeliveryAddress(q.address, cs, q.customerId.value).Some?
              && Storable(Choose(dishes, rs, parsed.value).found.dish)
    ensures Present(q.message) && Present(q.customerId) && parsed.Some? && parsed.value.intent == BotParser.OrderIntent ==>
              var c := Choose(dishes, rs, parsed.value);
              var a := DeliveryAddress(q.address, cs, q.customerId.value);
              && (c == NoCandidate ==> r.reply == NoMatch)
              && (c == NoneAboveFloor ==> r.reply == NoRatedMatch)
              && (c.Chosen? && a.None? ==> r.reply == NeedsAddress(c.found))
              && (c.Chosen? && a.Some? && !Storable(c.found.dish) ==> r.reply == CreateRejected)
              && (c.Chosen? && a.Some? && c.found.dish.ownerId == [] ==> r.reply == CreateRejected)
              && (c.Chosen? && a.Some? && c.found.dish.name == [] ==> r.reply == CreateRejected)
              && (c.Chosen? && a.Some? && Storable(c.found.dish) ==>
                    r.reply == Placed(BotOrder(id, q.customerId.value, c.found.dish, OrderedQuantity(parsed.value), a.value), c.found))
  {
    if !Present(q.message) then BotOutcome(store, MissingField("message"), [])
    else if !Present(q.customerId) then BotOutcome(store, MissingField("customerId"), [])
    else if parsed.None? then BotOutcome(store, NotUnderstood, [])
    else
      var p := parsed.value;
      if p.intent != BotParser.OrderIntent then BotOutcome(store, SearchAnswer(Search(dishes, rs, p)), [])
      else
        var choice := Choose(dishes, rs, p);
        if choice == NoCandidate then BotOutcome(store, NoMatch, [])
        else if choice == NoneAboveFloor then BotOutcome(store, NoRatedMatch, [])
        else
          var chosen := choice.found;
          var addr := DeliveryAddress(q.address, cs, q.customerId.value);
          if addr.None? then BotOutcome(store, NeedsAddress(chosen), [])
          else
            var o := BotOrder(id, q.customerId.value, chosen.dish, OrderedQuantity(p), addr.value);
            BotOrderSchemaValid(id, q.customerId.value, chosen.dish, OrderedQuantity(p), addr.value);
            if !SchemaValid(o) then BotOutcome(store, CreateRejected, [])
            else BotOutcome(store[id := o], Placed(o, chosen), BotEmits(o))
  }

  /* ---------------------------------------------------------------
     Properties of the endpoint
     --------------------------------------------------------------- */

  /** A non-order intent answers with search results and stores nothing. */
  lemma NonOrderIntentOnlySearches(store: Store, id: Id, dishes: seq<Dish>, rs: seq<Reviews.Review>,
                                   cs: seq<CustomerRoutes.Customer>, q: BotRequest, p: Parsed)
    requires id !in store && Present(q.message) && Present(q.customerId)
    requires p.intent != BotParser.OrderIntent
    ensures var r := OrderBot(store, id, dishes, rs, cs, q, Some(p));
            r.reply == SearchAnswer(Search(dishes, rs, p)) && r.store == store && r.emits == []
  {
  }

  /** The stored order: one line of the chosen dish at its price with
      `quantity || 1`, the total that price times the quantity, the chosen
      dish's owner, the requesting customer, and the resolved address. */
  lemma PlacedOrderShape(store: Store, id: Id, dishes: seq<Dish>, rs: seq<Reviews.Review>,
                         cs: seq<CustomerRoutes.Customer>, q: BotRequest, p: Parsed)
    requires id !in store
    requires OrderBot(store, id, dishes, rs, cs, q, Some(p)).reply.Placed?
    ensures var r := OrderBot(store, id, dishes, rs, cs, q, Some(p)).reply;
            var d := r.found.dish;
            && r.order.items == [Item(d.id, d.name, d.price, OrderedQuantity(p))]
            && r.order.totalAmount == d.price * OrderedQuantity(p)
            && r.order.ownerId == d.ownerId != []
            && r.order.customerId == q.customerId.value
            && r.order.payment == COD && r.order.status == Pending && r.order.deliveryStatus == Unassigned
            && d in dishes && Matches(d, p, false) && Eligible(dishes, rs, p, d)
  {
  }

  /** Without an override and without a stored address the bot asks for
      one and stores nothing, even when a dish was found. */
  lemma NoAddressNoOrder(store: Store, id: Id, dishes: seq<Dish>, rs: seq<Reviews.Review>,
                         cs: seq<CustomerRoutes.Customer>, q: BotRequest, p: Parsed)
    requires id !in store && Present(q.message) && Present(q.customerId)
    requires p.intent == BotParser.OrderIntent
    requires DeliveryAddress(q.address, cs, q.customerId.value).None?
    ensures !OrderBot(store, id, dishes, rs, cs, q, Some(p)).reply.Placed?
    ensures OrderBot(store, id, dishes, rs, cs, q, Some(p)).store == store
  {
  }

  /** The customer id is never looked up for anything but the address: with
      a non-blank override an order is placed for an id no customer has. */
  lemma UnknownCustomerStillServed(store: Store, id: Id, dish: Dish, cs: seq<CustomerRoutes.Customer>,
                                   customerId: Id, where: string, p: Parsed)
    requires id !in store && customerId != [] && !Blank(where)
    requires forall k :: 0 <= k < |cs| ==> cs[k].id != customerId
    requires p.intent == BotParser.OrderIntent && p.dishName == [] && p.hotelName == []
    requires p.maxPrice.None? && p.minRating.None? && Storable(dish)
    ensures var r := OrderBot(store, id, [dish], [], cs, BotRequest(Some("order"), Some(customerId), Some(where)), Some(p));
            r.reply.Placed? && r.reply.order.customerId == customerId && r.reply.order.address == Trim(where)
  {
    var q := BotRequest(Some("order"), Some(customerId), Some(where));
    assert Matches(dish, p, true);
    assert Query([dish], p, true) == [dish];
    var c := Choose([dish], [], p);
    assert c.Chosen? && c.found.dish == dish;
    assert DeliveryAddress(q.address, cs, customerId) == Some(Trim(where));
  }

  /** With the fallback parser, the quantity ordered is exactly the parsed
      one, since that parser never yields less than one. */
  lemma FallbackQuantityOrdered(message: string)
    ensures OrderedQuantity(BotParser.Fallback(message)) == BotParser.Fallback(message).quantity
  {
  }

  /** The search answer does not depend on a parsed price cap. */
  lemma SearchIgnoresPrice(dishes: seq<Dish>, rs: seq<Reviews.Review>, p: Parsed, cap: Option<nat>)
    ensures Search(dishes, rs, p.(maxPrice := cap)) == Search(dishes, rs, p)
  {
    assert p.(maxPrice := cap).(maxPrice := None) == p.(maxPrice := None);
  }

  /** Every order the bot stores keeps the courier bookkeeping consistent,
      so a store in which every order is consistent stays so. */
  lemma OrderBotKeepsCourierConsistency(store: Store, id: Id, dishes: seq<Dish>, rs: seq<Reviews.Review>,
                                        cs: seq<CustomerRoutes.Customer>, q: BotRequest, parsed: Option<Parsed>)
    requires id !in store
    requires forall k :: k in store ==> DeliveryRoutes.CourierConsistent(store[k])
    ensures var r := OrderBot(store, id, dishes, rs, cs, q, parsed);
            forall k :: k in r.store ==> DeliveryRoutes.CourierConsistent(r.store[k])
  {
    var r := OrderBot(store, id, dishes, rs, cs, q, parsed);
    if r.reply.Placed? {
      var d := r.reply.found.dish;
      DeliveryRoutes.FreshOrderIsConsistent(id, q.customerId.value, d.ownerId, r.reply.order.items,
                                            r.reply.order.totalAmount, r.reply.order.address, COD);
    }
  }
}

=== FILE: cart_client.dfy ===
/** The cart page of frontend/src/components/Cart.js: the total it shows,
    its local quantity update and removal after the server agreed, and
    placing the order — one create request per hotel owner, sent one after
    the other, with the cart cleared only when every request went through.
    The page's items are the lines of the server's cart listing. */
module CartClient {
  import opened Wrappers
  import opened Text
  import opened Seqs
  import opened CartRoutes
  import Orders
  import OrderRoutes

  /* ---------------------------------------------------------------
     Totals
     --------------------------------------------------------------- */

  /** `item.price || 0`. */
  function PriceOr0(l: Line): int {
    if l.price.Some? then l.price.value else 0
  }

  /** One line's share of `calculateTotal`: `(price || 0) * (quantity || 1)`. */
  function LineTotal(l: Line): int {
    PriceOr0(l) * QuantityOrOne(l.quantity)
  }

  /** `calculateTotal`. */
  function CalculateTotal(ls: seq<Line>): int {
    if ls == [] then 0 else LineTotal(ls[0]) + CalculateTotal(ls[1..])
  }

  lemma {:induction false} CalculateTotalAppend(a: seq<Line>, b: seq<Line>)
    ensures CalculateTotal(a + b) == CalculateTotal(a) + CalculateTotal(b)
  {
    if a == [] {
      assert a + b == b;
    } else {
      assert (a + b)[1..] == a[1..] + b;
      CalculateTotalAppend(a[1..], b);
    }
  }

  /** `res.data.total || calculateTotal(items)`: the total shown after a
      fetch is the server's, unless the server said 0. */
  function ShownTotal(v: CartView): (t: int)
    ensures v.total != 0 ==> t == v.total
    ensures v.total == 0 ==> t == CalculateTotal(v.items)
  {
    if v.total != 0 then v.total else CalculateTotal(v.items)
  }

  /** A listing line whose subtotal is its price (or 0) times a non-zero
      quantity. */
  predicate Priced(l: Line) {
    l.quantity != 0 && l.subtotal == PriceOr0(l) * l.quantity
  }

  lemma {:induction false} TotalOfPricedLines(ls: seq<Line>)
    requires forall k :: 0 <= k < |ls| ==> Priced(ls[k])
    ensures CalculateTotal(ls) == SubtotalSum(ls)
  {
    if ls != [] {
      TotalOfPricedLines(ls[1..]);
    }
  }

  /** On the rows the server keeps, the page's own total and the server's
      agree, so the page always shows the server's total whatever the
      fallback. */
  lemma ShownTotalIsServerTotal(rows: seq<Row>, owners: seq<OwnerRoutes.Owner>, dishes: seq<Catalog.Dish>, c: string)
    requires CartInvariant(rows)
    ensures ShownTotal(Get(rows, owners, dishes, c)) == Get(rows, owners, dishes, c).total
    ensures CalculateTotal(Get(rows, owners, dishes, c).items) == Get(rows, owners, dishes, c).total
  {
    var rs := RowsOf(rows, c);
    var ls := Get(rows, owners, dishes, c).items;
    forall k | 0 <= k < |ls|
      ensures Priced(ls[k])
    {
      assert rs[k] in rows;
      assert ls[k] == LineOf(owners, dishes, rs[k]);
    }
    TotalOfPricedLines(ls);
  }

  /* ---------------------------------------------------------------
     Quantity update and removal
     --------------------------------------------------------------- */

  /** The page's lines match the server's rows one for one: same id and
      same quantity, in the same order. */
  predicate Mirrors(ls: seq<Line>, rows: seq<Row>) {
    |ls| == |rows| && forall k :: 0 <= k < |ls| ==> ls[k].id == rows[k].id && ls[k].quantity == rows[k].quantity
  }

  /** `items.map(i => i._id === id ? { ...i, quantity: newQty } : i)`. */
  function SetQuantity(ls: seq<Line>, id: string, q: int): (r: seq<Line>)
    ensures |r| == |ls|
    ensures forall k :: 0 <= k < |ls| && ls[k].id == id ==> r[k] == ls[k].(quantity := q)
    ensures forall k :: 0 <= k < |ls| && ls[k].id != id ==> r[k] == ls[k]
  {
    if ls == [] then []
    else [if ls[0].id == id then ls[0].(quantity := q) else ls[0]] + SetQuantity(ls[1..], id, q)
  }

  /** `updateQuantity(id, newQty)`. A quantity below 1 is ignored before
      anything is sent; `done` is whether the server's PUT succeeded,
      without which the list stays as it was. */
  function UpdateQuantity(ls: seq<Line>, id: string, newQty: int, done: bool): (r: seq<Line>)
    ensures newQty < 1 || !done ==> r == ls
    ensures |r| == |ls|
    ensures forall k :: 0 <= k < |ls| ==> r[k].id == ls[k].id
    ensures newQty >= 1 && done ==> forall k :: 0 <= k < |ls| && ls[k].id == id ==> r[k].quantity == newQty
    ensures forall k :: 0 <= k < |ls| && ls[k].id != id ==> r[k] == ls[k]
  {
    if newQty < 1 || !done then ls else SetQuantity(ls, id, newQty)
  }

  /** Sending the same update twice leaves what one did. */
  lemma UpdateQuantityIdempotent(ls: seq<Line>, id: string, q: int)
    ensures UpdateQuantity(UpdateQuantity(ls, id, q, true), id, q, true) == UpdateQuantity(ls, id, q, true)
  {
  }

  /** After a successful update the page still mirrors the server: the PUT
      the page sends (a quantity of at least 1 for an id it lists) is the
      server's update of that row, and the local map changes the same row.
      Row ids are distinct, so only one line carries the id. */
  lemma UpdateMirrorsServer(ls: seq<Line>, rows: seq<Row>, id: string, q: int)
    requires Mirrors(ls, rows) && CartInvariant(rows) && q >= 1
    requires Update(rows, id, Some(q)).Ok?
    ensures Mirrors(UpdateQuantity(ls, id, q, true), Update(rows, id, Some(q)).value)
  {
    var j := FindRow(rows, id).value;
    var rows' := Update(rows, id, Some(q)).value;
    var ls' := UpdateQuantity(ls, id, q, true);
    forall k | 0 <= k < |ls'|
      ensures ls'[k].id == rows'[k].id && ls'[k].quantity == rows'[k].quantity
    {
      if k != j {
        assert rows[k].id != rows[j].id || k == j;
      }
    }
  }

  /** `items.filter(i => i._id !== id)` once the DELETE succeeded. */
  function RemoveLine(ls: seq<Line>, id: string, done: bool): (r: seq<Line>)
    ensures !done ==> r == ls
    ensures done ==> forall l :: l in r <==> l in ls && l.id != id
    ensures |r| <= |ls|
  {
    if done then Filter(ls, (l: Line) => l.id != id) else ls
  }

  /** Dropping lines and keeping lines by the same test split the total. */
  lemma {:induction false} FilterSplitsTotal(ls: seq<Line>, id: string)
    ensures CalculateTotal(Filter(ls, (l: Line) => l.id != id)) + CalculateTotal(Filter(ls, (l: Line) => l.id == id))
            == CalculateTotal(ls)
  {
    if ls != [] {
      FilterSplitsTotal(ls[1..], id);
    }
  }

  /** After a removal the page's total is the old one minus what the
      removed lines were worth. */
  lemma RemoveLowersTotal(ls: seq<Line>, id: string)
    ensures CalculateTotal(RemoveLine(ls, id, true))
            == CalculateTotal(ls) - CalculateTotal(Filter(ls, (l: Line) => l.id == id))
  {
    FilterSplitsTotal(ls, id);
  }

  lemma MirrorsCons(l: Line, x: Row, a: seq<Line>, b: seq<Row>)
    requires Mirrors(a, b) && l.id == x.id && l.quantity == x.quantity
    ensures Mirrors([l] + a, [x] + b)
  {
    forall k | 0 < k <= |a|
      ensures ([l] + a)[k] == a[k - 1] && ([x] + b)[k] == b[k - 1]
    {
    }
  }

  lemma {:induction false} MirrorsFilter(ls: seq<Line>, rows: seq<Row>, id: string)
    requires Mirrors(ls, rows)
    ensures Mirrors(Filter(ls, (l: Line) => l.id != id), Filter(rows, (x: Row) => x.id != id))
  {
    if ls != [] {
      assert Mirrors(ls[1..], rows[1..]) by {
        forall k | 0 <= k < |ls| - 1
          ensures ls[1..][k] == ls[k + 1] && rows[1..][k] == rows[k + 1]
        {
        }
      }
      MirrorsFilter(ls[1..], rows[1..], id);
      if ls[0].id != id {
        MirrorsCons(ls[0], rows[0], Filter(ls[1..], (l: Line) => l.id != id), Filter(rows[1..], (x: Row) => x.id != id));
      }
    }
  }

  /** A removal the server accepted leaves the page mirroring the server's
      rows. */
  lemma RemoveMirrorsServer(ls: seq<Line>, rows: seq<Row>, id: string)
    requires Mirrors(ls, rows) && Remove(rows, id).Ok?
    ensures Mirrors(RemoveLine(ls, id, true), Remove(rows, id).value)
  {
    MirrorsFilter(ls, rows, id);
  }

  /* ---------------------------------------------------------------
     Placing the order
     --------------------------------------------------------------- */

  /** What a group line charges: `i.price * i.quantity`, with no defaults. */
  function Charged(l: Line): int {
    PriceOr0(l) * l.quantity
  }

  function ChargedSum(ls: seq<Line>): int {
    if ls == [] then 0 else Charged(ls[0]) + ChargedSum(ls[1..])
  }

  lemma {:induction false} ChargedSumAppend(a: seq<Line>, b: seq<Line>)
    ensures ChargedSum(a + b) == ChargedSum(a) + ChargedSum(b)
  {
    if a == [] {
      assert a + b == b;
    } else {
      assert (a + b)[1..] == a[1..] + b;
      ChargedSumAppend(a[1..], b);
    }
  }

  /** With every quantity non-zero the two ways of pricing agree. */
  lemma {:induction false} ChargedSumIsTotal(ls: seq<Line>)
    requires forall k :: 0 <= k < |ls| ==> ls[k].quantity != 0
    ensures ChargedSum(ls) == CalculateTotal(ls)
  {
    if ls != [] {
      ChargedSumIsTotal(ls[1..]);
    }
  }

  /** Every line names its dish and its owner. */
  predicate Addressed(ls: seq<Line>) {
    forall k :: 0 <= k < |ls| ==> Present(ls[k].ownerId) && Present(ls[k].dishId)
  }

  /** The owners of the lines, each once, in the order they first appear:
      the insertion order of the `groupedOrders` object's keys, which is
      the order `for … in` walks them (owner ids are never array indices). */
  function OwnerKeys(ls: seq<Line>): (r: seq<string>)
    requires Addressed(ls)
    ensures forall i, j :: 0 <= i < j < |r| ==> r[i] != r[j]
    ensures forall o :: o in r <==> exists k :: 0 <= k < |ls| && ls[k].ownerId == Some(o)
  {
    if ls == [] then []
    else
      var init := ls[..|ls| - 1];
      assert forall k :: 0 <= k < |init| ==> init[k] == ls[k];
      var rest := OwnerKeys(init);
      var o := ls[|ls| - 1].ownerId.value;
      if o in rest then rest else rest + [o]
  }

  /** `groupedOrders[ownerId]` before it is turned into items. */
  function OwnerLines(ls: seq<Line>, o: string): (r: seq<Line>)
    ensures forall l :: l in r <==> l in ls && l.ownerId == Some(o)
  {
    Filter(ls, (l: Line) => l.ownerId == Some(o))
  }

  /** `{ dishId, name, price, quantity }` for one line. */
  function ItemOf(l: Line): OrderRoutes.ItemInput {
    OrderRoutes.ItemInput(l.dishId, l.name, l.price, Some(l.quantity))
  }

  function ItemsOf(ls: seq<Line>): (r: seq<OrderRoutes.ItemInput>)
    ensures |r| == |ls| && forall k :: 0 <= k < |ls| ==> r[k] == ItemOf(ls[k])
  {
    if ls == [] then [] else [ItemOf(ls[0])] + ItemsOf(ls[1..])
  }

  /** The group's `totalAmount`: a missing price makes the product NaN,
      which the request body carries as null. */
  function GroupAmount(g: seq<Line>): (r: Option<int>)
    ensures r.Some? <==> forall k :: 0 <= k < |g| ==> g[k].price.Some?
    ensures r.Some? ==> r.value == ChargedSum(g)
  {
    if g == [] then Some(0)
    else if g[0].price.None? then None
    else match GroupAmount(g[1..])
      case None => None
      case Some(t) => Some(Charged(g[0]) + t)
  }

  function RequestFor(ls: seq<Line>, o: string, customerId: Option<string>, address: string, payment: string): OrderRoutes.CreateRequest {
    var g := OwnerLines(ls, o);
    OrderRoutes.CreateRequest(customerId, Some(o), Some(ItemsOf(g)), GroupAmount(g), Some(address), Some(payment))
  }

  function RequestsFor(ls: seq<Line>, keys: seq<string>, customerId: Option<string>, address: string, payment: string)
    : (r: seq<OrderRoutes.CreateRequest>)
    ensures |r| == |keys| && forall k :: 0 <= k < |keys| ==> r[k] == RequestFor(ls, keys[k], customerId, address, payment)
  {
    if keys == [] then [] else [RequestFor(ls, keys[0], customerId, address, payment)] + RequestsFor(ls, keys[1..], customerId, address, payment)
  }

  /** The requests for distinct owners that between them cover every
      line: one per owner, each carrying that owner's group. */
  lemma RequestsCover(ls: seq<Line>, keys: seq<string>, c: Option<string>, a: string, p: string)
    requires forall i, j :: 0 <= i < j < |keys| ==> keys[i] != keys[j]
    requires forall k :: 0 <= k < |ls| ==> ls[k].ownerId.Some? && ls[k].ownerId.value in keys
    ensures var r := RequestsFor(ls, keys, c, a, p);
            && (forall i, j :: 0 <= i < j < |r| ==> r[i].ownerId != r[j].ownerId)
            && (forall k :: 0 <= k < |ls| ==> exists j :: 0 <= j < |r| && r[j].ownerId == ls[k].ownerId)
  {
    var r := RequestsFor(ls, keys, c, a, p);
    forall k | 0 <= k < |ls|
      ensures exists j :: 0 <= j < |r| && r[j].ownerId == ls[k].ownerId
    {
      var j :| 0 <= j < |keys| && keys[j] == ls[k].ownerId.value;
      assert r[j].ownerId == ls[k].ownerId;
    }
  }

  /** `handlePlaceOrder` up to the requests it sends. An empty cart and a
      blank address are refused; a line without owner or dish throws
      before anything is sent. Otherwise there is one request per owner,
      in first-appearance order, carrying that owner's lines in cart order,
      the address as typed (untrimmed) and the chosen payment. */
  function PlaceOrder(ls: seq<Line>, customerId: Option<string>, address: string, payment: string)
    : (r: Result<seq<OrderRoutes.CreateRequest>, Error>)
    ensures r.Ok? <==> ls != [] && !Blank(address) && Addressed(ls)
    ensures ls == [] ==> r == Err(BadRequest("empty cart"))
    ensures r.Ok? ==> r.value == RequestsFor(ls, OwnerKeys(ls), customerId, address, payment) && |r.value| > 0
    ensures r.Ok? ==> forall i, j :: 0 <= i < j < |r.value| ==> r.value[i].ownerId != r.value[j].ownerId
    ensures r.Ok? ==> forall k :: 0 <= k < |ls| ==> exists j :: 0 <= j < |r.value| && r.value[j].ownerId == ls[k].ownerId
  {
    if ls == [] then Err(BadRequest("empty cart"))
    else if Blank(address) then Err(BadRequest("address"))
    else if !Addressed(ls) then Err(BadRequest("missing ownerId or dishId"))
    else
      var keys := OwnerKeys(ls);
      assert ls[0].ownerId.value in keys;
      RequestsCover(ls, keys, customerId, address, payment);
      Ok(RequestsFor(ls, keys, customerId, address, payment))
  }

  /** Each request carries its owner's lines in cart order, their total,
      the customer, the address as typed and the payment. */
  lemma PlaceOrderPayloads(ls: seq<Line>, c: Option<string>, a: string, p: string, j: nat)
    requires PlaceOrder(ls, c, a, p).Ok? && j < |PlaceOrder(ls, c, a, p).value|
    ensures var q := PlaceOrder(ls, c, a, p).value[j];
            && q.ownerId.Some? && q.ownerId.value in OwnerKeys(ls)
            && q.items == Some(ItemsOf(OwnerLines(ls, q.ownerId.value)))
            && q.totalAmount == GroupAmount(OwnerLines(ls, q.ownerId.value))
            && q.customerId == c && q.address == Some(a) && q.payment == Some(p)
  {
    assert OwnerKeys(ls)[j] in OwnerKeys(ls);
  }

  /** The sum of the group totals over some owners. */
  function SumGroups(ls: seq<Line>, keys: seq<string>): int {
    if keys == [] then 0 else ChargedSum(OwnerLines(ls, keys[0])) + SumGroups(ls, keys[1..])
  }

  lemma OwnerLinesSnoc(init: seq<Line>, x: Line, o: string)
    ensures ChargedSum(OwnerLines(init + [x], o))
            == ChargedSum(OwnerLines(init, o)) + (if x.ownerId == Some(o) then Charged(x) else 0)
  {
    var f := (l: Line) => l.ownerId == Some(o);
    FilterAppend(init, [x], f);
    ChargedSumAppend(Filter(init, f), Filter([x], f));
  }

  lemma {:induction false} SumGroupsSnoc(init: seq<Line>, x: Line, keys: seq<string>)
    requires forall i, j :: 0 <= i < j < |keys| ==> keys[i] != keys[j]
    requires x.ownerId.Some?
    ensures SumGroups(init + [x], keys)
            == SumGroups(init, keys) + (if x.ownerId.value in keys then Charged(x) else 0)
  {
    if keys != [] {
      OwnerLinesSnoc(init, x, keys[0]);
      SumGroupsSnoc(init, x, keys[1..]);
      assert x.ownerId.value in keys[1..] ==> x.ownerId.value != keys[0];
      assert x.ownerId.value in keys <==> x.ownerId.value == keys[0] || x.ownerId.value in keys[1..];
    }
  }

  lemma {:induction false} SumGroupsAppendKey(ls: seq<Line>, keys: seq<string>, o: string)
    ensures SumGroups(ls, keys + [o]) == SumGroups(ls, keys) + ChargedSum(OwnerLines(ls, o))
  {
    if keys == [] {
      assert keys + [o] == [o];
    } else {
      assert (keys + [o])[1..] == keys[1..] + [o];
      SumGroupsAppendKey(ls, keys[1..], o);
    }
  }

  /** Splitting by owner neither loses nor repeats a line: the group
      totals add up to what the whole cart charges. */
  lemma {:induction false} GroupsPartitionTotal(ls: seq<Line>)
    requires Addressed(ls)
    ensures SumGroups(ls, OwnerKeys(ls)) == ChargedSum(ls)
  {
    if ls != [] {
      var init := ls[..|ls| - 1];
      var x := ls[|ls| - 1];
      assert ls == init + [x];
      assert forall k :: 0 <= k < |init| ==> init[k] == ls[k];
      GroupsPartitionTotal(init);
      PartitionSnoc(init, x);
    }
  }

  /** One more line keeps the group totals equal to the cart's charge. */
  lemma PartitionSnoc(init: seq<Line>, x: Line)
    requires Addressed(init) && Addressed(init + [x])
    requires SumGroups(init, OwnerKeys(init)) == ChargedSum(init)
    ensures SumGroups(init + [x], OwnerKeys(init + [x])) == ChargedSum(init + [x])
  {
    OwnerKeysSnoc(init, x);
    var keys := OwnerKeys(init);
    var o := x.ownerId.value;
    ChargedSumAppend(init, [x]);
    assert ChargedSum(init + [x]) == ChargedSum(init) + Charged(x);
    if o in keys {
      SumGroupsSnoc(init, x, keys);
    } else {
      NewOwnerGroup(init, x, keys);
    }
  }

  /** A line adds its owner to the keys unless the owner already has one. */
  lemma OwnerKeysSnoc(init: seq<Line>, x: Line)
    requires Addressed(init) && Addressed(init + [x])
    ensures x.ownerId.Some?
    ensures OwnerKeys(init + [x]) == if x.ownerId.value in OwnerKeys(init) then OwnerKeys(init) else OwnerKeys(init) + [x.ownerId.value]
  {
    assert (init + [x])[|init|] == x;
    assert (init + [x])[..|init|] == init;
  }

  /** A line whose owner has no line before it opens a group of its own. */
  lemma NewOwnerGroup(init: seq<Line>, x: Line, keys: seq<string>)
    requires Addressed(init) && keys == OwnerKeys(init)
    requires x.ownerId.Some? && x.ownerId.value !in keys
    ensures SumGroups(init + [x], keys + [x.ownerId.value]) == SumGroups(init, keys) + Charged(x)
  {
    var o := x.ownerId.value;
    SumGroupsAppendKey(init + [x], keys, o);
    SumGroupsSnoc(init, x, keys);
    assert OwnerLines(init, o) == [] by {
      forall k | 0 <= k < |init|
        ensures init[k].ownerId != Some(o)
      {
        assert init[k].ownerId.value in keys;
      }
    }
    OwnerLinesSnoc(init, x, o);
  }

  function AmountsSum(reqs: seq<OrderRoutes.CreateRequest>): int {
    if reqs == [] then 0 else reqs[0].totalAmount.GetOr(0) + AmountsSum(reqs[1..])
  }

  lemma {:induction false} AmountsOfRequests(ls: seq<Line>, keys: seq<string>, c: Option<string>, a: string, p: string)
    requires forall k :: 0 <= k < |ls| ==> ls[k].price.Some?
    ensures AmountsSum(RequestsFor(ls, keys, c, a, p)) == SumGroups(ls, keys)
  {
    if keys != [] {
      var g := OwnerLines(ls, keys[0]);
      forall k | 0 <= k < |g|
        ensures g[k].price.Some?
      {
        assert g[k] in ls;
      }
      assert RequestsFor(ls, keys, c, a, p)[1..] == RequestsFor(ls, keys[1..], c, a, p);
      AmountsOfRequests(ls, keys[1..], c, a, p);
    }
  }

  /** With every price present and every quantity at least 1, the per-owner
      orders together charge exactly the total the cart page shows, and
      none of them carries a null total. */
  lemma GroupTotalsAddUp(ls: seq<Line>, c: Option<string>, a: string, p: string)
    requires PlaceOrder(ls, c, a, p).Ok?
    requires forall k :: 0 <= k < |ls| ==> ls[k].price.Some? && ls[k].quantity >= 1
    ensures AmountsSum(PlaceOrder(ls, c, a, p).value) == CalculateTotal(ls)
    ensures forall j :: 0 <= j < |PlaceOrder(ls, c, a, p).value| ==> PlaceOrder(ls, c, a, p).value[j].totalAmount.Some?
  {
    var keys := OwnerKeys(ls);
    assert PlaceOrder(ls, c, a, p).value == RequestsFor(ls, keys, c, a, p);
    AmountsOfRequests(ls, keys, c, a, p);
    GroupsPartitionTotal(ls);
    ChargedSumIsTotal(ls);
    AmountsPresent(ls, keys, c, a, p);
  }

  /** With every price present, no group total is null. */
  lemma AmountsPresent(ls: seq<Line>, keys: seq<string>, c: Option<string>, a: string, p: string)
    requires forall k :: 0 <= k < |ls| ==> ls[k].price.Some?
    ensures forall j :: 0 <= j < |keys| ==> RequestsFor(ls, keys, c, a, p)[j].totalAmount.Some?
  {
    forall j | 0 <= j < |keys|
      ensures RequestsFor(ls, keys, c, a, p)[j].totalAmount.Some?
    {
      var g := OwnerLines(ls, keys[j]);
      forall k | 0 <= k < |g|
        ensures g[k].price.Some?
      {
        assert g[k] in ls;
      }
    }
  }

  /* ---------------------------------------------------------------
     Sending the requests
     --------------------------------------------------------------- */

  /** Whether the create route accepts a request, whatever the store. */
  predicate Acceptable(q: OrderRoutes.CreateRequest) {
    && OrderRoutes.HasAllFields(q)
    && (forall k :: 0 <= k < |q.items.value| ==> OrderRoutes.ItemAccepted(q.items.value[k]))
    && Orders.ParsePayment(q.payment.value).Some?
  }

  lemma PrefixCons(ids: seq<string>, n: nat)
    requires n < |ids|
    ensures forall x :: x in ids[..n + 1] <==> x == ids[0] || x in ids[1..][..n]
  {
    assert ids[..n + 1] == [ids[0]] + ids[1..][..n];
  }

  datatype Submission = Submission(store: Orders.Store, placed: nat, cleared: bool)

  /** One `axios.post` to the create route: the store after it when the
      route accepts the request, nothing when it throws. */
  function Place(store: Orders.Store, id: string, q: OrderRoutes.CreateRequest): (r: Option<Orders.Store>)
    requires id !in store
    ensures r.Some? <==> Acceptable(q)
    ensures r.Some? ==> (forall x :: x in r.value <==> x in store || x == id)
                        && forall x :: x in store ==> r.value[x] == store[x]
  {
    match OrderRoutes.Create(store, id, q)
    case Err(_) => None
    case Ok(reply) => Some(reply.store)
  }

  /** The identifiers are fresh: distinct, and none of them in the store. */
  predicate FreshIds(store: Orders.Store, ids: seq<string>) {
    && (forall i, j :: 0 <= i < j < |ids| ==> ids[i] != ids[j])
    && (forall k :: 0 <= k < |ids| ==> ids[k] !in store)
  }

  /** Fresh identifiers stay fresh, past the first, once the first is
      added to the store. */
  lemma FreshTail(store: Orders.Store, next: Orders.Store, ids: seq<string>)
    requires |ids| > 0 && FreshIds(store, ids)
    requires forall x :: x in next <==> x in store || x == ids[0]
    ensures FreshIds(next, ids[1..])
  {
    forall k | 0 <= k < |ids| - 1
      ensures ids[1..][k] !in next
    {
      assert ids[1..][k] == ids[k + 1] != ids[0];
    }
  }

  /** The `for … in` loop of `await axios.post(...)` followed by the clear:
      requests go one at a time, the first refused one throws, the orders
      already created stay, and the cart is cleared only if none threw.
      `ids` are the identifiers the store gives the new orders. */
  function Submit(store: Orders.Store, ids: seq<string>, reqs: seq<OrderRoutes.CreateRequest>): (r: Submission)
    requires |ids| == |reqs| && FreshIds(store, ids)
    ensures r.placed <= |reqs|
    ensures forall k :: 0 <= k < r.placed ==> Acceptable(reqs[k])
    ensures r.placed < |reqs| ==> !Acceptable(reqs[r.placed])
    ensures r.cleared <==> r.placed == |reqs|
    decreases |reqs|
  {
    if reqs == [] then Submission(store, 0, true)
    else
      match Place(store, ids[0], reqs[0])
      case None => Submission(store, 0, false)
      case Some(next) =>
        FreshTail(store, next, ids);
        var rest := Submit(next, ids[1..], reqs[1..]);
        AcceptedPrefixCons(reqs, rest.placed);
        Submission(rest.store, rest.placed + 1, rest.cleared)
  }

  /** An accepted first request followed by `n` accepted ones. */
  lemma AcceptedPrefixCons(reqs: seq<OrderRoutes.CreateRequest>, n: nat)
    requires n < |reqs| && Acceptable(reqs[0])
    requires forall k :: 0 <= k < n ==> Acceptable(reqs[1..][k])
    ensures forall k :: 0 <= k < n + 1 ==> Acceptable(reqs[k])
  {
    forall k | 0 < k < n + 1
      ensures Acceptable(reqs[k])
    {
      assert reqs[k] == reqs[1..][k - 1];
    }
  }

  /** The orders created are exactly those of the requests sent before the
      first refusal, and every order already stored is kept unchanged. */
  lemma {:induction false} SubmitStore(store: Orders.Store, ids: seq<string>, reqs: seq<OrderRoutes.CreateRequest>)
    requires |ids| == |reqs| && FreshIds(store, ids)
    ensures var r := Submit(store, ids, reqs);
            && (forall x :: x in r.store <==> x in store || x in ids[..r.placed])
            && (forall x :: x in store ==> r.store[x] == store[x])
    decreases |reqs|
  {
    if reqs != [] {
      match Place(store, ids[0], reqs[0])
      case None =>
      case Some(next) =>
        FreshTail(store, next, ids);
        SubmitStore(next, ids[1..], reqs[1..]);
        PrefixCons(ids, Submit(next, ids[1..], reqs[1..]).placed);
    }
  }

  /** The cart is cleared exactly when every per-owner request is one the
      create route accepts. */
  lemma ClearedIffAllAccepted(store: Orders.Store, ids: seq<string>, reqs: seq<OrderRoutes.CreateRequest>)
    requires |ids| == |reqs| && FreshIds(store, ids)
    ensures Submit(store, ids, reqs).cleared <==> forall k :: 0 <= k < |reqs| ==> Acceptable(reqs[k])
  {
  }

  /** A second owner's order that the route refuses leaves the first
      owner's order placed and the whole cart, its lines included, in
      place. */
  lemma PartialPlacement(store: Orders.Store, i1: string, i2: string, q1: OrderRoutes.CreateRequest, q2: OrderRoutes.CreateRequest)
    requires i1 != i2 && i1 !in store && i2 !in store
    requires Acceptable(q1) && !Acceptable(q2)
    ensures var s := Submit(store, [i1, i2], [q1, q2]);
            !s.cleared && s.placed == 1 && i1 in s.store && i2 !in s.store
  {
    assert FreshIds(store, [i1, i2]);
    SubmitStore(store, [i1, i2], [q1, q2]);
    assert [i1, i2][..1] == [i1];
  }
}

=== FILE: cart_routes.dfy ===
/** The server cart of backend/routes/cartRoutes.js over the rows of
    backend/models/Cart.js: add (an upsert per customer and dish), the
    priced listing, quantity update, single removal, clear and checkout.
    Rows are a sequence in store order; dishes and owners come from the
    catalog. */
module CartRoutes {
  import opened Wrappers
  import opened Seqs
  import opened Catalog
  import opened OwnerRoutes

  datatype RowStatus = InCart | Ordered | Delivered

  function RowStatusName(s: RowStatus): string {
    match s
    case InCart => "in-cart"
    case Ordered => "ordered"
    case Delivered => "delivered"
  }

  datatype Row = Row(id: Id, customerId: Id, dishId: Id, quantity: int, status: RowStatus)

  /** What the cart schema demands of a stored row. */
  predicate RowValid(r: Row) {
    r.customerId != [] && r.dishId != [] && r.quantity >= 1
  }

  /** The state the add route maintains: valid rows, distinct row ids and
      at most one row per customer and dish. */
  predicate CartInvariant(rows: seq<Row>) {
    && (forall k :: 0 <= k < |rows| ==> RowValid(rows[k]))
    && (forall i, j :: 0 <= i < j < |rows| ==> rows[i].id != rows[j].id)
    && (forall i, j :: 0 <= i < j < |rows| ==> (rows[i].customerId, rows[i].dishId) != (rows[j].customerId, rows[j].dishId))
  }

  /** `Cart.findOne({ customerId, dishId })`. */
  function FindPair(rows: seq<Row>, c: Id, d: Id): (r: Option<nat>)
    ensures r.Some? ==> r.value < |rows| && rows[r.value].customerId == c && rows[r.value].dishId == d
    ensures r.Some? ==> forall k :: 0 <= k < r.value ==> (rows[k].customerId, rows[k].dishId) != (c, d)
    ensures r.None? ==> forall k :: 0 <= k < |rows| ==> (rows[k].customerId, rows[k].dishId) != (c, d)
  {
    FirstIndex(rows, (x: Row) => x.customerId == c && x.dishId == d)
  }

  /** `Cart.findById`. */
  function FindRow(rows: seq<Row>, id: Id): (r: Option<nat>)
    ensures r.Some? ==> r.value < |rows| && rows[r.value].id == id
    ensures r.None? ==> forall k :: 0 <= k < |rows| ==> rows[k].id != id
  {
    FirstIndex(rows, (x: Row) => x.id == id)
  }

  /* ---------------------------------------------------------------
     Add
     --------------------------------------------------------------- */

  /** POST /add. `id` is the identifier a new row would receive. An
      existing row for the pair grows by `quantity || 1`; otherwise one row
      with that quantity is created. Either way the schema's minimum of 1
      is enforced when the row is written. */
  function Add(rows: seq<Row>, dishes: seq<Dish>, id: Id, c: Option<Id>, d: Option<Id>, quantity: Option<int>): (r: Result<seq<Row>, Error>)
    ensures !(Present(c) && Present(d)) ==> r == Err(BadRequest("fields"))
    ensures Present(c) && Present(d) && FindDish(dishes, d.value).None? ==> r == Err(NotFound)
    ensures r.Ok? ==> FindDish(dishes, d.value).Some?
    ensures r.Ok? && FindPair(rows, c.value, d.value).Some? ==>
              var k := FindPair(rows, c.value, d.value).value;
              r.value == rows[k := rows[k].(quantity := rows[k].quantity + OrDefault(quantity, 1))]
    ensures r.Ok? && FindPair(rows, c.value, d.value).None? ==>
              r.value == rows + [Row(id, c.value, d.value, OrDefault(quantity, 1), InCart)]
    ensures Present(c) && Present(d) && FindDish(dishes, d.value).Some? ==>
              (r.Ok? <==> match FindPair(rows, c.value, d.value)
                          case Some(k) => rows[k].quantity + OrDefault(quantity, 1) >= 1
                          case None => OrDefault(quantity, 1) >= 1)
  {
    if !(Present(c) && Present(d)) then Err(BadRequest("fields"))
    else if FindDish(dishes, d.value).None? then Err(NotFound)
    else
      var q := OrDefault(quantity, 1);
      match FindPair(rows, c.value, d.value)
      case Some(k) =>
        if rows[k].quantity + q < 1 then Err(SchemaRejected("quantity"))
        else Ok(rows[k := rows[k].(quantity := rows[k].quantity + q)])
      case None =>
        if q < 1 then Err(SchemaRejected("quantity"))
        else Ok(rows + [Row(id, c.value, d.value, q, InCart)])
  }

  /** Adding keeps one row per customer and dish, valid rows and distinct
      ids, given a fresh id for a possible new row. */
  lemma AddKeepsInvariant(rows: seq<Row>, dishes: seq<Dish>, id: Id, c: Option<Id>, d: Option<Id>, quantity: Option<int>)
    requires CartInvariant(rows)
    requires forall k :: 0 <= k < |rows| ==> rows[k].id != id
    requires Add(rows, dishes, id, c, d, quantity).Ok?
    ensures CartInvariant(Add(rows, dishes, id, c, d, quantity).value)
  {
  }

  /** Adding the same dish twice leaves one row whose quantity is the sum. */
  lemma AddTwiceOneRow(rows: seq<Row>, dishes: seq<Dish>, id: Id, id2: Id, c: Id, d: Id, q1: int, q2: int)
    requires CartInvariant(rows) && FindPair(rows, c, d).None?
    requires c != [] && d != [] && FindDish(dishes, d).Some? && q1 >= 1 && q2 >= 1
    requires forall k :: 0 <= k < |rows| ==> rows[k].id != id
    ensures var r1 := Add(rows, dishes, id, Some(c), Some(d), Some(q1));
            r1.Ok? && var r2 := Add(r1.value, dishes, id2, Some(c), Some(d), Some(q2));
            r2.Ok? && |r2.value| == |rows| + 1 && r2.value[|rows|] == Row(id, c, d, q1 + q2, InCart)
  {
    var r1 := Add(rows, dishes, id, Some(c), Some(d), Some(q1)).value;
    assert r1 == rows + [Row(id, c, d, q1, InCart)];
    assert forall k :: 0 <= k < |rows| ==> r1[k] == rows[k];
    assert (r1[|rows|].customerId, r1[|rows|].dishId) == (c, d);
    assert FindPair(r1, c, d) == Some(|rows|);
  }

  /* ---------------------------------------------------------------
     Listing
     --------------------------------------------------------------- */

  /** `item.dishId?.price || 0`: a deleted dish costs nothing. */
  function PriceOrZero(dishes: seq<Dish>, dishId: Id): int {
    match FindDish(dishes, dishId)
    case Some(x) => x.price
    case None => 0
  }

  /** An entry of GET /:customerId. Fields of a deleted dish are absent. */
  datatype Line = Line(id: Id, dishId: Option<Id>, ownerId: Option<Id>, name: Option<string>, price: Option<int>,
                       hotelName: string, quantity: int, subtotal: int)

  function LineOf(owners: seq<Owner>, dishes: seq<Dish>, r: Row): (l: Line)
    ensures l.subtotal == PriceOrZero(dishes, r.dishId) * r.quantity
    ensures l.quantity == r.quantity && l.id == r.id
    ensures l.dishId.Some? <==> FindDish(dishes, r.dishId).Some?
  {
    match FindDish(dishes, r.dishId)
    case None => Line(r.id, None, None, None, None, "Unknown Hotel", r.quantity, 0)
    case Some(x) =>
      Line(r.id, Some(x.id), if IsOwnerId(owners, x.ownerId) then Some(x.ownerId) else None,
           Some(x.name), Some(x.price), HotelOf(owners, x, "Unknown Hotel"), r.quantity, x.price * r.quantity)
  }

  function LinesOf(owners: seq<Owner>, dishes: seq<Dish>, rows: seq<Row>): (ls: seq<Line>)
    ensures |ls| == |rows|
    ensures forall k :: 0 <= k < |rows| ==> ls[k] == LineOf(owners, dishes, rows[k])
  {
    if rows == [] then [] else [LineOf(owners, dishes, rows[0])] + LinesOf(owners, dishes, rows[1..])
  }

  function SubtotalSum(ls: seq<Line>): int {
    if ls == [] then 0 else ls[0].subtotal + SubtotalSum(ls[1..])
  }

  function RowsOf(rows: seq<Row>, c: Id): (r: seq<Row>)
    ensures forall x :: x in r <==> x in rows && x.customerId == c
  {
    Filter(rows, (x: Row) => x.customerId == c)
  }

  datatype CartView = CartView(items: seq<Line>, total: int)

  /** GET /:customerId: one line per row of the customer with its subtotal,
      and the sum of the subtotals. */
  function Get(rows: seq<Row>, owners: seq<Owner>, dishes: seq<Dish>, c: Id): (v: CartView)
    ensures |v.items| == |RowsOf(rows, c)|
    ensures forall k :: 0 <= k < |v.items| ==> v.items[k].subtotal == PriceOrZero(dishes, RowsOf(rows, c)[k].dishId) * RowsOf(rows, c)[k].quantity
    ensures v.total == SubtotalSum(v.items)
  {
    var ls := LinesOf(owners, dishes, RowsOf(rows, c));
    CartView(ls, SubtotalSum(ls))
  }

  /* ---------------------------------------------------------------
     Update, remove, clear
     --------------------------------------------------------------- */

  /** PUT /update/:id. A quantity below 1 deletes the row (and answers
      success even if there was none); otherwise the row must exist and
      takes the quantity; an absent quantity changes nothing. */
  function Update(rows: seq<Row>, id: Id, quantity: Option<int>): (r: Result<seq<Row>, Error>)
    ensures quantity.Some? && quantity.value < 1 ==> r == Ok(Filter(rows, (x: Row) => x.id != id))
    ensures !(quantity.Some? && quantity.value < 1) ==> (r.Ok? <==> FindRow(rows, id).Some?)
    ensures !(quantity.Some? && quantity.value < 1) && r.Err? ==> r.error == NotFound
    ensures r.Ok? && quantity.Some? && quantity.value >= 1 ==>
              var k := FindRow(rows, id).value; r.value == rows[k := rows[k].(quantity := quantity.value)]
    ensures r.Ok? && quantity.None? ==> r.value == rows
  {
    if quantity.Some? && quantity.value < 1 then Ok(Filter(rows, (x: Row) => x.id != id))
    else match FindRow(rows, id)
      case None => Err(NotFound)
      case Some(k) => if quantity.None? then Ok(rows) else Ok(rows[k := rows[k].(quantity := quantity.value)])
  }

  /** DELETE /:id: the row must exist. */
  function Remove(rows: seq<Row>, id: Id): (r: Result<seq<Row>, Error>)
    ensures r.Ok? <==> exists k :: 0 <= k < |rows| && rows[k].id == id
    ensures r.Err? ==> r.error == NotFound
    ensures r.Ok? ==> forall x :: x in r.value <==> x in rows && x.id != id
  {
    if FindRow(rows, id).None? then Err(NotFound) else Ok(Filter(rows, (x: Row) => x.id != id))
  }

  /** DELETE /clear/:customerId. */
  function Clear(rows: seq<Row>, c: Id): (r: seq<Row>)
    ensures forall x :: x in r <==> x in rows && x.customerId != c
  {
    Filter(rows, (x: Row) => x.customerId != c)
  }

  /** Clearing empties exactly that customer's cart: every other customer
      keeps the same rows in the same order. */
  lemma {:induction false} ClearIsolated(rows: seq<Row>, c: Id, other: Id)
    ensures RowsOf(Clear(rows, c), c) == []
    ensures other != c ==> RowsOf(Clear(rows, c), other) == RowsOf(rows, other)
  {
    if rows != [] {
      ClearIsolated(rows[1..], c, other);
      var t := Clear(rows[1..], c);
      if rows[0].customerId != c {
        assert Clear(rows, c) == [rows[0]] + t;
        assert ([rows[0]] + t)[1..] == t;
      }
    }
  }

  /* ---------------------------------------------------------------
     Checkout
     --------------------------------------------------------------- */

  /** `item.quantity || 1`. */
  function QuantityOrOne(q: int): int {
    if q != 0 then q else 1
  }

  function CheckoutSum(dishes: seq<Dish>, rows: seq<Row>): int {
    if rows == [] then 0 else PriceOrZero(dishes, rows[0].dishId) * QuantityOrOne(rows[0].quantity) + CheckoutSum(dishes, rows[1..])
  }

  datatype Receipt = Receipt(rows: seq<Row>, total: int, paymentMethod: string)

  /** POST /checkout/:customerId: refused for an empty cart; otherwise the
      total is taken and every row of the customer deleted. No order is
      created. */
  function Checkout(rows: seq<Row>, dishes: seq<Dish>, c: Id, paymentMethod: Option<string>): (r: Result<Receipt, Error>)
    ensures r.Err? <==> RowsOf(rows, c) == []
    ensures r.Err? ==> r.error.BadRequest?
    ensures r.Ok? ==> r.value.rows == Clear(rows, c) && RowsOf(r.value.rows, c) == []
    ensures r.Ok? ==> r.value.total == CheckoutSum(dishes, RowsOf(rows, c))
    ensures r.Ok? ==> r.value.paymentMethod == if Present(paymentMethod) then paymentMethod.value else "Cash on Delivery"
  {
    if RowsOf(rows, c) == [] then Err(BadRequest("empty cart"))
    else
      ClearIsolated(rows, c, c);
      Ok(Receipt(Clear(rows, c), CheckoutSum(dishes, RowsOf(rows, c)),
                 if Present(paymentMethod) then paymentMethod.value else "Cash on Delivery"))
  }

  /** The listing's total and the checkout's total agree on rows the add
      route wrote, whose quantities are at least 1. */
  lemma {:induction false} ListingTotalIsCheckoutTotal(owners: seq<Owner>, dishes: seq<Dish>, rows: seq<Row>)
    requires forall k :: 0 <= k < |rows| ==> rows[k].quantity >= 1
    ensures SubtotalSum(LinesOf(owners, dishes, rows)) == CheckoutSum(dishes, rows)
  {
    if rows != [] {
      var ls := LinesOf(owners, dishes, rows);
      assert ls[1..] == LinesOf(owners, dishes, rows[1..]);
      ListingTotalIsCheckoutTotal(owners, dishes, rows[1..]);
    }
  }

  /** ... and so, for a customer whose rows are valid, checkout charges
      exactly what the cart listing showed. */
  lemma CheckoutChargesListedTotal(rows: seq<Row>, owners: seq<Owner>, dishes: seq<Dish>, c: Id, p: Option<string>)
    requires CartInvariant(rows) && RowsOf(rows, c) != []
    ensures Checkout(rows, dishes, c, p).Ok? && Checkout(rows, dishes, c, p).value.total == Get(rows, owners, dishes, c).total
  {
    var rs := RowsOf(rows, c);
    forall k | 0 <= k < |rs|
      ensures rs[k].quantity >= 1
    {
      assert rs[k] in rows;
    }
    ListingTotalIsCheckoutTotal(owners, dishes, rs);
  }
}

=== FILE: catalog.dfy ===
/** The Dish document of backend/models/Dish.js and the checks its schema
    applies when a dish is created: owner required, name trimmed and at
    least two characters, price at least 1, image empty or an http(s) URL
    with a dot, description at most 200 characters, rating within 0..5. */
module Catalog {
  import opened Wrappers
  import opened Text

  type Id = string

  const PlaceholderImage: string := "https://via.placeholder.com/200"

  /** A stored dish. `avgRating` is in tenths of a star. `hotelName` is not
      a schema field: documents written through the schema never carry it,
      but queries may still ask for it. */
  datatype Dish = Dish(
    id: Id,
    ownerId: Id,
    name: string,
    price: int,
    image: string,
    about: Option<string>,
    avgRating: int,
    hotelName: Option<string>)

  /** Length of the scheme prefix `https?://` when `v` starts with one. */
  function SchemeEnd(v: string): (r: Option<nat>)
    ensures r.Some? ==> r.value <= |v|
    ensures r == Some(8) <==> |v| >= 8 && v[..8] == "https://"
    ensures r == Some(7) <==> |v| >= 7 && v[..7] == "http://"
    ensures r.Some? ==> r == Some(7) || r == Some(8)
  {
    if |v| >= 8 && v[..8] == "https://" then
      assert v[..7][4] == v[..8][4] == 's';
      Some(8)
    else if |v| >= 7 && v[..7] == "http://" then Some(7)
    else None
  }

  /** `.+\..+` from `se`: some character, a dot, some character, none of
      them a line terminator (`.` does not match those). */
  predicate DotAfter(v: string, se: nat) {
    exists p :: se < p && p + 1 < |v| && v[p] == '.'
                && forall k :: se <= k <= p + 1 ==> !IsLineTerminator(v[k])
  }

  /** The image validator: empty, or `^https?:\/\/.+\..+`. */
  predicate ImageOk(v: string) {
    v == [] || (SchemeEnd(v).Some? && DotAfter(v, SchemeEnd(v).value))
  }

  /** Every field constraint of the schema. */
  predicate DishValid(d: Dish) {
    && d.ownerId != []
    && |d.name| >= 2 && Trim(d.name) == d.name
    && d.price >= 1
    && ImageOk(d.image)
    && (d.about.Some? ==> |d.about.value| <= 200)
    && 0 <= d.avgRating <= 50
  }

  /** `Dish.create`: the name is trimmed before validation, an absent image
      takes the placeholder (an empty one stays empty), the rating starts
      at 0, and any failed constraint refuses the document. */
  function CastDish(id: Id, ownerId: Id, name: string, price: int, image: Option<string>,
                    about: Option<string>): (r: Result<Dish, Error>)
    ensures r.Ok? <==> ownerId != [] && |Trim(name)| >= 2 && price >= 1
                       && ImageOk(image.GetOr(PlaceholderImage))
                       && (about.Some? ==> |about.value| <= 200)
    ensures r.Err? ==> r.error.SchemaRejected?
    ensures r.Ok? ==> DishValid(r.value)
    ensures r.Ok? ==> r.value == Dish(id, ownerId, Trim(name), price, image.GetOr(PlaceholderImage), about, 0, None)
  {
    TrimIdempotent(name);
    var d := Dish(id, ownerId, Trim(name), price, image.GetOr(PlaceholderImage), about, 0, None);
    if ownerId == [] then Err(SchemaRejected("ownerId"))
    else if |d.name| < 2 then Err(SchemaRejected("name"))
    else if price < 1 then Err(SchemaRejected("price"))
    else if !ImageOk(d.image) then Err(SchemaRejected("image"))
    else if about.Some? && |about.value| > 200 then Err(SchemaRejected("about"))
    else Ok(d)
  }

  /** `Dish.findById`: the first stored dish with that id. */
  function FindDish(dishes: seq<Dish>, id: Id): (r: Option<Dish>)
    ensures r.Some? ==> r.value in dishes && r.value.id == id
    ensures r.None? <==> forall k :: 0 <= k < |dishes| ==> dishes[k].id != id
  {
    if dishes == [] then None
    else if dishes[0].id == id then Some(dishes[0])
    else FindDish(dishes[1..], id)
  }

  /** The default image passes the image validator. */
  lemma PlaceholderImageOk()
    ensures ImageOk(PlaceholderImage)
  {
    var v := PlaceholderImage;
    assert v[..8] == "https://";
    assert v[11] == '.';
    assert forall k :: 8 <= k <= 12 ==> !IsLineTerminator(v[k]);
  }
}

=== FILE: customer_dashboard.dfy ===
/** The customer's page, frontend/src/components/CustomerDashboard.js: the
    order-progress timeline and its ETA text, the merges of the
    `order-created` and `order-updated` events into the order list and the
    tracked order, the dish search, and the page's own one-order checkout. */
module CustomerDashboard {
  import opened Wrappers
  import opened Text
  import opened Orders
  import opened OrderViews
  import DeliveryRoutes
  import OrderRoutes
  import OwnerRoutes
  import CartRoutes
  import CartClient
  import Catalog
  import Seqs

  /* ---------------------------------------------------------------
     Timeline
     --------------------------------------------------------------- */

  /** `getTimelineStepIndex(status)`: 0 Pending, 1 Preparing, 2 picked up
      (the order label and the two courier-track names), 3 Delivered, and
      0 for an absent or empty status and for anything else. */
  function TimelineIndex(status: Option<string>): (r: nat)
    ensures r <= 3
    ensures r == 3 <==> status == Some("Delivered")
    ensures r == 2 <==> status == Some(PickedLabel) || status == Some("OutForDelivery") || status == Some("PickedUp")
    ensures r == 1 <==> status == Some("Preparing")
  {
    if !Present(status) then 0
    else if status.value == "Pending" then 0
    else if status.value == "Preparing" then 1
    else if status.value == PickedLabel || status.value == "OutForDelivery" || status.value == "PickedUp" then 2
    else if status.value == "Delivered" then 3
    else 0
  }

  /** The index of a stored order, read from its `status` field. */
  function StatusIndex(o: Order): nat {
    TimelineIndex(Some(StatusName(o.status)))
  }

  /** Read off a stored status, the timeline's steps are exactly the
      listed statuses in the owner's order, with the two courier-track
      names the status route can also store at the picked-up step; a
      cancelled order shows as pending. */
  lemma StatusIndexOfOrder(o: Order)
    requires WellFormedStatus(o.status)
    ensures StatusIndex(o) == 3 <==> o.status == Status.Delivered
    ensures StatusIndex(o) == 2 <==> o.status in {DishPicked, Unlisted("OutForDelivery"), Unlisted("PickedUp")}
    ensures StatusIndex(o) == 1 <==> o.status == Preparing
    ensures o.status == Pending || o.status == Cancelled ==> StatusIndex(o) == 0
  {
  }

  /** `estimateETAText`: a fixed text per index, "Delivered" for the last,
      and the empty text for an index outside 0..3. */
  function EtaText(idx: int): (r: string)
    ensures r == "Delivered" <==> idx == 3
    ensures r == [] <==> !(0 <= idx <= 3)
  {
    if idx == 0 then "Estimated: 30–40 mins"
    else if idx == 1 then "Estimated: 20–30 mins"
    else if idx == 2 then "Estimated: 10–20 mins"
    else if idx == 3 then "Delivered"
    else ""
  }

  /** The ETA shown for a tracked order (`order?.status`): never empty,
      and "Delivered" exactly for a delivered order. */
  function Eta(o: Option<Order>): (r: string)
    ensures r != []
    ensures r == "Delivered" <==> o.Some? && StatusName(o.value.status) == "Delivered"
  {
    EtaText(TimelineIndex(if o.Some? then Some(StatusName(o.value.status)) else None))
  }

  /** The four steps Pending, Preparing, Picked Up, Delivered: a step is
      done iff its index is at most the current one. */
  function Steps(o: Order): (r: seq<bool>)
    ensures |r| == 4 && r[0]
    ensures forall i, j :: 0 <= i < j < 4 && r[j] ==> r[i]
    ensures r[3] <==> StatusName(o.status) == "Delivered"
    ensures forall i :: 0 <= i < 4 ==> (r[i] <==> i <= StatusIndex(o))
  {
    seq(4, i => i <= StatusIndex(o))
  }

  /** The courier's guarded actions never move the customer's timeline
      back; only delivery moves it, and straight to the end. A courier's
      pickup leaves it where it was, because that route does not touch
      `status`. */
  lemma CourierActionsKeepTimeline(o: Order, courier: Id, now: nat)
    ensures DeliveryRoutes.AcceptOrder(o, courier, now).Ok? ==>
              StatusIndex(DeliveryRoutes.AcceptOrder(o, courier, now).value) == StatusIndex(o)
    ensures DeliveryRoutes.PickupOrder(o, now).Ok? ==>
              StatusIndex(DeliveryRoutes.PickupOrder(o, now).value) == StatusIndex(o)
    ensures DeliveryRoutes.DeliverOrder(o, now).Ok? ==>
              StatusIndex(DeliveryRoutes.DeliverOrder(o, now).value) == 3 >= StatusIndex(o)
  {
  }

  /** The owner's status route, which checks nothing, can take a delivered
      order's timeline back to the start. */
  lemma OwnerRouteCanRewindTimeline(o: Order, now: nat)
    requires o.status == Status.Delivered
    ensures StatusIndex(o) == 3 && StatusIndex(OrderRoutes.ApplyStatus(o, "Pending", now)) == 0
  {
  }

  /* ---------------------------------------------------------------
     Event merges
     --------------------------------------------------------------- */

  /** `order-created` (sent by the bot): the order goes to the front. */
  function MergeCreated(orders: seq<Order>, o: Order): (r: seq<Order>)
    ensures |r| == |orders| + 1 && r[0] == o && r[1..] == orders
  {
    [o] + orders
  }

  /** Whose order an `order-updated` payload is. A populated customer
      reference is read through its `_id`, a plain one directly, so both
      shapes give the order's customer. A `null` payload makes the handler
      throw and a pool notice has no customer: neither matches anyone. */
  function PayloadCustomer(p: Payload): Option<Id> {
    match p
    case Doc(o, _) => Some(o.customerId)
    case _ => None
  }

  /** `order-updated` on the order list: an update for this customer
      replaces the entry with its id; anything else changes nothing. */
  function MergeUpdated(orders: seq<Order>, me: Id, p: Payload): (r: seq<Order>)
    ensures |r| == |orders|
    ensures forall k :: 0 <= k < |orders| ==> r[k].id == orders[k].id
    ensures PayloadCustomer(p) != Some(me) ==> r == orders
    ensures p.Doc? && p.order.customerId == me ==>
              forall k :: 0 <= k < |orders| ==> r[k] == if orders[k].id == p.order.id then p.order else orders[k]
  {
    if p.Doc? && p.order.customerId == me then ReplaceById(orders, p.order.id, p.order) else orders
  }

  /** `order-updated` on the order being tracked. */
  function MergeSelected(sel: Option<Order>, me: Id, p: Payload): (r: Option<Order>)
    ensures r.None? <==> sel.None?
    ensures r.Some? ==> r.value.id == sel.value.id
    ensures PayloadCustomer(p) != Some(me) ==> r == sel
    ensures p.Doc? && p.order.customerId == me && sel.Some? && sel.value.id == p.order.id ==> r == Some(p.order)
    ensures p.Doc? && sel.Some? && sel.value.id != p.order.id ==> r == sel
  {
    if p.Doc? && p.order.customerId == me && sel.Some? && sel.value.id == p.order.id then Some(p.order) else sel
  }

  /** Whether the sender populated the references does not matter. */
  lemma PopulationIrrelevant(orders: seq<Order>, sel: Option<Order>, me: Id, o: Order)
    ensures MergeUpdated(orders, me, Doc(o, true)) == MergeUpdated(orders, me, Doc(o, false))
    ensures MergeSelected(sel, me, Doc(o, true)) == MergeSelected(sel, me, Doc(o, false))
  {
  }

  /** A tracked order taken from the list stays in the list across any
      update, so the tracking modal and the list never disagree. */
  lemma SelectedStaysListed(orders: seq<Order>, sel: Option<Order>, me: Id, p: Payload)
    requires sel.Some? && sel.value in orders
    ensures MergeSelected(sel, me, p).value in MergeUpdated(orders, me, p)
  {
    if p.Doc? && p.order.customerId == me {
      ReplaceByIdKeepsMember(orders, p.order.id, p.order, sel.value);
    }
  }

  /** An order the bot just created and then an update of it: the list
      ends with the update at the front. */
  lemma CreatedThenUpdated(orders: seq<Order>, me: Id, o: Order, u: Order, populated: bool)
    requires o.customerId == me && u.customerId == me && u.id == o.id
    requires forall k :: 0 <= k < |orders| ==> orders[k].id != o.id
    ensures MergeUpdated(MergeCreated(orders, o), me, Doc(u, populated)) == [u] + orders
  {
    ReplaceByIdUnknown(orders, u.id, u);
    assert MergeCreated(orders, o)[1..] == orders;
  }

  /* ---------------------------------------------------------------
     Dish search
     --------------------------------------------------------------- */

  type Listing = OwnerRoutes.Listing

  function HotelDishes(dishes: seq<Listing>, hotel: string): (r: seq<Listing>)
    ensures forall d :: d in r <==> d in dishes && d.hotelName == hotel
  {
    Seqs.Filter(dishes, (d: Listing) => d.hotelName == hotel)
  }

  function Matching(dishes: seq<Listing>, search: string): (r: seq<Listing>)
    ensures forall d :: d in r <==> d in dishes && (ContainsIgnoringCase(d.name, search) || ContainsIgnoringCase(d.hotelName, search))
  {
    Seqs.Filter(dishes, (d: Listing) => ContainsIgnoringCase(d.name, search) || ContainsIgnoringCase(d.hotelName, search))
  }

  /** The search effect. A blank search (after trimming) shows the chosen
      hotel's dishes, or all dishes when none is chosen; otherwise the
      dishes whose name or hotel name contains the lower-cased search text
      as typed, untrimmed, whatever hotel is chosen. */
  function SearchFilter(dishes: seq<Listing>, search: string, selectedHotel: Option<string>): (r: seq<Listing>)
    ensures Blank(search) && !Present(selectedHotel) ==> r == dishes
    ensures Blank(search) && Present(selectedHotel) ==>
              forall d :: d in r <==> d in dishes && d.hotelName == selectedHotel.value
    ensures !Blank(search) ==>
              forall d :: d in r <==> d in dishes && (ContainsIgnoringCase(d.name, search) || ContainsIgnoringCase(d.hotelName, search))
    ensures |r| <= |dishes|
  {
    if Blank(search) then (if Present(selectedHotel) then HotelDishes(dishes, selectedHotel.value) else dishes)
    else Matching(dishes, search)
  }

  /** A non-blank search ignores the chosen hotel. */
  lemma SearchIgnoresSelectedHotel(dishes: seq<Listing>, search: string, h1: Option<string>, h2: Option<string>)
    requires !Blank(search)
    ensures SearchFilter(dishes, search, h1) == SearchFilter(dishes, search, h2)
  {
  }

  /** A text holding a visible character is not blank. */
  lemma VisibleNotBlank(s: string, k: nat)
    requires k < |s| && !IsSpace(s[k])
    ensures !Blank(s)
  {
    BlankIffAllSpaces(s);
  }

  /** A dish named exactly as the search text is found by it. */
  lemma SearchFindsItsName(d: Listing, q: string)
    requires q != [] && !IsSpace(q[0]) && d.name == q
    ensures d in SearchFilter([d], q, None)
  {
    VisibleNotBlank(q, 0);
    assert OccursAt(ToLower(d.name), ToLower(q), 0);
    ContainsIff(ToLower(d.name), ToLower(q));
  }

  /** The search text is not trimmed: with a space in front it no longer
      finds a dish whose name and hotel hold no space. */
  lemma SearchIsNotTrimmed(d: Listing, q: string)
    requires q != [] && !IsSpace(q[0])
    requires forall k :: 0 <= k < |d.name| ==> !IsSpace(d.name[k])
    requires forall k :: 0 <= k < |d.hotelName| ==> !IsSpace(d.hotelName[k])
    ensures d !in SearchFilter([d], [' '] + q, None)
  {
    var sq := [' '] + q;
    VisibleNotBlank(sq, 1);
    assert ToLower(sq)[0] == ' ';
    NoSpaceNoMatch(ToLower(d.name), ToLower(sq));
    NoSpaceNoMatch(ToLower(d.hotelName), ToLower(sq));
  }

  /** A text without spaces holds no text that starts with one. */
  lemma NoSpaceNoMatch(s: string, q: string)
    requires q != [] && q[0] == ' '
    requires forall k :: 0 <= k < |s| ==> s[k] != ' '
    ensures !Contains(s, q)
  {
    ContainsIff(s, q);
    forall i: nat | i + |q| <= |s|
      ensures !OccursAt(s, q, i)
    {
      assert s[i..i + |q|][0] == s[i];
    }
  }

  /* ---------------------------------------------------------------
     The dashboard's checkout
     --------------------------------------------------------------- */

  /** `handlePlaceOrder` of this page: without a logged-in customer or with
      an empty cart nothing is sent; otherwise ONE order for the whole cart,
      with the first line's owner and the server's cart total. The address
      is not checked here. */
  function DashboardRequest(customerId: Option<Id>, cart: CartRoutes.CartView, address: string, payment: string)
    : (r: Result<OrderRoutes.CreateRequest, Error>)
    ensures r.Ok? <==> Present(customerId) && cart.items != []
    ensures r.Ok? ==> r.value.ownerId == cart.items[0].ownerId && r.value.totalAmount == Some(cart.total)
    ensures r.Ok? ==> r.value.items == Some(CartClient.ItemsOf(cart.items))
    ensures r.Ok? ==> r.value.customerId == customerId && r.value.address == Some(address) && r.value.payment == Some(payment)
  {
    if !Present(customerId) then Err(BadRequest("login"))
    else if cart.items == [] then Err(BadRequest("empty cart"))
    else Ok(OrderRoutes.CreateRequest(customerId, cart.items[0].ownerId, Some(CartClient.ItemsOf(cart.items)),
                                      Some(cart.total), Some(address), Some(payment)))
  }

  /** With dishes of two hotels in the cart, the cart page sends one order
      per hotel while this page sends one order, addressed to the first
      line's hotel, that also carries the other hotel's dish. */
  lemma DashboardIgnoresSecondOwner(cart: CartRoutes.CartView, customerId: Id, address: string, payment: string, k: nat)
    requires customerId != [] && !Blank(address) && CartClient.Addressed(cart.items)
    requires k < |cart.items| && cart.items[k].ownerId != cart.items[0].ownerId
    ensures |CartClient.PlaceOrder(cart.items, Some(customerId), address, payment).value| >= 2
    ensures var q := DashboardRequest(Some(customerId), cart, address, payment).value;
            q.ownerId != cart.items[k].ownerId && CartClient.ItemOf(cart.items[k]) in q.items.value
  {
    var keys := CartClient.OwnerKeys(cart.items);
    var a := cart.items[0].ownerId.value;
    var b := cart.items[k].ownerId.value;
    assert a in keys && b in keys && a != b;
    var i :| 0 <= i < |keys| && keys[i] == a;
    var j :| 0 <= j < |keys| && keys[j] == b;
    assert i != j;
    var q := DashboardRequest(Some(customerId), cart, address, payment).value;
    assert q.items.value[k] == CartClient.ItemOf(cart.items[k]);
  }

  /** On rows the server keeps, the single order's total is what the cart
      page's per-hotel orders add up to. */
  lemma DashboardChargesCartTotal(rows: seq<CartRoutes.Row>, owners: seq<OwnerRoutes.Owner>, dishes: seq<Catalog.Dish>,
                                  c: Id, address: string, payment: string)
    requires CartRoutes.CartInvariant(rows) && c != []
    requires DashboardRequest(Some(c), CartRoutes.Get(rows, owners, dishes, c), address, payment).Ok?
    ensures DashboardRequest(Some(c), CartRoutes.Get(rows, owners, dishes, c), address, payment).value.totalAmount
            == Some(CartClient.CalculateTotal(CartRoutes.Get(rows, owners, dishes, c).items))
  {
    CartClient.ShownTotalIsServerTotal(rows, owners, dishes, c);
  }
}

=== FILE: customer_routes.dfy ===
/** The customer account handlers of backend/routes/customerRoutes.js:
    register, login, profile update and change-password, over a sequence
    of stored customers. */
module CustomerRoutes {
  import opened Wrappers
  import opened Text
  import opened Validators
  import Seqs

  type Id = string

  /** A stored customer. The schema trims `name` and `address`, lower-cases
      `email`, and gives `address` the default "". */
  datatype Customer = Customer(id: Id, name: string, phone: string, email: string, password: Digest, address: string)

  /** The first stored customer with the given e-mail. The schema's
      lower-casing applies to the query value as well as to the documents. */
  function FindByEmail(cs: seq<Customer>, email: string): (r: Option<nat>)
    ensures r.Some? ==> r.value < |cs| && cs[r.value].email == ToLower(email)
    ensures r.Some? ==> forall k :: 0 <= k < r.value ==> cs[k].email != ToLower(email)
    ensures r.None? ==> forall k :: 0 <= k < |cs| ==> cs[k].email != ToLower(email)
  {
    Seqs.FirstIndex(cs, (c: Customer) => c.email == ToLower(email))
  }

  /** `Customer.findById`. */
  function FindById(cs: seq<Customer>, id: Id): (r: Option<nat>)
    ensures r.Some? ==> r.value < |cs| && cs[r.value].id == id
    ensures r.Some? ==> forall k :: 0 <= k < r.value ==> cs[k].id != id
    ensures r.None? ==> forall k :: 0 <= k < |cs| ==> cs[k].id != id
  {
    Seqs.FirstIndex(cs, (c: Customer) => c.id == id)
  }

  /** Replacing the customer found by id with one of the same id leaves
      the lookup where it was. */
  lemma FindByIdAfterReplace(cs: seq<Customer>, id: Id, c: Customer)
    requires FindById(cs, id).Some? && c.id == id
    ensures FindById(cs[FindById(cs, id).value := c], id) == FindById(cs, id)
  {
    var k := FindById(cs, id).value;
    var cs' := cs[k := c];
    assert cs'[k].id == id;
    var r := FindById(cs', id).value;
    assert r <= k;
    assert cs'[r] == cs[r] || r == k;
  }

  /** What `save()` checks of a loaded customer: every path of the
      document, not only the changed ones. The name (stored trimmed) needs
      three characters, the phone the ten-digit pattern, and the e-mail an
      `@`. The password's six-character minimum applies to the stored
      digest, which always meets it. */
  predicate CustomerSchemaValid(c: Customer) {
    |c.name| >= 3 && PhoneOk(c.phone) && '@' in c.email
  }

  predicate PhoneTaken(cs: seq<Customer>, phone: string, except: Option<Id>) {
    exists k :: 0 <= k < |cs| && cs[k].phone == phone && Some(cs[k].id) != except
  }

  /* ---------------------------------------------------------------
     Register
     --------------------------------------------------------------- */

  datatype Registration = Registration(name: Option<string>, phone: Option<string>, email: Option<string>, password: Option<string>)

  /** POST /register. The route checks presence, the name pattern, the
      phone pattern, the e-mail pattern (with a dot) and an existing e-mail,
      in that order. The schema then trims the name and wants three or
      more characters of it, and the unique index refuses a phone another
      customer holds. The schema's six-character minimum on the password is
      checked against the digest, so it never refuses anything. */
  function Register(cs: seq<Customer>, id: Id, q: Registration): (r: Result<seq<Customer>, Error>)
    ensures !(Present(q.name) && Present(q.phone) && Present(q.email) && Present(q.password)) ==> r == Err(BadRequest("fields"))
    ensures r.Ok? <==> Present(q.name) && Present(q.phone) && Present(q.email) && Present(q.password)
                       && NameOk(q.name.value) && PhoneOk(q.phone.value) && EmailWithDot(q.email.value)
                       && FindByEmail(cs, q.email.value).None?
                       && |Trim(q.name.value)| >= 3 && !PhoneTaken(cs, q.phone.value, None)
    ensures r.Ok? ==> r.value == cs + [Customer(id, Trim(q.name.value), q.phone.value, ToLower(q.email.value),
                                                Digest(q.password.value), "")]
    ensures r.Err? && Present(q.name) && Present(q.phone) && Present(q.email) && Present(q.password)
            && NameOk(q.name.value) && PhoneOk(q.phone.value) && EmailWithDot(q.email.value) ==>
              (FindByEmail(cs, q.email.value).Some? <==> r == Err(BadRequest("exists")))
  {
    if !(Present(q.name) && Present(q.phone) && Present(q.email) && Present(q.password)) then Err(BadRequest("fields"))
    else if !NameOk(q.name.value) then Err(BadRequest("name"))
    else if !PhoneOk(q.phone.value) then Err(BadRequest("phone"))
    else if !EmailWithDot(q.email.value) then Err(BadRequest("email"))
    else if FindByEmail(cs, q.email.value).Some? then Err(BadRequest("exists"))
    else if |Trim(q.name.value)| < 3 then Err(SchemaRejected("name"))
    else if PhoneTaken(cs, q.phone.value, None) then Err(SchemaRejected("phone"))
    else Ok(cs + [Customer(id, Trim(q.name.value), q.phone.value, ToLower(q.email.value), Digest(q.password.value), "")])
  }

  /** Registration never looks at the password's length: whatever is
      accepted with one password is accepted with any other non-empty one,
      a single character included. */
  lemma RegisterIgnoresPasswordLength(cs: seq<Customer>, id: Id, q: Registration, p: string)
    requires Register(cs, id, q).Ok? && p != []
    ensures Register(cs, id, q.(password := Some(p))).Ok?
  {
  }

  /* ---------------------------------------------------------------
     Login
     --------------------------------------------------------------- */

  /** POST /login: both fields present, the first customer with that
      e-mail, and a matching password; an unknown e-mail and a wrong
      password give the same answer. */
  function Login(cs: seq<Customer>, email: Option<string>, password: Option<string>): (r: Result<Customer, Error>)
    ensures !(Present(email) && Present(password)) ==> r == Err(BadRequest("fields"))
    ensures r.Ok? <==> Present(email) && Present(password) && FindByEmail(cs, email.value).Some?
                       && cs[FindByEmail(cs, email.value).value].password == Digest(password.value)
    ensures r.Ok? ==> r.value in cs && r.value.email == ToLower(email.value)
    ensures r.Err? && Present(email) && Present(password) ==> r == Err(BadRequest("credentials"))
  {
    if !(Present(email) && Present(password)) then Err(BadRequest("fields"))
    else match FindByEmail(cs, email.value)
      case None => Err(BadRequest("credentials"))
      case Some(k) =>
        if cs[k].password != Digest(password.value) then Err(BadRequest("credentials"))
        else Ok(cs[k])
  }

  /** Logging in with what was just registered succeeds. */
  lemma LoginAfterRegister(cs: seq<Customer>, id: Id, q: Registration)
    requires Register(cs, id, q).Ok?
    ensures Login(Register(cs, id, q).value, q.email, q.password).Ok?
  {
    var cs' := Register(cs, id, q).value;
    var r := FindByEmail(cs', q.email.value);
    assert cs'[|cs|].email == ToLower(q.email.value);
    assert r.Some?;
  }

  /* ---------------------------------------------------------------
     Profile update
     --------------------------------------------------------------- */

  datatype ProfileUpdate = ProfileUpdate(name: Option<string>, phone: Option<string>, email: Option<string>, address: Option<string>)

  /** The customer after the update: truthy fields replace, `address`
      replaces whenever it is sent (the empty string included); the update
      path runs the trimming and lower-casing setters but no validators. */
  function ApplyProfile(c: Customer, u: ProfileUpdate): Customer {
    c.(name := if Present(u.name) then Trim(u.name.value) else c.name,
       phone := if Present(u.phone) then u.phone.value else c.phone,
       email := if Present(u.email) then ToLower(u.email.value) else c.email,
       address := if u.address.Some? then Trim(u.address.value) else c.address)
  }

  /** The route's own pattern checks on the supplied fields. */
  predicate ProfileFieldsOk(u: ProfileUpdate) {
    && (Present(u.name) ==> NameOk(u.name.value))
    && (Present(u.phone) ==> PhoneOk(u.phone.value))
    && (Present(u.email) ==> EmailWithDot(u.email.value))
  }

  /** No other customer holds the supplied e-mail (the route's own query)
      or the supplied phone (the unique index). */
  predicate ProfileUnclaimed(cs: seq<Customer>, id: Id, u: ProfileUpdate) {
    && !(Present(u.email) && EmailHeldByOther(cs, u.email.value, id))
    && !(Present(u.phone) && PhoneTaken(cs, u.phone.value, Some(id)))
  }

  /** PUT /profile/:id. Each supplied field is checked in the order name,
      phone, e-mail (pattern, then not held by another customer); only then
      is the customer looked up. A phone another customer holds is refused
      by the unique index. */
  function Profile(cs: seq<Customer>, id: Id, u: ProfileUpdate): (r: Result<seq<Customer>, Error>)
    ensures r.Ok? <==> ProfileFieldsOk(u) && ProfileUnclaimed(cs, id, u) && FindById(cs, id).Some?
    ensures Present(u.name) && !NameOk(u.name.value) ==> r == Err(BadRequest("name"))
    ensures (Present(u.name) ==> NameOk(u.name.value)) && Present(u.phone) && !PhoneOk(u.phone.value) ==>
              r == Err(BadRequest("phone"))
    ensures ((Present(u.name) ==> NameOk(u.name.value)) && (Present(u.phone) ==> PhoneOk(u.phone.value))
             && Present(u.email) && !EmailWithDot(u.email.value)) ==> r == Err(BadRequest("email"))
    ensures ProfileFieldsOk(u) && Present(u.email) && EmailHeldByOther(cs, u.email.value, id) ==>
              r == Err(BadRequest("email in use"))
    ensures (ProfileFieldsOk(u) && !(Present(u.email) && EmailHeldByOther(cs, u.email.value, id))
             && FindById(cs, id).None?) ==> r == Err(NotFound)
    ensures (ProfileFieldsOk(u) && !(Present(u.email) && EmailHeldByOther(cs, u.email.value, id))
             && FindById(cs, id).Some? && Present(u.phone) && PhoneTaken(cs, u.phone.value, Some(id))) ==>
              r == Err(SchemaRejected("phone"))
    ensures r.Ok? ==> Present(u.email) ==>
              forall k :: 0 <= k < |cs| && cs[k].email == ToLower(u.email.value) ==> cs[k].id == id
    ensures r.Ok? ==> FindById(cs, id).Some? && |r.value| == |cs|
    ensures r.Ok? ==> var k := FindById(cs, id).value;
              r.value == cs[k := ApplyProfile(cs[k], u)]
  {
    if Present(u.name) && !NameOk(u.name.value) then Err(BadRequest("name"))
    else if Present(u.phone) && !PhoneOk(u.phone.value) then Err(BadRequest("phone"))
    else if Present(u.email) && !EmailWithDot(u.email.value) then Err(BadRequest("email"))
    else if Present(u.email) && EmailHeldByOther(cs, u.email.value, id) then Err(BadRequest("email in use"))
    else match FindById(cs, id)
      case None => Err(NotFound)
      case Some(k) =>
        if Present(u.phone) && PhoneTaken(cs, u.phone.value, Some(id)) then Err(SchemaRejected("phone"))
        else Ok(cs[k := ApplyProfile(cs[k], u)])
  }

  predicate EmailHeldByOther(cs: seq<Customer>, email: string, id: Id) {
    exists k :: 0 <= k < |cs| && cs[k].email == ToLower(email) && cs[k].id != id
  }

  /** An update that sends nothing but an empty address clears the stored
      address and keeps every other field. */
  lemma ProfileClearsAddress(cs: seq<Customer>, id: Id)
    requires FindById(cs, id).Some?
    ensures var r := Profile(cs, id, ProfileUpdate(None, None, None, Some("")));
            r.Ok? && r.value[FindById(cs, id).value] == cs[FindById(cs, id).value].(address := "")
  {
    assert Trim("") == "";
  }

  /** An accepted update only rewrites the customer's own entry, so the
      e-mail and phone it supplied are still held by no one else. */
  lemma UnclaimedAfterOwnUpdate(cs: seq<Customer>, id: Id, u: ProfileUpdate)
    requires Profile(cs, id, u).Ok?
    ensures ProfileUnclaimed(Profile(cs, id, u).value, id, u)
  {
    var cs' := Profile(cs, id, u).value;
    forall j | 0 <= j < |cs'| && cs'[j].id != id
      ensures cs'[j] == cs[j]
    {
    }
  }

  /** Sending the same update again is accepted and changes nothing: the
      other customers are untouched, so nothing new claims the e-mail or
      phone, and trimming and lower-casing are idempotent. */
  lemma {:induction false} ProfileIdempotent(cs: seq<Customer>, id: Id, u: ProfileUpdate)
    requires Profile(cs, id, u).Ok?
    ensures Profile(Profile(cs, id, u).value, id, u) == Profile(cs, id, u)
  {
    var k := FindById(cs, id).value;
    var c := ApplyProfile(cs[k], u);
    var cs' := cs[k := c];
    FindByIdAfterReplace(cs, id, c);
    if Present(u.name) { TrimIdempotent(u.name.value); }
    if Present(u.email) { ToLowerIdempotent(u.email.value); }
    if u.address.Some? { TrimIdempotent(u.address.value); }
    assert ApplyProfile(c, u) == c;
    UnclaimedAfterOwnUpdate(cs, id, u);
    assert ProfileFieldsOk(u) && ProfileUnclaimed(cs', id, u);
    assert FindById(cs', id) == Some(k);
    assert Profile(cs', id, u) == Ok(cs'[k := ApplyProfile(cs'[k], u)]);
    assert cs'[k := ApplyProfile(cs'[k], u)] == cs';
  }

  /* ---------------------------------------------------------------
     Change password
     --------------------------------------------------------------- */

  /** PUT /change-password/:id: both passwords present, the customer
      exists, the current one matches, and only then the six-character
      rule on the new one. The document is written with `save()`, which
      checks the whole loaded customer again. */
  function ChangePassword(cs: seq<Customer>, id: Id, current: Option<string>, next: Option<string>): (r: Result<seq<Customer>, Error>)
    ensures !(Present(current) && Present(next)) ==> r == Err(BadRequest("fields"))
    ensures Present(current) && Present(next) && FindById(cs, id).None? ==> r == Err(NotFound)
    ensures r.Ok? <==> Present(current) && Present(next) && FindById(cs, id).Some?
                       && cs[FindById(cs, id).value].password == Digest(current.value)
                       && LongEnough(next.value)
                       && CustomerSchemaValid(cs[FindById(cs, id).value])
    ensures r.Ok? ==> var k := FindById(cs, id).value;
              r.value == cs[k := cs[k].(password := Digest(next.value))]
    ensures (Present(current) && Present(next) && FindById(cs, id).Some?
             && cs[FindById(cs, id).value].password != Digest(current.value)) ==> r == Err(BadRequest("current"))
    ensures (Present(current) && Present(next) && FindById(cs, id).Some?
             && cs[FindById(cs, id).value].password == Digest(current.value) && !LongEnough(next.value)) ==>
              r == Err(BadRequest("length"))
    ensures (Present(current) && Present(next) && FindById(cs, id).Some?
             && cs[FindById(cs, id).value].password == Digest(current.value) && LongEnough(next.value)
             && !CustomerSchemaValid(cs[FindById(cs, id).value])) ==> r == Err(SchemaRejected("customer"))
  {
    if !(Present(current) && Present(next)) then Err(BadRequest("fields"))
    else match FindById(cs, id)
      case None => Err(NotFound)
      case Some(k) =>
        if cs[k].password != Digest(current.value) then Err(BadRequest("current"))
        else if !LongEnough(next.value) then Err(BadRequest("length"))
        else
          var c := cs[k].(password := Digest(next.value));
          if !CustomerSchemaValid(c) then Err(SchemaRejected("customer"))
          else Ok(cs[k := c])
  }

  /** Whatever the new password, a wrong current one is what gets
      reported: the length is only looked at after the match, so a
      short new password with a wrong current one answers the same as a
      long one. */
  lemma WrongCurrentReportedFirst(cs: seq<Customer>, id: Id, current: string, next: string, other: string)
    requires FindById(cs, id).Some? && current != [] && next != [] && other != []
    requires cs[FindById(cs, id).value].password != Digest(current)
    ensures ChangePassword(cs, id, Some(current), Some(next)) == Err(BadRequest("current"))
    ensures ChangePassword(cs, id, Some(current), Some(next)) == ChangePassword(cs, id, Some(current), Some(other))
  {
  }

  /** The profile route writes without the schema's validators, so it
      stores a name the schema refuses (two letters, say); from then on
      every password change with the right current password and a long
      enough new one fails when `save()` checks the name again. */
  lemma ShortNameBlocksPasswordChange(cs: seq<Customer>, id: Id, u: ProfileUpdate, current: string, next: string)
    requires Profile(cs, id, u).Ok? && Present(u.name) && |Trim(u.name.value)| < 3
    ensures !ChangePassword(Profile(cs, id, u).value, id, Some(current), Some(next)).Ok?
    ensures var cs' := Profile(cs, id, u).value;
            current != [] && LongEnough(next) && cs'[FindById(cs, id).value].password == Digest(current) ==>
              ChangePassword(cs', id, Some(current), Some(next)) == Err(SchemaRejected("customer"))
  {
    var k := FindById(cs, id).value;
    FindByIdAfterReplace(cs, id, ApplyProfile(cs[k], u));
  }
}

=== FILE: delivery_auth.dfy ===
/** The courier's login and signup form,
    frontend/src/components/DeliveryBoyAuth.js: the values its inputs
    hold, the browser's own check of the `type="email"` input, the checks
    the page runs on submit, and the request it sends when they pass.
    Unlike the customer and owner popup, it validates the whole form at
    submit time, checks the stored e-mail and password untrimmed, and
    sends the form as stored. */
module DeliveryAuth {
  import opened Text
  import opened Validators
  import Seqs

  datatype Form = Form(name: string, email: string, phone: string, password: string, confirm: string)

  datatype Field = NameField | EmailField | PhoneField | PasswordField | ConfirmField

  function Value(f: Form, x: Field): string {
    match x
    case NameField => f.name
    case EmailField => f.email
    case PhoneField => f.phone
    case PasswordField => f.password
    case ConfirmField => f.confirm
  }

  /* ---------------------------------------------------------------
     What the inputs hold (value sanitization, section 4.10.5 of the
     HTML Living Standard)
     --------------------------------------------------------------- */

  predicate IsLineBreak(c: char) { c == '\n' || c == '\r' }

  /** ASCII whitespace: tab, line feed, form feed, carriage return, space. */
  predicate IsAsciiBlank(c: char) {
    c == '\t' || c == '\n' || c == '\U{000C}' || c == '\r' || c == ' '
  }

  predicate NoLineBreaks(s: string) {
    forall k :: 0 <= k < |s| ==> !IsLineBreak(s[k])
  }

  predicate AllBlank(s: string) {
    forall k :: 0 <= k < |s| ==> IsAsciiBlank(s[k])
  }

  /** A value an e-mail input can hold: no line break, and no ASCII
      whitespace at either end. */
  predicate Sanitized(v: string) {
    NoLineBreaks(v) && (v == [] || (!IsAsciiBlank(v[0]) && !IsAsciiBlank(v[|v| - 1])))
  }

  /** Every text-like input drops line feeds and carriage returns. */
  function StripLineBreaks(s: string): (r: string)
    ensures |r| <= |s| && NoLineBreaks(r)
    ensures NoLineBreaks(s) ==> r == s
    ensures AllBlank(s) ==> AllBlank(r)
  {
    var r := Seqs.Filter(s, (c: char) => !IsLineBreak(c));
    assert forall k :: 0 <= k < |r| ==> r[k] in r;
    r
  }

  lemma StripLineBreaksAppend(a: string, b: string)
    ensures StripLineBreaks(a + b) == StripLineBreaks(a) + StripLineBreaks(b)
  {
    Seqs.FilterAppend(a, b, (c: char) => !IsLineBreak(c));
  }

  function TrimStartBlanks(s: string): (r: string)
    ensures |r| <= |s| && r == s[|s| - |r|..]
    ensures r == [] || !IsAsciiBlank(r[0])
    ensures AllBlank(s) ==> r == []
  {
    if s != [] && IsAsciiBlank(s[0]) then TrimStartBlanks(s[1..]) else s
  }

  function TrimEndBlanks(s: string): (r: string)
    ensures |r| <= |s| && r == s[..|r|]
    ensures r == [] || !IsAsciiBlank(r[|r| - 1])
  {
    if s != [] && IsAsciiBlank(s[|s| - 1]) then TrimEndBlanks(s[..|s| - 1]) else s
  }

  /** The value of an `<input type="email">`: line breaks removed, then
      ASCII whitespace stripped from both ends. What `e.target.value`
      hands to the change handler is already this value. */
  function EmailInputValue(raw: string): (v: string)
    ensures Sanitized(v) && |v| <= |raw|
  {
    var t := TrimStartBlanks(StripLineBreaks(raw));
    assert NoLineBreaks(t);
    TrimEndBlanks(t)
  }

  lemma {:induction false} TrimStartOverBlanks(p: string, t: string)
    requires AllBlank(p) && (t == [] || !IsAsciiBlank(t[0]))
    ensures TrimStartBlanks(p + t) == t
    decreases |p|
  {
    if p == [] {
      assert p + t == t;
    } else {
      assert (p + t)[0] == p[0] && (p + t)[1..] == p[1..] + t;
      TrimStartOverBlanks(p[1..], t);
    }
  }

  lemma {:induction false} TrimEndOverBlanks(t: string, p: string)
    requires AllBlank(p) && (t == [] || !IsAsciiBlank(t[|t| - 1]))
    ensures TrimEndBlanks(t + p) == t
    decreases |p|
  {
    if p == [] {
      assert t + p == t;
    } else {
      var q := p[..|p| - 1];
      assert (t + p)[|t + p| - 1] == p[|p| - 1];
      assert (t + p)[..|t + p| - 1] == t + q;
      TrimEndOverBlanks(t, q);
    }
  }

  /** A sanitized value is held as it is, and only a sanitized value is. */
  lemma EmailInputKeepsSanitized(raw: string)
    ensures EmailInputValue(raw) == raw <==> Sanitized(raw)
  {
    if Sanitized(raw) {
      TrimStartOverBlanks([], raw);
      TrimEndOverBlanks(raw, []);
      assert [] + raw == raw && raw + [] == raw;
    }
  }

  /** Stripping the ends of an address between two runs of blanks gives
      the address back. */
  lemma TrimAroundBlanks(b: string, e: string, a: string)
    requires AllBlank(b) && AllBlank(a) && Sanitized(e)
    ensures TrimEndBlanks(TrimStartBlanks(b + e + a)) == e
  {
    if e == [] {
      assert b + e + a == (b + a) + [];
      assert AllBlank(b + a);
      TrimStartOverBlanks(b + a, []);
    } else {
      assert b + e + a == b + (e + a);
      TrimStartOverBlanks(b, e + a);
      TrimEndOverBlanks(e, a);
    }
  }

  /** ASCII blanks typed around an address, line breaks among them
      included, never reach the stored value. */
  lemma EmailInputStripsPadding(before: string, e: string, after: string)
    requires AllBlank(before) && AllBlank(after) && Sanitized(e)
    ensures EmailInputValue(before + e + after) == e
  {
    StripLineBreaksAppend(before + e, after);
    StripLineBreaksAppend(before, e);
    TrimAroundBlanks(StripLineBreaks(before), e, StripLineBreaks(after));
  }

  function SetValue(f: Form, x: Field, v: string): (r: Form)
    ensures Value(r, x) == v
    ensures forall y :: y != x ==> Value(r, y) == Value(f, y)
  {
    match x
    case NameField => f.(name := v)
    case EmailField => f.(email := v)
    case PhoneField => f.(phone := v)
    case PasswordField => f.(password := v)
    case ConfirmField => f.(confirm := v)
  }

  /** What one input holds after typing `raw`: the e-mail input its
      sanitized value, the text, telephone and password inputs the text
      without line breaks. */
  function InputValue(x: Field, raw: string): (v: string)
    ensures NoLineBreaks(v) && |v| <= |raw|
    ensures x == EmailField ==> Sanitized(v)
    ensures x != EmailField && NoLineBreaks(raw) ==> v == raw
  {
    if x == EmailField then EmailInputValue(raw) else StripLineBreaks(raw)
  }

  /** Storing what was typed into one input through the change handler. */
  function Typed(f: Form, x: Field, raw: string): (r: Form)
    ensures Value(r, x) == InputValue(x, raw)
    ensures forall y :: y != x ==> Value(r, y) == Value(f, y)
  {
    SetValue(f, x, InputValue(x, raw))
  }

  /* ---------------------------------------------------------------
     The browser's check (a valid e-mail address, section 4.10.5.1.5 of
     the HTML Living Standard)
     --------------------------------------------------------------- */

  predicate IsAsciiAlnum(c: char) {
    ('a' <= c <= 'z') || ('A' <= c <= 'Z') || ('0' <= c <= '9')
  }

  /** The characters of the local part: letters, digits and
      ``.!#$%&'*+/=?^_`{|}~-``, written here as their ASCII ranges. */
  predicate IsLocalChar(c: char) {
    || IsAsciiAlnum(c) || c == '!' || ('#' <= c <= '\'') || c == '*' || c == '+'
    || ('-' <= c <= '/') || c == '=' || c == '?' || ('^' <= c <= '`') || ('{' <= c <= '~')
  }

  /** A domain label: 1 to 63 letters, digits or hyphens, with no hyphen
      at either end. */
  predicate ValidLabel(l: string) {
    && 1 <= |l| <= 63
    && (forall k :: 0 <= k < |l| ==> IsAsciiAlnum(l[k]) || l[k] == '-')
    && l[0] != '-' && l[|l| - 1] != '-'
  }

  function DotIndex(d: string): (i: nat)
    ensures i <= |d| && (i < |d| ==> d[i] == '.')
    ensures forall k :: 0 <= k < i ==> d[k] != '.'
  {
    if d == [] || d[0] == '.' then 0 else 1 + DotIndex(d[1..])
  }

  /** One or more valid labels separated by single dots. */
  predicate ValidDomain(d: string)
    decreases |d|
  {
    var i := DotIndex(d);
    ValidLabel(d[..i]) && (i == |d| || ValidDomain(d[i + 1..]))
  }

  /** A valid e-mail address in the HTML sense: a non-empty local part,
      an `@`, and a valid domain. */
  predicate HtmlEmail(s: string) {
    exists a :: 0 < a < |s| && s[a] == '@' && LocalPart(s, a) && ValidDomain(s[a + 1..])
  }

  /** The first `a` characters form a local part. */
  predicate LocalPart(s: string, a: nat)
    requires a <= |s|
  {
    forall k :: 0 <= k < a ==> IsLocalChar(s[k])
  }

  /** The form has no `novalidate`: the browser withholds the submit event
      while the e-mail input holds a non-empty value that is not a valid
      address. */
  predicate BrowserBlocks(f: Form) {
    f.email != [] && !HtmlEmail(f.email)
  }

  /** The check of one field on submit: e-mail and password always; name,
      phone and the confirmation only when signing up. The confirmation
      fails when it is empty or differs from the password. */
  predicate Fails(f: Form, isLogin: bool, x: Field) {
    match x
    case EmailField => !EmailWithDot(f.email)
    case PasswordField => !LongEnough(f.password)
    case NameField => !isLogin && Blank(f.name)
    case PhoneField => !isLogin && !PhoneOk(f.phone)
    case ConfirmField => !isLogin && (f.confirm == [] || f.password != f.confirm)
  }

  /** The fields whose check fails on one submit. */
  function Validate(f: Form, isLogin: bool): (errs: set<Field>)
    ensures EmailField in errs <==> !EmailWithDot(f.email)
    ensures PasswordField in errs <==> !LongEnough(f.password)
    ensures NameField in errs <==> !isLogin && Blank(f.name)
    ensures PhoneField in errs <==> !isLogin && !PhoneOk(f.phone)
    ensures ConfirmField in errs <==> !isLogin && (f.confirm == [] || f.password != f.confirm)
  {
    set x | x in {NameField, EmailField, PhoneField, PasswordField, ConfirmField} && Fails(f, isLogin, x)
  }

  /** What submitting sends: the login route gets e-mail and password, the
      register route gets all five fields exactly as typed. */
  datatype Request =
    | Login(email: string, password: string)
    | Register(form: Form)

  /** The browser withholds the event (the page's handler never runs),
      the handler refuses with the failing fields, or the request goes. */
  datatype Submission = Blocked | Refused(errors: set<Field>) | Sent(request: Request)

  function Submit(f: Form, isLogin: bool): (r: Submission)
    ensures r.Blocked? <==> BrowserBlocks(f)
    ensures !BrowserBlocks(f) ==> (r.Refused? <==> Validate(f, isLogin) != {})
    ensures r.Refused? ==> r.errors == Validate(f, isLogin)
    ensures r.Sent? && isLogin ==> r.request == Login(f.email, f.password)
    ensures r.Sent? && !isLogin ==> r.request == Register(f)
  {
    if BrowserBlocks(f) then Blocked
    else
      var errs := Validate(f, isLogin);
      if errs != {} then Refused(errs)
      else if isLogin then Sent(Login(f.email, f.password))
      else Sent(Register(f))
  }

  /** Whatever is sent satisfies the form's rules: a well-formed address
      with a dot, a password of six or more characters, and for a signup a
      named courier with a valid phone whose confirmation matches. */
  lemma SentIsValid(f: Form, isLogin: bool)
    requires Submit(f, isLogin).Sent?
    ensures EmailWithDot(f.email) && HtmlEmail(f.email) && LongEnough(f.password)
    ensures !isLogin ==> !Blank(f.name) && PhoneOk(f.phone) && f.confirm == f.password
  {
    assert EmailField !in Validate(f, isLogin);
    assert PasswordField !in Validate(f, isLogin);
    if !isLogin {
      assert NameField !in Validate(f, isLogin);
      assert PhoneField !in Validate(f, isLogin);
      assert ConfirmField !in Validate(f, isLogin);
    }
  }

  /** A signup checks everything a login does and more. */
  lemma SignupChecksMore(f: Form)
    ensures Validate(f, true) <= Validate(f, false)
    ensures Validate(f, false) - Validate(f, true) <= {NameField, PhoneField, ConfirmField}
  {
  }

  /** A login looks only at e-mail and password: whatever the hidden
      signup fields hold changes nothing. */
  lemma LoginIgnoresSignupFields(f: Form, name: string, phone: string, confirm: string)
    ensures Submit(f, true) == Submit(f.(name := name, phone := phone, confirm := confirm), true)
  {
  }

  /** Blanks typed around the address do not matter: the input strips
      them before the page sees the value, so the submit goes exactly as
      it would for the bare address. */
  lemma PaddedEmailSubmitsAsBare(f: Form, isLogin: bool, before: string, e: string, after: string)
    requires AllBlank(before) && AllBlank(after) && Sanitized(e)
    ensures Submit(Typed(f, EmailField, before + e + after), isLogin) == Submit(f.(email := e), isLogin)
  {
    EmailInputStripsPadding(before, e, after);
    assert InputValue(EmailField, before + e + after) == e;
    assert Typed(f, EmailField, before + e + after) == f.(email := e);
  }

  /** The page's own check does not trim, but a blank the input keeps (a
      vertical tab, or one outside ASCII such as a no-break space) is not
      allowed in an address, so the browser withholds the submit before
      the check runs. */
  lemma UnicodeBlankIsBlocked(f: Form, isLogin: bool)
    requires f.email != [] && IsSpace(f.email[0]) && !IsAsciiBlank(f.email[0])
    ensures Submit(f, isLogin) == Blocked
  {
    var s := f.email;
    assert !IsLocalChar(s[0]);
    assert forall a :: 0 < a <= |s| ==> !LocalPart(s, a);
    assert !HtmlEmail(s);
  }

  /** An address the courier form accepts is also one the customer and
      owner popup accepts. */
  lemma CourierEmailPassesPopup(f: Form, isLogin: bool)
    requires EmailField !in Validate(f, isLogin)
    ensures EmailWithAt(f.email)
  {
    EmailWithDotIsWithAt(f.email);
  }
}

=== FILE: delivery_page.dfy ===
/** The courier's page, frontend/src/components/DeliveryBoyPage.js: which
    orders it lists, the one action button each order offers, the merge of
    `order-updated` events, and the three actions — which call the
    unguarded assign/pickup/delivered routes of the order router, not the
    guarded courier routes. */
module DeliveryPage {
  import opened Wrappers
  import opened Orders
  import opened OrderViews
  import Seqs
  import DeliveryRoutes
  import OrderRoutes

  /** Shown after a fetch: unassigned orders, and orders whose (populated)
      courier is this courier. */
  predicate Visible(o: Order, me: Id) {
    o.deliveryStatus == Unassigned || o.deliveryBoyId == Some(me)
  }

  function VisibleOrders(all: seq<Order>, me: Id): (r: seq<Order>)
    ensures forall o :: o in r <==> o in all && Visible(o, me)
    ensures |r| <= |all|
  {
    Seqs.Filter(all, (o: Order) => Visible(o, me))
  }

  datatype Action = AcceptAction | PickupAction | DeliverAction

  /** The button an order offers: Accept when Unassigned, Mark as Picked
      Up when Assigned, Mark as Delivered when PickedUp, none otherwise. */
  function OfferedAction(o: Order): (r: Option<Action>)
    ensures r == Some(AcceptAction) <==> o.deliveryStatus == Unassigned
    ensures r == Some(PickupAction) <==> o.deliveryStatus == Assigned
    ensures r == Some(DeliverAction) <==> o.deliveryStatus == PickedUp
  {
    match o.deliveryStatus
    case Unassigned => Some(AcceptAction)
    case Assigned => Some(PickupAction)
    case PickedUp => Some(DeliverAction)
    case _ => None
  }

  /** The page offers an action exactly when the guarded courier route for
      it would accept the order. */
  lemma OfferedIffGuardAllows(o: Order, me: Id, now: nat)
    ensures OfferedAction(o) == Some(AcceptAction) <==> DeliveryRoutes.AcceptOrder(o, me, now).Ok?
    ensures OfferedAction(o) == Some(PickupAction) <==> DeliveryRoutes.PickupOrder(o, now).Ok?
    ensures OfferedAction(o) == Some(DeliverAction) <==> DeliveryRoutes.DeliverOrder(o, now).Ok?
  {
  }

  /* ---------------------------------------------------------------
     Events
     --------------------------------------------------------------- */

  /** What the page shows: its list of orders, or nothing once a handler
      has thrown. The page has no error boundary, so an exception inside a
      state update unmounts the whole tree, and no later event is
      handled. */
  datatype Page = Listing(orders: seq<Order>) | Unmounted

  /** `order-updated`: the entry with the same id is replaced, whoever the
      order belongs to. The updater reads `_id` of the payload once per
      listed order, so a `null` payload throws as soon as the list is not
      empty; over an empty list the callback never runs. A pool notice has
      no `_id` and matches no entry. */
  function MergeUpdate(orders: seq<Order>, p: Payload): (r: Page)
    ensures r.Unmounted? <==> p.NoOrder? && orders != []
    ensures r.Listing? ==> |r.orders| == |orders|
    ensures p.PoolNotice? || orders == [] ==> r == Listing(orders)
    ensures p.Doc? ==> r.Listing? && forall k :: 0 <= k < |orders| ==>
              r.orders[k] == if orders[k].id == p.order.id then p.order else orders[k]
  {
    match p
    case Doc(o, _) => Listing(ReplaceById(orders, o.id, o))
    case PoolNotice(_, _, _, _) => Listing(orders)
    case NoOrder => if orders == [] then Listing(orders) else Unmounted
  }

  /** The rooms the page listens in: its own, the pool, and broadcasts. */
  predicate Hears(me: Id, room: Room) {
    room == CourierRoom(me) || room == CourierPool || room == Everyone
  }

  /** An event the page hears and has an `order-updated` listener for. */
  predicate Handled(me: Id, e: Emit) {
    Hears(me, e.room) && e.event == OrderUpdated
  }

  /** One published event arriving at the page. */
  function Step(page: Page, me: Id, e: Emit): (r: Page)
    ensures page.Unmounted? ==> r == Unmounted
    ensures page.Listing? && !Handled(me, e) ==> r == page
    ensures page.Listing? && Handled(me, e) ==> r == MergeUpdate(page.orders, e.payload)
  {
    if page.Listing? && Handled(me, e) then MergeUpdate(page.orders, e.payload) else page
  }

  /** What a list of published events does to the page: each
      `order-updated` it hears is merged, and the first heard `null` over
      a non-empty list unmounts it for good. `available-order` triggers a
      refetch, which is not modelled here, and `order-assigned` has no
      listener. */
  function Receive(page: Page, me: Id, emits: seq<Emit>): (r: Page)
    ensures page.Unmounted? ==> r == Unmounted
    ensures page.Listing? && r.Listing? ==> |r.orders| == |page.orders|
    ensures (forall k :: 0 <= k < |emits| ==> !Handled(me, emits[k])) ==> r == page
    ensures r.Unmounted? <==>
              page.Unmounted? ||
              (page.orders != [] && exists k :: 0 <= k < |emits| && Handled(me, emits[k]) && emits[k].payload.NoOrder?)
    ensures |emits| == 1 ==> r == Step(page, me, emits[0])
    decreases |emits|
  {
    if emits == [] then page
    else
      var next := Step(page, me, emits[0]);
      var r := Receive(next, me, emits[1..]);
      assert forall k :: 1 <= k < |emits| ==> emits[k] == emits[1..][k - 1];
      r
  }

  /** Events are handled one after another: receiving two batches is
      receiving the first, then the second. */
  lemma {:induction false} ReceiveAppend(page: Page, me: Id, a: seq<Emit>, b: seq<Emit>)
    ensures Receive(page, me, a + b) == Receive(Receive(page, me, a), me, b)
    decreases |a|
  {
    if a != [] {
      assert (a + b)[0] == a[0] && (a + b)[1..] == a[1..] + b;
      ReceiveAppend(Step(page, me, a[0]), me, a[1..], b);
    } else {
      assert a + b == b;
    }
  }

  /** The router's pickup and delivered answer an unknown id with a
      broadcast of `null`: every courier page listing at least one order
      unmounts, and a page listing none carries on, still empty. */
  lemma UnknownIdUnmountsPages(store: Store, id: Id, now: nat, orders: seq<Order>, me: Id)
    requires id !in store
    ensures var r := Receive(Listing(orders), me, OrderRoutes.Pickup(store, id, now).emits);
            r.Unmounted? <==> orders != []
    ensures var r := Receive(Listing(orders), me, OrderRoutes.Deliver(store, id, now).emits);
            r.Unmounted? <==> orders != []
  {
    var e := Emit(Everyone, OrderUpdated, NoOrder);
    assert Receive(Listing(orders), me, [e]) == MergeUpdate(orders, NoOrder);
  }

  /* ---------------------------------------------------------------
     Actions
     --------------------------------------------------------------- */

  datatype Outcome = Outcome(store: Store, orders: seq<Order>, emits: seq<Emit>)

  /** Pressing an action button for order `id`: the route's answer replaces
      the entry with that id. A refused assign changes nothing on the page,
      and neither does one that fails after writing (the order's customer
      or owner document is gone), although the store has changed. An
      answer without an order (the id is gone from the store) is left as
      it was here. */
  function Act(store: Store, refs: Refs, orders: seq<Order>, me: Id, id: Id, a: Action, now: nat): (r: Outcome)
    ensures a == AcceptAction && me != [] && id in store ==>
              r.store == store[id := store[id].(deliveryBoyId := Some(me), deliveryStatus := Assigned, assignedAt := Some(now))]
    ensures a == PickupAction && id in store ==> r.store == store[id := OrderRoutes.MarkPicked(store[id], now)]
    ensures a == DeliverAction && id in store ==> r.store == store[id := OrderRoutes.MarkDelivered(store[id], now)]
    ensures id in store && (a != AcceptAction || (me != [] && Intact(refs, store[id]))) ==>
              r.orders == ReplaceById(orders, id, r.store[id])
    ensures a == AcceptAction && id in store && !Intact(refs, store[id]) ==> r.orders == orders
    ensures id !in store ==> r.store == store && r.orders == orders
  {
    match a
    case AcceptAction =>
      var r := OrderRoutes.Assign(store, refs, id, Some(me), now);
      Outcome(r.After(store), if r.Answered? then ReplaceById(orders, id, r.reply.order.value) else orders, r.Emitted())
    case PickupAction =>
      var reply := OrderRoutes.Pickup(store, id, now);
      Outcome(reply.store, if reply.order.Some? then ReplaceById(orders, id, reply.order.value) else orders, reply.emits)
    case DeliverAction =>
      var reply := OrderRoutes.Deliver(store, id, now);
      Outcome(reply.store, if reply.order.Some? then ReplaceById(orders, id, reply.order.value) else orders, reply.emits)
  }

  /** Used only as offered, the page's actions write the courier fields
      the guarded routes would: assign as accept, delivered as delivered,
      and pickup as pickup except that it also sets the order's `status`
      to the picked-up label. */
  lemma OfferedActionsAgreeWithGuarded(store: Store, refs: Refs, orders: seq<Order>, me: Id, id: Id, now: nat)
    requires id in store && me != []
    ensures OfferedAction(store[id]) == Some(AcceptAction) ==>
              Act(store, refs, orders, me, id, AcceptAction, now).store[id]
                == DeliveryRoutes.AcceptOrder(store[id], me, now).value
    ensures OfferedAction(store[id]) == Some(PickupAction) ==>
              Act(store, refs, orders, me, id, PickupAction, now).store[id]
                == DeliveryRoutes.PickupOrder(store[id], now).value.(status := DishPicked)
    ensures OfferedAction(store[id]) == Some(DeliverAction) ==>
              Act(store, refs, orders, me, id, DeliverAction, now).store[id]
                == DeliveryRoutes.DeliverOrder(store[id], now).value
  {
  }

  /** Another courier's accept is not published to the pool, so the
      order stays on this page as Unassigned and still offers Accept;
      pressing it takes the order over from the courier who accepted it
      first. */
  lemma AcceptIsNotWithdrawn(store: Store, refs: Refs, mine: seq<Order>, a: Id, b: Id, id: Id, t1: nat, t2: nat)
    requires id in store && store[id].deliveryStatus == Unassigned
    requires a != [] && b != [] && a != b
    requires store[id] in mine
    ensures var first := Act(store, refs, [], a, id, AcceptAction, t1);
            && Receive(Listing(mine), b, first.emits) == Listing(mine)
            && OfferedAction(store[id]) == Some(AcceptAction)
            && first.store[id].deliveryBoyId == Some(a)
            && Act(first.store, refs, mine, b, id, AcceptAction, t2).store[id].deliveryBoyId == Some(b)
  {
    var first := Act(store, refs, [], a, id, AcceptAction, t1);
    var r := OrderRoutes.Assign(store, refs, id, Some(a), t1);
    assert first.emits == r.Emitted();
    forall k | 0 <= k < |first.emits|
      ensures !Handled(b, first.emits[k])
    {
      assert first.emits[k].event == OrderUpdated ==> first.emits[k].room in RoomsFor(first.emits, OrderUpdated);
    }
  }

  /** A pickup is broadcast to everyone and merged with no ownership
      check: on another courier's page, which still listed the order, it
      now offers Mark as Delivered for an order that page would not list
      on a fresh fetch, and pressing it delivers the order. */
  lemma StrangerCanDeliver(store: Store, refs: Refs, theirs: seq<Order>, a: Id, b: Id, id: Id, t1: nat, t2: nat)
    requires id in store && store[id].id == id && store[id].deliveryStatus == Assigned
    requires store[id].deliveryBoyId == Some(a) && a != b
    requires exists k :: 0 <= k < |theirs| && theirs[k].id == id
    ensures var picked := Act(store, refs, [], a, id, PickupAction, t1);
            var seen := Receive(Listing(theirs), b, picked.emits);
            && seen.Listing? && picked.store[id] in seen.orders
            && OfferedAction(picked.store[id]) == Some(DeliverAction)
            && !Visible(picked.store[id], b)
            && Act(picked.store, refs, seen.orders, b, id, DeliverAction, t2).store[id].deliveryStatus == DeliveryStatus.Delivered
  {
    var picked := Act(store, refs, [], a, id, PickupAction, t1);
    var reply := OrderRoutes.Pickup(store, id, t1);
    assert picked.emits == [Emit(Everyone, OrderUpdated, Doc(picked.store[id], true))];
    var k :| 0 <= k < |theirs| && theirs[k].id == id;
    var seen := Receive(Listing(theirs), b, picked.emits);
    assert seen == MergeUpdate(theirs, Doc(picked.store[id], true));
    assert seen.orders[k] == picked.store[id];
  }
}

=== FILE: delivery_routes.dfy ===
/** The courier's guarded actions of backend/routes/deliveryRoutes.js:
    accept, pickup and delivered each check the current `deliveryStatus`
    before changing the order, and notify the customer, owner and courier
    rooms. Together they keep the courier bookkeeping consistent. */
module DeliveryRoutes {
  import opened Wrappers
  import opened Orders

  /* ---------------------------------------------------------------
     The invariant the guarded actions keep
     --------------------------------------------------------------- */

  /** Position of a courier status along Unassigned -> Assigned -> PickedUp -> Delivered. */
  function Rank(d: DeliveryStatus): nat {
    match d
    case Unassigned => 0
    case Assigned => 1
    case PickedUp => 2
    case OutForDelivery => 2
    case Delivered => 3
  }

  /** A courier is recorded exactly when the order left Unassigned, each
      timestamp is present exactly when its step happened, and a delivered
      order is delivered on both tracks. */
  predicate CourierConsistent(o: Order) {
    && o.deliveryStatus != OutForDelivery
    && (o.deliveryBoyId.None? <==> o.deliveryStatus == Unassigned)
    && (o.assignedAt.Some? <==> o.deliveryStatus != Unassigned)
    && (o.pickedAt.Some? <==> (o.deliveryStatus == PickedUp || o.deliveryStatus == DeliveryStatus.Delivered))
    && (o.deliveredAt.Some? <==> o.deliveryStatus == DeliveryStatus.Delivered)
    && (o.deliveryStatus == DeliveryStatus.Delivered ==> o.status == Status.Delivered)
  }

  lemma FreshOrderIsConsistent(id: Id, c: Id, w: Id, items: seq<Item>, t: int, a: string, p: Payment)
    ensures CourierConsistent(FreshOrder(id, c, w, items, t, a, p))
  {
  }

  /* ---------------------------------------------------------------
     Transitions on one order
     --------------------------------------------------------------- */

  /** Accept: only an Unassigned order; records the courier, Assigned and
      assignedAt, and touches nothing else (in particular not `status`). */
  function AcceptOrder(o: Order, courier: Id, now: nat): (r: Result<Order, Error>)
    ensures r.Ok? <==> o.deliveryStatus == Unassigned
    ensures r.Err? ==> r.error == InvalidTransition
    ensures r.Ok? ==> (r.value.deliveryStatus == Assigned && r.value.deliveryBoyId == Some(courier)
                       && r.value.assignedAt == Some(now) && r.value.status == o.status)
    ensures r.Ok? ==> r.value.(deliveryBoyId := o.deliveryBoyId, deliveryStatus := o.deliveryStatus,
                               assignedAt := o.assignedAt) == o
    ensures r.Ok? && CourierConsistent(o) ==> CourierConsistent(r.value)
  {
    if o.deliveryStatus != Unassigned then Err(InvalidTransition)
    else Ok(o.(deliveryBoyId := Some(courier), deliveryStatus := Assigned, assignedAt := Some(now)))
  }

  /** Pickup: only an Assigned order; records PickedUp and pickedAt and
      leaves `status` as it was. */
  function PickupOrder(o: Order, now: nat): (r: Result<Order, Error>)
    ensures r.Ok? <==> o.deliveryStatus == Assigned
    ensures r.Err? ==> r.error == InvalidTransition
    ensures r.Ok? ==> (r.value.deliveryStatus == PickedUp && r.value.pickedAt == Some(now)
                       && r.value.status == o.status && r.value.deliveryBoyId == o.deliveryBoyId)
    ensures r.Ok? ==> r.value.(deliveryStatus := o.deliveryStatus, pickedAt := o.pickedAt) == o
    ensures r.Ok? && CourierConsistent(o) ==> CourierConsistent(r.value)
  {
    if o.deliveryStatus != Assigned then Err(InvalidTransition)
    else Ok(o.(deliveryStatus := PickedUp, pickedAt := Some(now)))
  }

  /** Delivered: only a PickedUp order; sets both tracks to Delivered and
      records deliveredAt. */
  function DeliverOrder(o: Order, now: nat): (r: Result<Order, Error>)
    ensures r.Ok? <==> o.deliveryStatus == PickedUp
    ensures r.Err? ==> r.error == InvalidTransition
    ensures r.Ok? ==> (r.value.deliveryStatus == DeliveryStatus.Delivered && r.value.status == Status.Delivered
                       && r.value.deliveredAt == Some(now) && r.value.deliveryBoyId == o.deliveryBoyId)
    ensures r.Ok? ==> r.value.(deliveryStatus := o.deliveryStatus, status := o.status,
                               deliveredAt := o.deliveredAt) == o
    ensures r.Ok? && CourierConsistent(o) ==> CourierConsistent(r.value)
  {
    if o.deliveryStatus != PickedUp then Err(InvalidTransition)
    else Ok(o.(deliveryStatus := DeliveryStatus.Delivered, deliveredAt := Some(now), status := Status.Delivered))
  }

  /* ---------------------------------------------------------------
     The three handlers
     --------------------------------------------------------------- */

  /** The emits after a successful courier action: `order-updated` to the
      customer and owner rooms, and `courierEvent` to the courier's room. */
  function Fanout(o: Order, courierRoom: Room, courierEvent: EventName): seq<Emit> {
    [ Emit(CustomerRoom(o.customerId), OrderUpdated, Doc(o, false)),
      Emit(OwnerRoom(o.ownerId), OrderUpdated, Doc(o, false)),
      Emit(courierRoom, courierEvent, Doc(o, false)) ]
  }

  /** `order.save()` validates every path of the loaded document again, not
      only the ones just set; a status text the owner's status route stored
      outside the enum makes it throw, and nothing is written. */
  function Save(store: Store, id: Id, o: Order): (r: Result<Store, Error>)
    ensures r.Ok? <==> SchemaValid(o)
    ensures r.Ok? ==> r.value == store[id := o]
    ensures r.Err? ==> r.error == SchemaRejected("order")
  {
    if SchemaValid(o) then Ok(store[id := o]) else Err(SchemaRejected("order"))
  }

  /** POST /accept/:orderId. */
  function Accept(store: Store, orderId: Id, deliveryBoyId: Option<string>, now: nat): (r: Result<Reply, Error>)
    ensures !Present(deliveryBoyId) ==> r.Err? && r.error.BadRequest?
    ensures Present(deliveryBoyId) && orderId !in store ==> r == Err(NotFound)
    ensures Present(deliveryBoyId) && orderId in store ==>
              (r.Ok? <==> store[orderId].deliveryStatus == Unassigned
                          && SchemaValid(AcceptOrder(store[orderId], deliveryBoyId.value, now).value))
    ensures Present(deliveryBoyId) && orderId in store && store[orderId].deliveryStatus != Unassigned ==>
              r == Err(InvalidTransition)
    ensures Present(deliveryBoyId) && orderId in store && store[orderId].deliveryStatus == Unassigned && r.Err? ==>
              r == Err(SchemaRejected("order"))
    ensures r.Ok? ==> orderId in store && r.value.order.Some?
                      && r.value.order.value == AcceptOrder(store[orderId], deliveryBoyId.value, now).value
                      && r.value.store == store[orderId := r.value.order.value]
    ensures r.Ok? ==> RoomsFor(r.value.emits, OrderUpdated)
                        == {CustomerRoom(store[orderId].customerId), OwnerRoom(store[orderId].ownerId)}
    ensures r.Ok? ==> RoomsFor(r.value.emits, OrderAssigned) == {CourierRoom(deliveryBoyId.value)}
  {
    if !Present(deliveryBoyId) then Err(BadRequest("delivery boy id required"))
    else if orderId !in store then Err(NotFound)
    else
      var o :- AcceptOrder(store[orderId], deliveryBoyId.value, now);
      var saved :- Save(store, orderId, o);
      var emits := Fanout(o, CourierRoom(deliveryBoyId.value), OrderAssigned);
      assert emits[0].event == OrderUpdated && emits[1].event == OrderUpdated && emits[2].event == OrderAssigned;
      Ok(Reply(saved, Some(o), emits))
  }

  /** PUT /pickup/:orderId. */
  function Pickup(store: Store, orderId: Id, now: nat): (r: Result<Reply, Error>)
    ensures orderId !in store ==> r == Err(NotFound)
    ensures orderId in store ==>
              (r.Ok? <==> store[orderId].deliveryStatus == Assigned && SchemaValid(PickupOrder(store[orderId], now).value))
    ensures orderId in store && store[orderId].deliveryStatus != Assigned ==> r == Err(InvalidTransition)
    ensures orderId in store && store[orderId].deliveryStatus == Assigned && r.Err? ==> r == Err(SchemaRejected("order"))
    ensures r.Ok? ==> orderId in store && r.value.order.Some?
                      && r.value.order.value == PickupOrder(store[orderId], now).value
                      && r.value.store == store[orderId := r.value.order.value]
    ensures r.Ok? ==> RoomsFor(r.value.emits, OrderUpdated)
                        == {CustomerRoom(store[orderId].customerId), OwnerRoom(store[orderId].ownerId),
                            CourierRoomOf(store[orderId])}
  {
    if orderId !in store then Err(NotFound)
    else
      var o :- PickupOrder(store[orderId], now);
      var saved :- Save(store, orderId, o);
      var emits := Fanout(o, CourierRoomOf(o), OrderUpdated);
      assert emits[0].event == OrderUpdated && emits[1].event == OrderUpdated && emits[2].event == OrderUpdated;
      Ok(Reply(saved, Some(o), emits))
  }

  /** PUT /delivered/:orderId. */
  function Deliver(store: Store, orderId: Id, now: nat): (r: Result<Reply, Error>)
    ensures orderId !in store ==> r == Err(NotFound)
    ensures orderId in store ==>
              (r.Ok? <==> store[orderId].deliveryStatus == PickedUp && SchemaValid(DeliverOrder(store[orderId], now).value))
    ensures orderId in store && store[orderId].deliveryStatus != PickedUp ==> r == Err(InvalidTransition)
    ensures orderId in store && store[orderId].deliveryStatus == PickedUp && r.Err? ==> r == Err(SchemaRejected("order"))
    ensures r.Ok? ==> orderId in store && r.value.order.Some?
                      && r.value.order.value == DeliverOrder(store[orderId], now).value
                      && r.value.store == store[orderId := r.value.order.value]
    ensures r.Ok? ==> RoomsFor(r.value.emits, OrderUpdated)
                        == {CustomerRoom(store[orderId].customerId), OwnerRoom(store[orderId].ownerId),
                            CourierRoomOf(store[orderId])}
  {
    if orderId !in store then Err(NotFound)
    else
      var o :- DeliverOrder(store[orderId], now);
      var saved :- Save(store, orderId, o);
      var emits := Fanout(o, CourierRoomOf(o), OrderUpdated);
      assert emits[0].event == OrderUpdated && emits[1].event == OrderUpdated && emits[2].event == OrderUpdated;
      Ok(Reply(saved, Some(o), emits))
  }

  /** An order whose status text lies outside the enum can be neither
      accepted nor picked up by a courier: the save throws. Delivering it
      succeeds, because delivering overwrites the status. */
  lemma UnlistedStatusBlocksCourier(store: Store, id: Id, courier: string, now: nat)
    requires id in store && store[id].status.Unlisted?
    requires courier != ""
    ensures store[id].deliveryStatus == Unassigned ==> Accept(store, id, Some(courier), now) == Err(SchemaRejected("order"))
    ensures store[id].deliveryStatus == Assigned ==> Pickup(store, id, now) == Err(SchemaRejected("order"))
    ensures store[id].deliveryStatus == PickedUp && SchemaValid(store[id].(status := Status.Delivered)) ==>
              Deliver(store, id, now).Ok?
  {
  }

  /* ---------------------------------------------------------------
     Runs of courier actions
     --------------------------------------------------------------- */

  datatype CourierAction = AcceptAs(courier: Id, at: nat) | MarkPickup(at: nat) | MarkDelivered(at: nat)

  function Step(o: Order, a: CourierAction): Result<Order, Error> {
    match a
    case AcceptAs(c, t) => AcceptOrder(o, c, t)
    case MarkPickup(t) => PickupOrder(o, t)
    case MarkDelivered(t) => DeliverOrder(o, t)
  }

  /** The states an order passes through under a sequence of courier
      actions, starting with `o` itself; the first refused action ends the
      run with its error. */
  function Trace(o: Order, acts: seq<CourierAction>): (r: Result<seq<Order>, Error>)
    decreases |acts|
  {
    if acts == [] then Ok([o])
    else
      var next :- Step(o, acts[0]);
      var rest :- Trace(next, acts[1..]);
      Ok([o] + rest)
  }

  /** A successful step keeps the invariant and moves exactly one place
      forward along the courier track. */
  lemma StepAdvances(o: Order, a: CourierAction)
    requires CourierConsistent(o)
    requires Step(o, a).Ok?
    ensures CourierConsistent(Step(o, a).value)
    ensures Rank(Step(o, a).value.deliveryStatus) == Rank(o.deliveryStatus) + 1
  {
  }

  /** Along any run of the guarded actions every state is consistent and
      the k-th state sits k places past the start; so from a new order the
      track reads Unassigned, Assigned, PickedUp, Delivered, no run is longer
      than three actions, and every state after the first has a courier. */
  lemma {:induction false} TraceAdvances(o: Order, acts: seq<CourierAction>)
    requires CourierConsistent(o)
    requires Trace(o, acts).Ok?
    ensures |Trace(o, acts).value| == |acts| + 1
    ensures forall k :: 0 <= k < |Trace(o, acts).value| ==>
              CourierConsistent(Trace(o, acts).value[k])
              && Rank(Trace(o, acts).value[k].deliveryStatus) == Rank(o.deliveryStatus) + k
    decreases |acts|
  {
    if acts != [] {
      var next := Step(o, acts[0]).value;
      StepAdvances(o, acts[0]);
      TraceAdvances(next, acts[1..]);
      var t := Trace(o, acts).value;
      assert t == [o] + Trace(next, acts[1..]).value;
      forall k | 0 <= k < |t|
        ensures CourierConsistent(t[k]) && Rank(t[k].deliveryStatus) == Rank(o.deliveryStatus) + k
      {
        if k > 0 { assert t[k] == Trace(next, acts[1..]).value[k - 1]; }
      }
    }
  }

  /** Using only the guarded actions from a new order: the track is
      Unassigned, Assigned, PickedUp, Delivered in that order, at most three
      actions succeed, and a courier is recorded in every later state. */
  lemma FromNewOrder(id: Id, c: Id, w: Id, items: seq<Item>, t: int, a: string, p: Payment,
                     acts: seq<CourierAction>)
    requires Trace(FreshOrder(id, c, w, items, t, a, p), acts).Ok?
    ensures |acts| <= 3
    ensures |Trace(FreshOrder(id, c, w, items, t, a, p), acts).value| == |acts| + 1
    ensures var tr := Trace(FreshOrder(id, c, w, items, t, a, p), acts).value;
            forall k :: 0 <= k < |tr| ==>
              tr[k].deliveryStatus == [Unassigned, Assigned, PickedUp, DeliveryStatus.Delivered][k]
              && (k > 0 ==> tr[k].deliveryBoyId.Some?)
  {
    var o := FreshOrder(id, c, w, items, t, a, p);
    TraceAdvances(o, acts);
    var tr := Trace(o, acts).value;
    assert Rank(tr[|tr| - 1].deliveryStatus) == |tr| - 1;
  }
}

=== FILE: login_popup.dfy ===
/** The customer and owner login/signup popup,
    frontend/src/components/LoginPopup.js: per-field checks run on every
    keystroke on the trimmed value, an error state that submit consults,
    and the trimmed request it sends. */
module LoginPopup {
  import opened Text
  import opened Validators

  datatype Mode = CustomerMode | OwnerMode

  datatype Field = NameField | PhoneField | EmailField | PasswordField | ConfirmField

  datatype Form = Form(name: string, phone: string, email: string, password: string, confirm: string)

  const EmptyForm: Form := Form("", "", "", "", "")

  function Value(f: Form, x: Field): string {
    match x
    case NameField => f.name
    case PhoneField => f.phone
    case EmailField => f.email
    case PasswordField => f.password
    case ConfirmField => f.confirm
  }

  function SetValue(f: Form, x: Field, v: string): (r: Form)
    ensures Value(r, x) == v
    ensures forall y :: y != x ==> Value(r, y) == Value(f, y)
  {
    match x
    case NameField => f.(name := v)
    case PhoneField => f.(phone := v)
    case EmailField => f.(email := v)
    case PasswordField => f.(password := v)
    case ConfirmField => f.(confirm := v)
  }

  /** The check of one field on its trimmed value: name and phone only in
      signup, e-mail with a single `@`, the strong password rule, and in
      signup the confirmation against the password held when it is typed. */
  predicate FieldError(x: Field, value: string, isSignup: bool, password: string) {
    var v := Trim(value);
    match x
    case NameField => isSignup && !NameOk(v)
    case PhoneField => isSignup && !PhoneOk(v)
    case EmailField => !EmailWithAt(v)
    case PasswordField => !StrongPassword(v)
    case ConfirmField => isSignup && v != password
  }

  /** Keys of the error state: one per field, and the server's message. */
  datatype Key = FieldKey(field: Field) | ApiKey

  /** The popup's state; `errors` holds the keys whose message is
      non-empty. */
  datatype Popup = Popup(mode: Mode, isSignup: bool, form: Form, errors: set<Key>)

  /** Opening, or switching mode or between login and signup: an empty
      form and no errors. */
  function Open(mode: Mode, isSignup: bool): (p: Popup)
    ensures p.form == EmptyForm && p.errors == {}
  {
    Popup(mode, isSignup, EmptyForm, {})
  }

  /** A keystroke in field `x`: the value is stored and that field alone
      is checked; every other key keeps its state. */
  function Change(p: Popup, x: Field, v: string): (r: Popup)
    ensures r.mode == p.mode && r.isSignup == p.isSignup
    ensures r.form == SetValue(p.form, x, v)
    ensures FieldKey(x) in r.errors <==> FieldError(x, v, p.isSignup, p.form.password)
    ensures forall k :: k != FieldKey(x) ==> (k in r.errors <==> k in p.errors)
  {
    var errs := if FieldError(x, v, p.isSignup, p.form.password) then p.errors + {FieldKey(x)}
                else p.errors - {FieldKey(x)};
    p.(form := SetValue(p.form, x, v), errors := errs)
  }

  /** A list of keystrokes, in order. */
  function ChangeAll(p: Popup, edits: seq<(Field, string)>): (r: Popup)
    ensures r.mode == p.mode && r.isSignup == p.isSignup
    decreases |edits|
  {
    if edits == [] then p else ChangeAll(Change(p, edits[0].0, edits[0].1), edits[1..])
  }

  /** The inputs on screen: all five in signup, e-mail and password in
      login. */
  predicate Shown(x: Field, isSignup: bool) {
    isSignup || x == EmailField || x == PasswordField
  }

  /** Every input on screen carries `required`, so the browser does not
      submit while one of them is empty. */
  predicate Filled(p: Popup) {
    forall x :: Shown(x, p.isSignup) ==> Value(p.form, x) != []
  }

  /** The request body: the trimmed fields, with the owner's name sent as
      `hotelName`, and no confirmation. */
  datatype Request =
    | LoginRequest(mode: Mode, email: string, password: string)
    | SignupRequest(mode: Mode, name: string, phone: string, email: string, password: string)

  function RequestOf(p: Popup): (q: Request)
    ensures q.email == Trim(p.form.email) && q.password == Trim(p.form.password) && q.mode == p.mode
    ensures q.SignupRequest? <==> p.isSignup
    ensures q.SignupRequest? ==> q.name == Trim(p.form.name) && q.phone == Trim(p.form.phone)
  {
    var f := p.form;
    if p.isSignup then SignupRequest(p.mode, Trim(f.name), Trim(f.phone), Trim(f.email), Trim(f.password))
    else LoginRequest(p.mode, Trim(f.email), Trim(f.password))
  }

  /** The wire name of the request's name field. */
  function NameKey(m: Mode): string {
    match m
    case CustomerMode => "name"
    case OwnerMode => "hotelName"
  }

  datatype Submission = NotSubmitted | Refused | Sent(request: Request)

  /** Pressing submit as written: the browser holds back an unfilled form;
      otherwise any non-empty message in the error state, the server's
      included, refuses the submit. The checks submit re-runs update the
      error state only after this decision (`AfterPress`). */
  function Submit(p: Popup): (r: Submission)
    ensures r == NotSubmitted <==> !Filled(p)
    ensures r == Refused <==> Filled(p) && p.errors != {}
    ensures r.Sent? ==> r.request == RequestOf(p)
  {
    if !Filled(p) then NotSubmitted
    else if p.errors != {} then Refused
    else Sent(RequestOf(p))
  }

  /** The request failed: the error state becomes the server's message
      alone. */
  function Failed(p: Popup): (r: Popup)
    ensures r.errors == {ApiKey}
    ensures r.form == p.form && r.mode == p.mode && r.isSignup == p.isSignup
  {
    p.(errors := {ApiKey})
  }

  /* ---------------------------------------------------------------
     What the error state tracks
     --------------------------------------------------------------- */

  /** The four fields whose check does not depend on another field. */
  predicate SelfChecked(x: Field) {
    x != ConfirmField
  }

  /** Each self-checked field's key reflects its current value, except a
      field never typed in, which is empty and has no message. */
  predicate Tracked(p: Popup) {
    forall x :: SelfChecked(x) ==>
      (FieldKey(x) in p.errors <==> FieldError(x, Value(p.form, x), p.isSignup, ""))
      || (Value(p.form, x) == [] && FieldKey(x) !in p.errors)
  }

  lemma OpenTracked(mode: Mode, isSignup: bool)
    ensures Tracked(Open(mode, isSignup))
  {
  }

  lemma ChangeKeepsTracked(p: Popup, x: Field, v: string)
    requires Tracked(p)
    ensures Tracked(Change(p, x, v))
  {
    var r := Change(p, x, v);
    forall y | SelfChecked(y)
      ensures (FieldKey(y) in r.errors <==> FieldError(y, Value(r.form, y), r.isSignup, ""))
              || (Value(r.form, y) == [] && FieldKey(y) !in r.errors)
    {
      if y == x {
        assert FieldError(y, v, p.isSignup, p.form.password) == FieldError(y, v, p.isSignup, "");
      }
    }
  }

  lemma {:induction false} ChangeAllKeepsTracked(p: Popup, edits: seq<(Field, string)>)
    requires Tracked(p)
    ensures Tracked(ChangeAll(p, edits))
    decreases |edits|
  {
    if edits != [] {
      ChangeKeepsTracked(p, edits[0].0, edits[0].1);
      ChangeAllKeepsTracked(Change(p, edits[0].0, edits[0].1), edits[1..]);
    }
  }

  /** A sent request from a tracked popup carries values that pass the
      popup's own rules: the trimmed address has one `@`, the trimmed
      password is strong, and a signup's name and phone are valid. */
  lemma SentRequestPassesRules(p: Popup)
    requires Tracked(p) && Submit(p).Sent?
    ensures var q := Submit(p).request;
            && EmailWithAt(q.email) && StrongPassword(q.password)
            && (q.SignupRequest? ==> NameOk(q.name) && PhoneOk(q.phone))
  {
    CleanFieldsPassRules(p);
  }

  /** The popup's password rule is the strictest of the project's: a
      password a tracked popup sends also passes the six-character rule of
      the courier form, of the change-password route and of the account
      schemas. */
  lemma SentPasswordIsLongEnough(p: Popup)
    requires Tracked(p) && Submit(p).Sent?
    ensures LongEnough(Submit(p).request.password)
  {
    SentRequestPassesRules(p);
  }

  /** A filled, tracked popup without field messages holds values that pass
      the rules of every field on screen. */
  lemma CleanFieldsPassRules(p: Popup)
    requires Tracked(p) && Filled(p) && forall x :: FieldKey(x) !in p.errors
    ensures var q := RequestOf(p);
            && EmailWithAt(q.email) && StrongPassword(q.password)
            && (q.SignupRequest? ==> NameOk(q.name) && PhoneOk(q.phone))
  {
    CleanFieldPasses(p, EmailField);
    CleanFieldPasses(p, PasswordField);
    if p.isSignup {
      CleanFieldPasses(p, NameField);
      CleanFieldPasses(p, PhoneField);
    }
  }

  lemma CleanFieldPasses(p: Popup, x: Field)
    requires Tracked(p) && Filled(p) && FieldKey(x) !in p.errors
    requires SelfChecked(x) && Shown(x, p.isSignup)
    ensures !FieldError(x, Value(p.form, x), p.isSignup, "")
  {
  }

  /* ---------------------------------------------------------------
     What a press of submit leaves behind
     --------------------------------------------------------------- */

  lemma SetValueSame(f: Form, x: Field)
    ensures SetValue(f, x, Value(f, x)) == f
  {
  }

  /** Submit's check of one field: the keystroke check on the value the
      field already holds, so the confirmation is compared with the
      current password. */
  function Recheck(p: Popup, x: Field): (r: Popup)
    ensures r.form == p.form && r.mode == p.mode && r.isSignup == p.isSignup
    ensures FieldKey(x) in r.errors <==> FieldError(x, Value(p.form, x), p.isSignup, p.form.password)
    ensures forall k :: k != FieldKey(x) ==> (k in r.errors <==> k in p.errors)
  {
    SetValueSame(p.form, x);
    Change(p, x, Value(p.form, x))
  }

  /** The popup once submit has been pressed, before the server answers.
      A form the browser holds back never reaches the handler. Otherwise
      the handler checks all five fields of the form in the order of its
      keys, hidden ones included, and those results land in the error
      state whether the submit is refused or the request goes out
      (`AfterPressRechecksAll`). */
  function AfterPress(p: Popup): (r: Popup)
    ensures r.form == p.form && r.mode == p.mode && r.isSignup == p.isSignup
    ensures ApiKey in r.errors <==> ApiKey in p.errors
    ensures !Filled(p) ==> r == p
  {
    if !Filled(p) then p
    else Recheck(Recheck(Recheck(Recheck(Recheck(p, NameField), PhoneField), EmailField), PasswordField), ConfirmField)
  }

  /** After a press that reaches the handler, the message of every field,
      the confirmation included, reflects the form as it stands, and the
      server's message is left as it was. */
  lemma AfterPressRechecksAll(p: Popup)
    requires Filled(p)
    ensures forall x ::
              FieldKey(x) in AfterPress(p).errors <==> FieldError(x, Value(p.form, x), p.isSignup, p.form.password)
  {
    var p1 := Recheck(p, NameField);
    var p2 := Recheck(p1, PhoneField);
    var p3 := Recheck(p2, EmailField);
    var p4 := Recheck(p3, PasswordField);
    var p5 := Recheck(p4, ConfirmField);
    assert p5 == AfterPress(p);
    forall x
      ensures FieldKey(x) in p5.errors <==> FieldError(x, Value(p.form, x), p.isSignup, p.form.password)
    {
      match x
      case NameField =>
      case PhoneField =>
      case EmailField =>
      case PasswordField =>
      case ConfirmField =>
    }
  }

  /** After a press the error state agrees with the fields again. */
  lemma AfterPressTracked(p: Popup)
    ensures Tracked(p) ==> Tracked(AfterPress(p))
    ensures Filled(p) ==> Tracked(AfterPress(p))
  {
    if Filled(p) {
      AfterPressRechecksAll(p);
      var r := AfterPress(p);
      forall x | SelfChecked(x)
        ensures FieldKey(x) in r.errors <==> FieldError(x, Value(r.form, x), r.isSignup, "")
      {
        assert FieldError(x, Value(p.form, x), p.isSignup, p.form.password)
               == FieldError(x, Value(p.form, x), p.isSignup, "");
      }
    }
  }

  /** Two error states with the same server message and the same field
      messages are the same. */
  lemma SameKeys(a: set<Key>, b: set<Key>)
    requires ApiKey in a <==> ApiKey in b
    requires forall x :: FieldKey(x) in a <==> FieldKey(x) in b
    ensures a == b
  {
    forall k ensures k in a <==> k in b {
      if k.FieldKey? {
        assert FieldKey(k.field) == k;
      }
    }
  }

  /** Pressing again without typing leaves the error state as the first
      press left it. */
  lemma AfterPressIdempotent(p: Popup)
    ensures AfterPress(AfterPress(p)) == AfterPress(p)
  {
    var r := AfterPress(p);
    if Filled(p) {
      AfterPressRechecksAll(p);
      AfterPressRechecksAll(r);
      SameKeys(AfterPress(r).errors, r.errors);
    }
  }

  /** The next press after one that reached the handler is decided on the
      form as it stands: it sends exactly when the server's message is
      not set and every check passes, the confirmation against the
      current password. */
  lemma NextPressSendsIffValid(p: Popup)
    requires Filled(p)
    ensures Submit(AfterPress(p)).Sent? <==>
              ApiKey !in p.errors && forall x :: !FieldError(x, Value(p.form, x), p.isSignup, p.form.password)
  {
    if Submit(AfterPress(p)).Sent? {
      NextPressSendsOnlyValid(p);
    }
    if ApiKey !in p.errors && forall x :: !FieldError(x, Value(p.form, x), p.isSignup, p.form.password) {
      ValidNextPressSends(p);
    }
  }

  lemma NextPressSendsOnlyValid(p: Popup)
    requires Filled(p) && Submit(AfterPress(p)).Sent?
    ensures ApiKey !in p.errors && forall x :: !FieldError(x, Value(p.form, x), p.isSignup, p.form.password)
  {
    AfterPressRechecksAll(p);
    assert AfterPress(p).errors == {};
  }

  lemma ValidNextPressSends(p: Popup)
    requires Filled(p) && ApiKey !in p.errors
    requires forall x :: !FieldError(x, Value(p.form, x), p.isSignup, p.form.password)
    ensures Submit(AfterPress(p)) == Sent(RequestOf(p))
  {
    AfterPressRechecksAll(p);
    SameKeys(AfterPress(p).errors, {});
  }

  /** A server failure replaces whatever the press left in the error
      state. */
  lemma FailureAfterPress(p: Popup)
    ensures Failed(AfterPress(p)) == Failed(p)
  {
  }

  /** A press that reaches the handler on a signup whose confirmation no
      longer matches the password flags the confirmation and refuses the
      next press. */
  lemma PressFlagsStaleConfirm(p: Popup)
    requires p.isSignup && Filled(p) && Trim(p.form.confirm) != p.form.password
    ensures FieldKey(ConfirmField) in AfterPress(p).errors
    ensures Submit(AfterPress(p)) == Refused
  {
    var p4 := Recheck(Recheck(Recheck(Recheck(p, NameField), PhoneField), EmailField), PasswordField);
    assert p4.form == p.form;
    assert AfterPress(p) == Recheck(p4, ConfirmField);
  }

  /** A flagged field is cleared only by a keystroke in that field:
      whatever is typed into the others, every later submit is refused or
      held back. */
  lemma FlagBlocksRetry(p: Popup, x: Field, edits: seq<(Field, string)>)
    requires FieldKey(x) in p.errors
    requires forall i :: 0 <= i < |edits| ==> edits[i].0 != x
    ensures FieldKey(x) in ChangeAll(p, edits).errors
    ensures !Submit(ChangeAll(p, edits)).Sent?
  {
    FieldKeyStays(p, x, edits);
  }

  /** Together: after a press on a signup whose confirmation no longer
      matches, fixing any other field never lets the form out; only
      retyping the confirmation can. */
  lemma StaleConfirmBlocksRetry(p: Popup, edits: seq<(Field, string)>)
    requires p.isSignup && Filled(p) && Trim(p.form.confirm) != p.form.password
    requires forall i :: 0 <= i < |edits| ==> edits[i].0 != ConfirmField
    ensures !Submit(ChangeAll(AfterPress(p), edits)).Sent?
  {
    PressFlagsStaleConfirm(p);
    FlagBlocksRetry(AfterPress(p), ConfirmField, edits);
  }

  lemma {:induction false} FieldKeyStays(p: Popup, x: Field, edits: seq<(Field, string)>)
    requires FieldKey(x) in p.errors
    requires forall i :: 0 <= i < |edits| ==> edits[i].0 != x
    ensures FieldKey(x) in ChangeAll(p, edits).errors
    decreases |edits|
  {
    if edits != [] {
      assert forall i :: 0 <= i < |edits[1..]| ==> edits[1..][i].0 == edits[i + 1].0;
      FieldKeyStays(Change(p, edits[0].0, edits[0].1), x, edits[1..]);
    }
  }

  /* ---------------------------------------------------------------
     After a failed request
     --------------------------------------------------------------- */

  /** As written, the server's message is never cleared by typing, so after
      one failed request every later submit is refused until the popup is
      reopened or its mode switched. */
  lemma {:induction false} StuckAfterFailure(p: Popup, edits: seq<(Field, string)>)
    ensures ApiKey in ChangeAll(Failed(p), edits).errors
    ensures !Submit(ChangeAll(Failed(p), edits)).Sent?
  {
    ApiKeyStays(Failed(p), edits);
  }

  lemma {:induction false} ApiKeyStays(p: Popup, edits: seq<(Field, string)>)
    requires ApiKey in p.errors
    ensures ApiKey in ChangeAll(p, edits).errors
    decreases |edits|
  {
    if edits != [] {
      ApiKeyStays(Change(p, edits[0].0, edits[0].1), edits[1..]);
    }
  }

  /** The gate the popup evidently intends: only field messages refuse a
      submit; the server's message is shown but does not block a retry. */
  function SubmitCorrected(p: Popup): (r: Submission)
    ensures r == NotSubmitted <==> !Filled(p)
    ensures r == Refused <==> Filled(p) && exists x :: FieldKey(x) in p.errors
    ensures r.Sent? ==> r.request == RequestOf(p)
  {
    if !Filled(p) then NotSubmitted
    else if exists x :: FieldKey(x) in p.errors then Refused
    else Sent(RequestOf(p))
  }

  /** A failure then keeps the field messages and adds the server's. */
  function FailedCorrected(p: Popup): (r: Popup)
    ensures r.errors == p.errors + {ApiKey}
    ensures r.form == p.form && r.mode == p.mode && r.isSignup == p.isSignup
  {
    p.(errors := p.errors + {ApiKey})
  }

  /** With the corrected gate, a request refused by the server can be sent
      again unchanged, the error state keeps tracking the fields, and the
      corrected gate still sends only what the rules accept. */
  lemma RetryAfterFailure(p: Popup)
    requires SubmitCorrected(p).Sent?
    ensures SubmitCorrected(FailedCorrected(p)) == SubmitCorrected(p)
    ensures Submit(Failed(p)) == Refused
    ensures Tracked(p) ==> Tracked(FailedCorrected(p))
  {
    var r := FailedCorrected(p);
    assert forall x :: FieldKey(x) in r.errors ==> FieldKey(x) in p.errors;
  }

  /** The corrected gate sends only what the popup's rules accept. */
  lemma CorrectedSentPassesRules(p: Popup)
    requires Tracked(p) && SubmitCorrected(p).Sent?
    ensures var q := SubmitCorrected(p).request;
            && EmailWithAt(q.email) && StrongPassword(q.password)
            && (q.SignupRequest? ==> NameOk(q.name) && PhoneOk(q.phone))
  {
    CleanFieldsPassRules(p);
  }

  /* ---------------------------------------------------------------
     The confirmation
     --------------------------------------------------------------- */

  /** The confirmation is checked against the password held when it is
      typed, and changing the password later does not re-check it: from a
      filled signup without messages, retyping the password to any other
      strong value leaves the confirmation unflagged, and the signup goes
      out with a password the confirmation no longer matches. The
      confirmation itself is never sent. */
  lemma ConfirmGoesStale(p: Popup, v: string)
    requires p.isSignup && p.errors == {} && Filled(p)
    requires !FieldError(PasswordField, v, true, "") && v != p.form.confirm
    ensures var r := Change(p, PasswordField, v);
            && Submit(r) == Sent(RequestOf(r))
            && r.form.password != r.form.confirm
            && FieldKey(ConfirmField) !in r.errors
  {
    var r := Change(p, PasswordField, v);
    assert Trim(v) != [];
    forall x | Shown(x, r.isSignup)
      ensures Value(r.form, x) != []
    {
      assert x != PasswordField ==> Value(r.form, x) == Value(p.form, x);
    }
    assert forall k :: k !in r.errors;
  }
}

=== FILE: order.dfy ===
/** The Order document (backend/models/Order.js), the real-time rooms and
    events the handlers publish to, and the reply every lifecycle handler
    produces: the new store, the order it answers with, and the list of
    `(room, event, payload)` emits it performed. */
module Orders {
  import opened Wrappers

  type Id = string

  /** Owner/customer-facing status. The five listed values are the schema's
      enum; `Unlisted` is any other string, which the owner status route can
      store because it updates without running the schema validators. */
  datatype Status =
    | Pending
    | Preparing
    | DishPicked
    | Delivered
    | Cancelled
    | Unlisted(raw: string)

  /** Courier-facing status; every writer uses one of these literals. */
  datatype DeliveryStatus = Unassigned | Assigned | PickedUp | OutForDelivery | Delivered

  datatype Payment = COD | UPI | Card

  datatype Item = Item(dishId: Id, name: string, price: int, quantity: int)

  datatype Order = Order(
    id: Id,
    customerId: Id,
    ownerId: Id,
    items: seq<Item>,
    totalAmount: int,
    address: string,
    payment: Payment,
    status: Status,
    deliveryBoyId: Option<Id>,
    deliveryStatus: DeliveryStatus,
    assignedAt: Option<nat>,
    pickedAt: Option<nat>,
    deliveredAt: Option<nat>,
    remarks: string)

  type Store = map<Id, Order>

  /* ---------------------------------------------------------------
     Wire names of the enums
     --------------------------------------------------------------- */

  const PickedLabel: string := "Dish Picked by Delivery Boy"

  function StatusName(s: Status): string {
    match s
    case Pending => "Pending"
    case Preparing => "Preparing"
    case DishPicked => PickedLabel
    case Delivered => "Delivered"
    case Cancelled => "Cancelled"
    case Unlisted(raw) => raw
  }

  predicate IsListedName(raw: string) {
    raw == "Pending" || raw == "Preparing" || raw == PickedLabel || raw == "Delivered" || raw == "Cancelled"
  }

  /** A status value as it can be stored: `Unlisted` never spells a listed name. */
  predicate WellFormedStatus(s: Status) {
    s.Unlisted? ==> !IsListedName(s.raw)
  }

  /** Reads a status string as the document stores it. */
  function ParseStatus(raw: string): (s: Status)
    ensures WellFormedStatus(s)
    ensures StatusName(s) == raw
    ensures s.Unlisted? <==> !IsListedName(raw)
  {
    if raw == "Pending" then Pending
    else if raw == "Preparing" then Preparing
    else if raw == PickedLabel then DishPicked
    else if raw == "Delivered" then Status.Delivered
    else if raw == "Cancelled" then Cancelled
    else Unlisted(raw)
  }

  lemma ParseStatusName(s: Status)
    requires WellFormedStatus(s)
    ensures ParseStatus(StatusName(s)) == s
  {
  }

  function DeliveryStatusName(d: DeliveryStatus): string {
    match d
    case Unassigned => "Unassigned"
    case Assigned => "Assigned"
    case PickedUp => "PickedUp"
    case OutForDelivery => "OutForDelivery"
    case Delivered => "Delivered"
  }

  function PaymentName(p: Payment): string {
    match p
    case COD => "COD"
    case UPI => "UPI"
    case Card => "Card"
  }

  /** The `payment` enum check the schema performs on create. */
  function ParsePayment(raw: string): (r: Option<Payment>)
    ensures r.Some? <==> (raw == "COD" || raw == "UPI" || raw == "Card")
    ensures r.Some? ==> PaymentName(r.value) == raw
  {
    if raw == "COD" then Some(COD)
    else if raw == "UPI" then Some(UPI)
    else if raw == "Card" then Some(Card)
    else None
  }

  /* ---------------------------------------------------------------
     Creation with schema defaults
     --------------------------------------------------------------- */

  /** Every item carries dishId, name, price and quantity, and the order a
      total, an address, a payment method, and only listed enum values. */
  predicate SchemaValid(o: Order) {
    && o.customerId != "" && o.ownerId != "" && o.address != ""
    && (forall k :: 0 <= k < |o.items| ==> o.items[k].dishId != "" && o.items[k].name != "")
    && WellFormedStatus(o.status) && !o.status.Unlisted?
  }

  /** A freshly stored order: the schema defaults for every field the
      caller does not supply. */
  function FreshOrder(id: Id, customerId: Id, ownerId: Id, items: seq<Item>, totalAmount: int,
                    address: string, payment: Payment): (o: Order)
    ensures o.status == Pending && o.deliveryStatus == Unassigned
    ensures o.deliveryBoyId.None?
    ensures o.assignedAt.None? && o.pickedAt.None? && o.deliveredAt.None?
    ensures o.remarks == ""
    ensures o.id == id && o.customerId == customerId && o.ownerId == ownerId
    ensures o.items == items && o.totalAmount == totalAmount && o.address == address && o.payment == payment
  {
    Order(id, customerId, ownerId, items, totalAmount, address, payment,
          Pending, None, Unassigned, None, None, None, "")
  }

  /* ---------------------------------------------------------------
     Real-time notifications
     --------------------------------------------------------------- */

  /** `customer_<id>`, `owner_<id>`, `delivery_<id>`, `delivery_pool`, and
      `io.emit` to every connected socket. */
  datatype Room = CustomerRoom(customer: Id) | OwnerRoom(owner: Id) | CourierRoom(courier: string) | CourierPool | Everyone

  datatype EventName = OrderCreated | NewOrder | AvailableOrder | OrderUpdated | OrderAssigned

  function EventWireName(e: EventName): string {
    match e
    case OrderCreated => "order-created"
    case NewOrder => "new-order"
    case AvailableOrder => "available-order"
    case OrderUpdated => "order-updated"
    case OrderAssigned => "order-assigned"
  }

  function RoomName(r: Room): string {
    match r
    case CustomerRoom(c) => "customer_" + c
    case OwnerRoom(o) => "owner_" + o
    case CourierRoom(d) => "delivery_" + d
    case CourierPool => "delivery_pool"
    case Everyone => ""
  }

  /** The room of an order's courier as the template literal spells it:
      a missing courier gives the room `delivery_null`. */
  function CourierRoomOf(o: Order): Room {
    match o.deliveryBoyId
    case Some(d) => CourierRoom(d)
    case None => CourierRoom("null")
  }

  datatype PoolLine = PoolLine(name: string, quantity: int)

  /** What an event carries: the order document (with `populated` telling
      whether customer/owner/courier references were expanded into
      objects), the reduced pool projection, or `null`. */
  datatype Payload =
    | Doc(order: Order, populated: bool)
    | PoolNotice(orderId: Id, hotel: Id, totalAmount: int, lines: seq<PoolLine>)
    | NoOrder

  datatype Emit = Emit(room: Room, event: EventName, payload: Payload)

  function PoolLines(items: seq<Item>): (ls: seq<PoolLine>)
    ensures |ls| == |items|
    ensures forall k :: 0 <= k < |items| ==> ls[k] == PoolLine(items[k].name, items[k].quantity)
  {
    if items == [] then [] else [PoolLine(items[0].name, items[0].quantity)] + PoolLines(items[1..])
  }

  /** The `available-order` notice: order id, hotel, total and item
      names with quantities, and nothing else about the customer. */
  function PoolNoticeOf(o: Order): Payload {
    PoolNotice(o.id, o.ownerId, o.totalAmount, PoolLines(o.items))
  }

  /** The customer, owner and courier documents that still exist. A
      handler that populates an order's references gets `null` for each
      one whose document is gone. */
  datatype Refs = Refs(customers: set<Id>, owners: set<Id>, couriers: set<Id>)

  /** Both of the order's required references still resolve. */
  predicate Intact(refs: Refs, o: Order) {
    o.customerId in refs.customers && o.ownerId in refs.owners
  }

  /** What a handler did: the store after it, the order it answered with
      (`None` for a `null` body), and what it published. */
  datatype Reply = Reply(store: Store, order: Option<Order>, emits: seq<Emit>)

  /** The rooms that received a given event. */
  function RoomsFor(emits: seq<Emit>, e: EventName): set<Room> {
    set k | 0 <= k < |emits| && emits[k].event == e :: emits[k].room
  }
}

=== FILE: order_routes.dfy ===
/** The order handlers of backend/routes/orderRoutes.js: create with its
    field checks and schema defaults, the owner's status update, and the
    assign/pickup/delivered actions that — unlike the courier routes —
    check nothing about the order's current state. */
module OrderRoutes {
  import opened Wrappers
  import opened Orders
  import DeliveryRoutes

  /* ---------------------------------------------------------------
     Create
     --------------------------------------------------------------- */

  /** An item of the request body as sent: any field may be absent. */
  datatype ItemInput = ItemInput(dishId: Option<Id>, name: Option<string>, price: Option<int>, quantity: Option<int>)

  datatype CreateRequest = CreateRequest(
    customerId: Option<Id>,
    ownerId: Option<Id>,
    items: Option<seq<ItemInput>>,
    totalAmount: Option<int>,
    address: Option<string>,
    payment: Option<string>)

  /** The handler's own truthiness check on the six fields. */
  predicate HasAllFields(q: CreateRequest) {
    && Present(q.customerId) && Present(q.ownerId)
    && q.items.Some? && |q.items.value| > 0
    && NonZero(q.totalAmount) && Present(q.address) && Present(q.payment)
  }

  /** What the schema demands of one item: dishId and name non-empty,
      price and quantity given (a required Number accepts 0). */
  predicate ItemAccepted(i: ItemInput) {
    Present(i.dishId) && Present(i.name) && i.price.Some? && i.quantity.Some?
  }

  /** Casting the items through the schema: all of them are accepted, in
      order and field by field, or the document is refused. */
  function CastItems(xs: seq<ItemInput>): (r: Result<seq<Item>, Error>)
    ensures r.Ok? <==> forall k :: 0 <= k < |xs| ==> ItemAccepted(xs[k])
    ensures r.Err? ==> r.error.SchemaRejected?
    ensures r.Ok? ==> |r.value| == |xs|
    ensures r.Ok? ==> forall k :: 0 <= k < |xs| ==>
                        r.value[k] == Item(xs[k].dishId.value, xs[k].name.value, xs[k].price.value, xs[k].quantity.value)
  {
    if xs == [] then Ok([])
    else if !ItemAccepted(xs[0]) then Err(SchemaRejected("items"))
    else
      var rest :- CastItems(xs[1..]);
      Ok([Item(xs[0].dishId.value, xs[0].name.value, xs[0].price.value, xs[0].quantity.value)] + rest)
  }

  /** POST /create. `id` is the identifier the store assigns to the new
      document. The owner hears `new-order` with the plain document, the
      courier pool hears `available-order` with the reduced notice, and
      the customer is not notified. */
  function Create(store: Store, id: Id, q: CreateRequest): (r: Result<Reply, Error>)
    requires id !in store
    ensures !HasAllFields(q) ==> r.Err? && r.error.BadRequest?
    ensures HasAllFields(q) ==>
              (r.Ok? <==> (forall k :: 0 <= k < |q.items.value| ==> ItemAccepted(q.items.value[k]))
                          && ParsePayment(q.payment.value).Some?)
    ensures HasAllFields(q) && r.Err? ==> r.error.SchemaRejected?
    ensures r.Ok? ==> r.value.order.Some? && r.value.store == store[id := r.value.order.value]
    ensures r.Ok? ==> var o := r.value.order.value;
              && o.id == id && o.customerId == q.customerId.value && o.ownerId == q.ownerId.value
              && o.totalAmount == q.totalAmount.value && o.address == q.address.value
              && PaymentName(o.payment) == q.payment.value && |o.items| == |q.items.value|
              && (forall k :: 0 <= k < |o.items| ==>
                    var i := q.items.value[k];
                    o.items[k] == Item(i.dishId.value, i.name.value, i.price.value, i.quantity.value))
              && o.status == Pending && o.deliveryStatus == Unassigned && o.deliveryBoyId.None?
              && SchemaValid(o) && DeliveryRoutes.CourierConsistent(o)
    ensures r.Ok? ==> RoomsFor(r.value.emits, NewOrder) == {OwnerRoom(q.ownerId.value)}
    ensures r.Ok? ==> RoomsFor(r.value.emits, AvailableOrder) == {CourierPool}
    ensures r.Ok? ==> RoomsFor(r.value.emits, OrderCreated) == {}
    ensures r.Ok? ==> forall k :: 0 <= k < |r.value.emits| && r.value.emits[k].room == CourierPool ==>
                        r.value.emits[k].payload == PoolNoticeOf(r.value.order.value)
  {
    if !HasAllFields(q) then Err(BadRequest("All order fields are required."))
    else
      var items :- CastItems(q.items.value);
      var pay :- if ParsePayment(q.payment.value).Some? then Ok(ParsePayment(q.payment.value).value)
                 else Err(SchemaRejected("payment"));
      var o := FreshOrder(id, q.customerId.value, q.ownerId.value, items, q.totalAmount.value,
                          q.address.value, pay);
      DeliveryRoutes.FreshOrderIsConsistent(id, q.customerId.value, q.ownerId.value, items,
                                            q.totalAmount.value, q.address.value, pay);
      var emits := [ Emit(OwnerRoom(q.ownerId.value), NewOrder, Doc(o, false)),
                     Emit(CourierPool, AvailableOrder, PoolNoticeOf(o)) ];
      assert emits[0].event == NewOrder && emits[1].event == AvailableOrder;
      Ok(Reply(store[id := o], Some(o), emits))
  }

  /* ---------------------------------------------------------------
     Owner status update
     --------------------------------------------------------------- */

  /** The fields the status route writes: the raw status string, and for
      the picked-up label also the courier track and pickedAt. */
  function ApplyStatus(o: Order, status: string, now: nat): (r: Order)
    ensures StatusName(r.status) == status && WellFormedStatus(r.status)
    ensures status == PickedLabel ==> r.deliveryStatus == PickedUp && r.pickedAt == Some(now)
    ensures status != PickedLabel ==> r.deliveryStatus == o.deliveryStatus && r.pickedAt == o.pickedAt
    ensures r.(status := o.status, deliveryStatus := o.deliveryStatus, pickedAt := o.pickedAt) == o
  {
    if status == PickedLabel then o.(status := ParseStatus(status), deliveryStatus := PickedUp, pickedAt := Some(now))
    else o.(status := ParseStatus(status))
  }

  /** The answer of a handler that reads the populated order after
      writing it: a reply, a refusal before any write, or a crash (a 500)
      after the write, leaving the written store and whatever was emitted
      before the throw. */
  datatype Answer =
    | Answered(reply: Reply)
    | Refused(error: Error)
    | Crashed(written: Store, sent: seq<Emit>)
  {
    /** The store once the handler has run, whatever it answered. */
    function After(before: Store): Store {
      match this
      case Answered(reply) => reply.store
      case Refused(_) => before
      case Crashed(written, _) => written
    }

    /** Everything the handler emitted. */
    function Emitted(): seq<Emit> {
      match this
      case Answered(reply) => reply.emits
      case Refused(_) => []
      case Crashed(_, sent) => sent
    }
  }

  /** Emitting to the customer's and then the owner's room reads `_id` off
      each populated reference; a reference whose document is gone is
      `null`, and reading through it throws. The customer's emit has gone
      out by the time the owner's reference is read. */
  function NotifyParties(written: Store, o: Order, refs: Refs, rest: seq<Emit>): (r: Answer)
    ensures r.Answered? <==> Intact(refs, o)
    ensures r.Refused? == false
    ensures r.After(map[]) == written
    ensures r.Answered? ==> r.reply == Reply(written, Some(o), r.reply.emits)
    ensures r.Answered? ==> |r.reply.emits| == 2 + |rest| && r.reply.emits[2..] == rest
    ensures r.Crashed? ==> |r.sent| <= 1
    ensures r.Emitted() == (if o.customerId in refs.customers then [Emit(CustomerRoom(o.customerId), OrderUpdated, Doc(o, true))] else [])
                           + (if Intact(refs, o) then [Emit(OwnerRoom(o.ownerId), OrderUpdated, Doc(o, true))] + rest else [])
  {
    var toCustomer := Emit(CustomerRoom(o.customerId), OrderUpdated, Doc(o, true));
    if o.customerId !in refs.customers then Crashed(written, [])
    else if o.ownerId !in refs.owners then Crashed(written, [toCustomer])
    else Answered(Reply(written, Some(o), [toCustomer, Emit(OwnerRoom(o.ownerId), OrderUpdated, Doc(o, true))] + rest))
  }

  /** The courier's emit of the status route: only when a courier is
      recorded and its document still exists, since the route tests the
      populated reference. */
  function CourierNotice(o: Order, refs: Refs): (r: seq<Emit>)
    ensures |r| <= 1
    ensures r != [] <==> o.deliveryBoyId.Some? && o.deliveryBoyId.value in refs.couriers
    ensures r != [] ==> r[0] == Emit(CourierRoom(o.deliveryBoyId.value), OrderUpdated, Doc(o, true))
  {
    if o.deliveryBoyId.Some? && o.deliveryBoyId.value in refs.couriers then
      [Emit(CourierRoom(o.deliveryBoyId.value), OrderUpdated, Doc(o, true))]
    else []
  }

  /** PUT /status/:orderId: any non-empty status string is written to any
      order, whatever its current state. The write stands even when the
      emits afterwards throw. */
  function UpdateStatus(store: Store, refs: Refs, orderId: Id, status: Option<string>, now: nat): (r: Answer)
    ensures !Present(status) ==> r.Refused? && r.error.BadRequest?
    ensures Present(status) && orderId !in store ==> r == Refused(NotFound)
    ensures Present(status) && orderId in store ==>
              && !r.Refused?
              && (r.Answered? <==> Intact(refs, store[orderId]))
              && r.After(store) == store[orderId := ApplyStatus(store[orderId], status.value, now)]
    ensures r.Answered? ==>
              && orderId in store && r.reply.order.Some?
              && r.reply.order.value == ApplyStatus(store[orderId], status.value, now)
              && r.reply.store == store[orderId := r.reply.order.value]
    ensures r.Answered? ==> var o := r.reply.order.value;
              RoomsFor(r.reply.emits, OrderUpdated)
                == {CustomerRoom(o.customerId), OwnerRoom(o.ownerId)}
                   + (if o.deliveryBoyId.Some? && o.deliveryBoyId.value in refs.couriers
                      then {CourierRoom(o.deliveryBoyId.value)} else {})
    ensures r.Answered? ==> forall k :: 0 <= k < |r.reply.emits| ==> r.reply.emits[k].payload == Doc(r.reply.order.value, true)
    ensures r.Crashed? ==>
              && orderId in store
              && RoomsFor(r.sent, OrderUpdated)
                 == (if store[orderId].customerId in refs.customers then {CustomerRoom(store[orderId].customerId)} else {})
  {
    if !Present(status) then Refused(BadRequest("Status is required."))
    else if orderId !in store then Refused(NotFound)
    else
      var o := ApplyStatus(store[orderId], status.value, now);
      var r := NotifyParties(store[orderId := o], o, refs, CourierNotice(o, refs));
      assert r.Answered? ==> r.reply.emits[0].event == OrderUpdated && r.reply.emits[1].event == OrderUpdated;
      assert r.Answered? && |r.reply.emits| > 2 ==> r.reply.emits[2].event == OrderUpdated;
      assert r.Crashed? && r.sent != [] ==> r.sent[0].event == OrderUpdated;
      r
  }

  /* ---------------------------------------------------------------
     Unguarded courier actions
     --------------------------------------------------------------- */

  /** PUT /assign/:orderId: overwrites the courier, Assigned and
      assignedAt on any order. The courier's room is named by the id sent,
      not by the populated reference, so it is told even when no such
      courier exists. */
  function Assign(store: Store, refs: Refs, orderId: Id, deliveryBoyId: Option<string>, now: nat): (r: Answer)
    ensures !Present(deliveryBoyId) ==> r.Refused? && r.error.BadRequest?
    ensures Present(deliveryBoyId) && orderId !in store ==> r == Refused(NotFound)
    ensures Present(deliveryBoyId) && orderId in store ==>
              && !r.Refused?
              && (r.Answered? <==> Intact(refs, store[orderId]))
              && r.After(store) == store[orderId := store[orderId].(deliveryBoyId := Some(deliveryBoyId.value),
                                                                    deliveryStatus := Assigned, assignedAt := Some(now))]
    ensures r.Answered? ==>
              && orderId in store && r.reply.order.Some?
              && r.reply.store == store[orderId := r.reply.order.value]
    ensures r.Answered? ==> var o := r.reply.order.value;
              && o.deliveryBoyId == Some(deliveryBoyId.value) && o.deliveryStatus == Assigned
              && o.assignedAt == Some(now)
              && o.(deliveryBoyId := store[orderId].deliveryBoyId, deliveryStatus := store[orderId].deliveryStatus,
                    assignedAt := store[orderId].assignedAt) == store[orderId]
    ensures r.Answered? ==>
              RoomsFor(r.reply.emits, OrderUpdated)
                == {CustomerRoom(store[orderId].customerId), OwnerRoom(store[orderId].ownerId),
                    CourierRoom(deliveryBoyId.value)}
    ensures r.Crashed? ==>
              && orderId in store
              && RoomsFor(r.sent, OrderUpdated)
                 == (if store[orderId].customerId in refs.customers then {CustomerRoom(store[orderId].customerId)} else {})
  {
    if !Present(deliveryBoyId) then Refused(BadRequest("Delivery boy ID is required."))
    else if orderId !in store then Refused(NotFound)
    else
      var o := store[orderId].(deliveryBoyId := Some(deliveryBoyId.value), deliveryStatus := Assigned,
                               assignedAt := Some(now));
      var r := NotifyParties(store[orderId := o], o, refs, [Emit(CourierRoom(deliveryBoyId.value), OrderUpdated, Doc(o, true))]);
      assert r.Answered? ==> r.reply.emits[0].event == OrderUpdated && r.reply.emits[1].event == OrderUpdated
                             && r.reply.emits[2].event == OrderUpdated && |r.reply.emits| == 3;
      assert r.Crashed? && r.sent != [] ==> r.sent[0].event == OrderUpdated;
      r
  }

  /** The fields the unguarded pickup writes. */
  function MarkPicked(o: Order, now: nat): Order {
    o.(status := DishPicked, deliveryStatus := PickedUp, pickedAt := Some(now))
  }

  /** The fields the unguarded delivered writes. */
  function MarkDelivered(o: Order, now: nat): Order {
    o.(status := Status.Delivered, deliveryStatus := DeliveryStatus.Delivered, deliveredAt := Some(now))
  }

  /** PUT /pickup/:orderId of this router: no state check; the update is
      broadcast to every socket, as `null` when the id is unknown, and the
      reply is a success either way. */
  function Pickup(store: Store, orderId: Id, now: nat): (r: Reply)
    ensures orderId in store ==> r.order.Some? && r.store == store[orderId := r.order.value]
    ensures orderId in store ==> var o := r.order.value;
              && o.status == DishPicked && o.deliveryStatus == PickedUp && o.pickedAt == Some(now)
              && o.(status := store[orderId].status, deliveryStatus := store[orderId].deliveryStatus,
                    pickedAt := store[orderId].pickedAt) == store[orderId]
    ensures orderId in store ==> r.emits == [Emit(Everyone, OrderUpdated, Doc(r.order.value, true))]
    ensures orderId !in store ==> r.store == store && r.order.None? && r.emits == [Emit(Everyone, OrderUpdated, NoOrder)]
  {
    if orderId in store then
      var o := MarkPicked(store[orderId], now);
      Reply(store[orderId := o], Some(o), [Emit(Everyone, OrderUpdated, Doc(o, true))])
    else Reply(store, None, [Emit(Everyone, OrderUpdated, NoOrder)])
  }

  /** PUT /delivered/:orderId of this router: no state check, broadcast to
      every socket, success either way. */
  function Deliver(store: Store, orderId: Id, now: nat): (r: Reply)
    ensures orderId in store ==> r.order.Some? && r.store == store[orderId := r.order.value]
    ensures orderId in store ==> var o := r.order.value;
              && o.status == Status.Delivered && o.deliveryStatus == DeliveryStatus.Delivered
              && o.deliveredAt == Some(now)
              && o.(status := store[orderId].status, deliveryStatus := store[orderId].deliveryStatus,
                    deliveredAt := store[orderId].deliveredAt) == store[orderId]
    ensures orderId in store ==> r.emits == [Emit(Everyone, OrderUpdated, Doc(r.order.value, true))]
    ensures orderId !in store ==> r.store == store && r.order.None? && r.emits == [Emit(Everyone, OrderUpdated, NoOrder)]
  {
    if orderId in store then
      var o := MarkDelivered(store[orderId], now);
      Reply(store[orderId := o], Some(o), [Emit(Everyone, OrderUpdated, Doc(o, true))])
    else Reply(store, None, [Emit(Everyone, OrderUpdated, NoOrder)])
  }

  /* ---------------------------------------------------------------
     Against the guarded routes
     --------------------------------------------------------------- */

  /** Every document the order refers to exists. */
  function Everything(o: Order): (refs: Refs)
    ensures Intact(refs, o)
    ensures o.deliveryBoyId.Some? ==> o.deliveryBoyId.value in refs.couriers
  {
    Refs({o.customerId}, {o.ownerId}, if o.deliveryBoyId.Some? then {o.deliveryBoyId.value} else {})
  }

  /** Where the guards would have allowed it, the unguarded routes write
      the same courier fields as the guarded ones: assign agrees with
      accept on an Unassigned order, delivered agrees with delivered on a
      PickedUp order, and pickup differs only in also setting `status`. */
  lemma AgreesWithGuardedRoutes(o: Order, courier: Id, now: nat)
    ensures o.deliveryStatus == Unassigned && courier != "" ==>
              Assign(map[o.id := o], Everything(o), o.id, Some(courier), now).reply.order
                == Some(DeliveryRoutes.AcceptOrder(o, courier, now).value)
    ensures o.deliveryStatus == Assigned ==>
              Pickup(map[o.id := o], o.id, now).order
                == Some(DeliveryRoutes.PickupOrder(o, now).value.(status := DishPicked))
    ensures o.deliveryStatus == PickedUp ==>
              Deliver(map[o.id := o], o.id, now).order == Some(DeliveryRoutes.DeliverOrder(o, now).value)
  {
  }

  /** The owner marking a new order "Dish Picked by Delivery Boy" records
      PickedUp and pickedAt while no courier was ever recorded, which the
      guarded routes never produce. */
  lemma StatusRouteLeavesPickupWithoutCourier(id: Id, c: Id, w: Id, items: seq<Item>, t: int, a: string, p: Payment, now: nat)
    ensures var o := FreshOrder(id, c, w, items, t, a, p);
            var r := UpdateStatus(map[id := o], Everything(o), id, Some(PickedLabel), now);
            && r.Answered? && r.reply.order.value.deliveryStatus == PickedUp
            && r.reply.order.value.deliveryBoyId.None?
            && !DeliveryRoutes.CourierConsistent(r.reply.order.value)
  {
  }

  /** Assign moves a picked-up order back to Assigned and replaces its
      courier. */
  lemma AssignMovesBackwards(o: Order, courier: Id, now: nat)
    requires o.deliveryStatus == PickedUp && courier != ""
    ensures var r := Assign(map[o.id := o], Everything(o), o.id, Some(courier), now);
            && r.Answered? && r.reply.order.value.deliveryStatus == Assigned
            && DeliveryRoutes.Rank(r.reply.order.value.deliveryStatus) < DeliveryRoutes.Rank(o.deliveryStatus)
  {
  }

  /** The unguarded delivered finishes an order nobody accepted. */
  lemma DeliverWithoutCourier(id: Id, c: Id, w: Id, items: seq<Item>, t: int, a: string, p: Payment, now: nat)
    ensures var r := Deliver(map[id := FreshOrder(id, c, w, items, t, a, p)], id, now);
            && r.order.Some? && r.order.value.deliveryStatus == DeliveryStatus.Delivered
            && r.order.value.deliveryBoyId.None?
            && !DeliveryRoutes.CourierConsistent(r.order.value)
  {
  }
}

=== FILE: order_views.dfy ===
/** The list operation the three order pages share when an updated order
    arrives: `list.map(o => o._id === id ? updated : o)`. The id is the
    updated order's own for socket events and the requested one for a
    route's answer. */
module OrderViews {
  import opened Orders

  function ReplaceById(os: seq<Order>, id: Id, u: Order): (r: seq<Order>)
    ensures |r| == |os|
    ensures forall k :: 0 <= k < |os| && os[k].id == id ==> r[k] == u
    ensures forall k :: 0 <= k < |os| && os[k].id != id ==> r[k] == os[k]
  {
    if os == [] then [] else [if os[0].id == id then u else os[0]] + ReplaceById(os[1..], id, u)
  }

  /** With an update that keeps its id, every entry keeps its id. */
  lemma ReplaceByIdKeepsIds(os: seq<Order>, u: Order)
    ensures forall k :: 0 <= k < |os| ==> ReplaceById(os, u.id, u)[k].id == os[k].id
  {
  }

  /** Replacing twice with the same order is replacing once; a later
      version of the same order overrides an earlier one. */
  lemma ReplaceByIdAbsorbs(os: seq<Order>, u: Order, v: Order)
    requires u.id == v.id
    ensures ReplaceById(ReplaceById(os, u.id, u), v.id, v) == ReplaceById(os, v.id, v)
  {
  }

  /** An order the list does not hold leaves the list as it was: a merge
      never adds an entry. */
  lemma {:induction false} ReplaceByIdUnknown(os: seq<Order>, id: Id, u: Order)
    requires forall k :: 0 <= k < |os| ==> os[k].id != id
    ensures ReplaceById(os, id, u) == os
  {
    if os != [] {
      ReplaceByIdUnknown(os[1..], id, u);
    }
  }

  /** A listed order is found again after the merge: as the update when it
      has that id, unchanged otherwise. */
  lemma ReplaceByIdKeepsMember(os: seq<Order>, id: Id, u: Order, x: Order)
    requires x in os
    ensures (if x.id == id then u else x) in ReplaceById(os, id, u)
  {
    var k :| 0 <= k < |os| && os[k] == x;
    assert ReplaceById(os, id, u)[k] == (if x.id == id then u else x);
  }
}

=== FILE: owner_orders.dfy ===
/** The owner's order page, frontend/src/components/OwnerOrders.js: the
    status tabs, the one progress button an order offers, the owner's
    status change through the order router, and the two socket listeners.
    The page's socket never joins a room, so it only hears broadcasts. */
module OwnerOrders {
  import opened Wrappers
  import opened Orders
  import opened OrderViews
  import Seqs
  import OrderRoutes
  import DeliveryRoutes
  import CustomerDashboard

  /* ---------------------------------------------------------------
     Tabs and buttons
     --------------------------------------------------------------- */

  /** The tab labels, in the order the page shows them. */
  const Tabs: seq<string> := ["All", "Pending", "Preparing", PickedLabel]

  /** The orders a tab lists: every order under "All", otherwise the
      orders whose status string is the tab's label. */
  function FilterOrders(orders: seq<Order>, filter: string): (r: seq<Order>)
    ensures forall o :: o in r <==> o in orders && (filter == "All" || StatusName(o.status) == filter)
    ensures |r| <= |orders|
    ensures filter == "All" ==> r == orders
  {
    if filter == "All" then orders
    else Seqs.Filter(orders, (o: Order) => StatusName(o.status) == filter)
  }

  /** A delivered or cancelled order has no tab of its own: it is listed
      only under "All". */
  lemma FinishedOnlyUnderAll(orders: seq<Order>, o: Order, k: nat)
    requires o in orders && (o.status == Status.Delivered || o.status == Cancelled)
    requires 0 < k < |Tabs|
    ensures o in FilterOrders(orders, Tabs[0])
    ensures o !in FilterOrders(orders, Tabs[k])
  {
    assert Tabs[0] == "All";
    assert Tabs[k] == "Pending" || Tabs[k] == "Preparing" || Tabs[k] == PickedLabel;
    assert StatusName(o.status) == "Delivered" || StatusName(o.status) == "Cancelled";
  }

  /** An order in one of the three working states is listed under exactly
      one of the status tabs. */
  lemma WorkingUnderOneTab(orders: seq<Order>, o: Order, i: nat, j: nat)
    requires o in orders && (o.status == Pending || o.status == Preparing || o.status == DishPicked)
    requires 0 < i < |Tabs| && 0 < j < |Tabs|
    requires o in FilterOrders(orders, Tabs[i]) && o in FilterOrders(orders, Tabs[j])
    ensures i == j
  {
  }

  /** The progress button: "Preparing" on a pending order, the picked-up
      label on a preparing one, nothing otherwise. */
  function NextStatus(o: Order): (r: Option<string>)
    ensures r == Some("Preparing") <==> StatusName(o.status) == "Pending"
    ensures r == Some(PickedLabel) <==> StatusName(o.status) == "Preparing"
  {
    var s := StatusName(o.status);
    if s == PickedLabel then None
    else if s == "Pending" then Some("Preparing")
    else if s == "Preparing" then Some(PickedLabel)
    else None
  }

  /** Each button moves the order exactly one step along the customer's
      timeline. */
  lemma NextStatusAdvancesTimeline(o: Order)
    requires NextStatus(o).Some?
    ensures CustomerDashboard.TimelineIndex(NextStatus(o)) == CustomerDashboard.StatusIndex(o) + 1
  {
  }

  /* ---------------------------------------------------------------
     The status change
     --------------------------------------------------------------- */

  datatype Outcome = Outcome(store: Store, orders: seq<Order>, emits: seq<Emit>)

  /** Pressing a button: the status route's answer (the populated order)
      replaces the entry with the requested id. A refused request changes
      nothing on the page, and neither does one that fails after writing
      (the order's customer or owner document is gone), although the
      store has changed. */
  function ChangeStatus(store: Store, refs: Refs, orders: seq<Order>, id: Id, newStatus: string, now: nat): (r: Outcome)
    ensures newStatus == "" || id !in store ==> r.store == store && r.orders == orders && r.emits == []
    ensures newStatus != "" && id in store ==>
              && r.store == store[id := OrderRoutes.ApplyStatus(store[id], newStatus, now)]
              && StatusName(r.store[id].status) == newStatus
    ensures newStatus != "" && id in store && Intact(refs, store[id]) ==> r.orders == ReplaceById(orders, id, r.store[id])
    ensures newStatus != "" && id in store && !Intact(refs, store[id]) ==> r.orders == orders
  {
    var res := OrderRoutes.UpdateStatus(store, refs, id, if newStatus == "" then None else Some(newStatus), now);
    Outcome(res.After(store), if res.Answered? then ReplaceById(orders, id, res.reply.order.value) else orders, res.Emitted())
  }

  /** Following the buttons from a fresh order takes two presses to the
      picked-up label, after which the order offers no button and its
      courier track reads PickedUp, although no courier was ever assigned
      (nothing on the owner's side checks for one). */
  lemma {:induction false} ButtonsPickUpWithoutCourier(store: Store, refs: Refs, orders: seq<Order>, id: Id, t1: nat, t2: nat)
    requires id in store && store[id].status == Pending && store[id].deliveryBoyId.None?
    ensures var first := ChangeStatus(store, refs, orders, id, NextStatus(store[id]).value, t1);
            && NextStatus(first.store[id]) == Some(PickedLabel)
            && var second := ChangeStatus(first.store, refs, first.orders, id, PickedLabel, t2);
               && NextStatus(second.store[id]).None?
               && second.store[id].deliveryStatus == PickedUp
               && second.store[id].deliveryBoyId.None?
               && second.store[id].pickedAt == Some(t2)
  {
    var first := ChangeStatus(store, refs, orders, id, NextStatus(store[id]).value, t1);
    assert NextStatus(store[id]) == Some("Preparing");
    assert StatusName(first.store[id].status) == "Preparing";
    var second := ChangeStatus(first.store, refs, first.orders, id, PickedLabel, t2);
    assert StatusName(second.store[id].status) == PickedLabel;
  }

  /* ---------------------------------------------------------------
     Socket listeners
     --------------------------------------------------------------- */

  /** Both listeners compare the payload's `ownerId` with the logged-in
      owner's id string: a populated payload carries an object there and
      never matches, and a `null` payload makes the listener throw. */
  predicate Mine(p: Payload, me: Id) {
    p.Doc? && !p.populated && p.order.ownerId == me
  }

  /** `new-order`: a matching order is put in front. */
  function MergeNew(orders: seq<Order>, me: Id, p: Payload): (r: seq<Order>)
    ensures Mine(p, me) ==> r == [p.order] + orders
    ensures !Mine(p, me) ==> r == orders
  {
    if Mine(p, me) then [p.order] + orders else orders
  }

  /** `order-updated`: a matching order replaces the entry with its id. */
  function MergeUpdated(orders: seq<Order>, me: Id, p: Payload): (r: seq<Order>)
    ensures |r| == |orders|
    ensures Mine(p, me) ==> forall k :: 0 <= k < |orders| ==>
              r[k] == if orders[k].id == p.order.id then p.order else orders[k]
    ensures !Mine(p, me) ==> r == orders
  {
    if Mine(p, me) then ReplaceById(orders, p.order.id, p.order) else orders
  }

  /** A socket hears broadcasts and the rooms it has joined. */
  predicate Hears(joined: set<Room>, room: Room) {
    room == Everyone || room in joined
  }

  /** An event one of the two listeners acts on. */
  predicate Merges(me: Id, joined: set<Room>, e: Emit) {
    Hears(joined, e.room) && (e.event == NewOrder || e.event == OrderUpdated) && Mine(e.payload, me)
  }

  /** What a list of published events does to the page's list. */
  function Receive(orders: seq<Order>, me: Id, joined: set<Room>, emits: seq<Emit>): (r: seq<Order>)
    ensures (forall k :: 0 <= k < |emits| ==> !Merges(me, joined, emits[k])) ==> r == orders
    ensures (forall k :: 0 <= k < |emits| ==> emits[k].event != NewOrder) ==> |r| == |orders|
    ensures |emits| == 1 ==> r == ReceiveOne(orders, me, joined, emits[0])
    decreases |emits|
  {
    if emits == [] then orders
    else Receive(ReceiveOne(orders, me, joined, emits[0]), me, joined, emits[1..])
  }

  /** One event: `new-order` and `order-updated` go to their listeners
      when the page hears the room; anything else is ignored. */
  function ReceiveOne(orders: seq<Order>, me: Id, joined: set<Room>, e: Emit): (r: seq<Order>)
    ensures !Merges(me, joined, e) ==> r == orders
    ensures Merges(me, joined, e) && e.event == NewOrder ==> r == [e.payload.order] + orders
    ensures Merges(me, joined, e) && e.event == OrderUpdated ==> r == ReplaceById(orders, e.payload.order.id, e.payload.order)
  {
    if !Hears(joined, e.room) then orders
    else if e.event == NewOrder then MergeNew(orders, me, e.payload)
    else if e.event == OrderUpdated then MergeUpdated(orders, me, e.payload)
    else orders
  }

  /** Events are handled one after another: receiving two batches is
      receiving the first, then the second. */
  lemma {:induction false} ReceiveAppend(orders: seq<Order>, me: Id, joined: set<Room>, a: seq<Emit>, b: seq<Emit>)
    ensures Receive(orders, me, joined, a + b) == Receive(Receive(orders, me, joined, a), me, joined, b)
    decreases |a|
  {
    if a != [] {
      assert (a + b)[0] == a[0] && (a + b)[1..] == a[1..] + b;
      ReceiveAppend(ReceiveOne(orders, me, joined, a[0]), me, joined, a[1..], b);
    } else {
      assert a + b == b;
    }
  }

  /** The rooms the page joins: none. */
  const PageRooms: set<Room> := {}

  /** Events that never reach the page's listeners: every broadcast carries
      a populated order or nothing. */
  predicate BroadcastsUnmergeable(emits: seq<Emit>) {
    forall k :: 0 <= k < |emits| && emits[k].room == Everyone ==>
      emits[k].payload == NoOrder || (emits[k].payload.Doc? && emits[k].payload.populated)
  }

  /** Whatever the server publishes under that condition, the page's list
      does not change. */
  lemma {:induction false} PageIgnores(orders: seq<Order>, me: Id, emits: seq<Emit>)
    requires BroadcastsUnmergeable(emits)
    ensures Receive(orders, me, PageRooms, emits) == orders
  {
    forall k | 0 <= k < |emits|
      ensures !Merges(me, PageRooms, emits[k])
    {
      if Hears(PageRooms, emits[k].room) {
        assert emits[k].room == Everyone;
      }
    }
  }

  /** Every route that publishes order events meets that condition: the
      create and courier routes send to rooms only, and the two broadcasting
      routes send the populated order or `null`. So the page never updates
      live; only a refresh shows new orders or a courier's progress. */
  lemma RoutesNeverReachPage(store: Store, id: Id, now: nat, q: OrderRoutes.CreateRequest, courier: Option<string>)
    ensures id !in store && OrderRoutes.Create(store, id, q).Ok? ==>
              BroadcastsUnmergeable(OrderRoutes.Create(store, id, q).value.emits)
    ensures BroadcastsUnmergeable(OrderRoutes.Pickup(store, id, now).emits)
    ensures BroadcastsUnmergeable(OrderRoutes.Deliver(store, id, now).emits)
    ensures DeliveryRoutes.Accept(store, id, courier, now).Ok? ==>
              BroadcastsUnmergeable(DeliveryRoutes.Accept(store, id, courier, now).value.emits)
    ensures DeliveryRoutes.Pickup(store, id, now).Ok? ==>
              BroadcastsUnmergeable(DeliveryRoutes.Pickup(store, id, now).value.emits)
  {
    CreateUnmergeable(store, id, q);
    RouterPickupUnmergeable(store, id, now);
    RouterDeliverUnmergeable(store, id, now);
    CourierAcceptUnmergeable(store, id, courier, now);
    CourierPickupUnmergeable(store, id, now);
  }

  lemma CreateUnmergeable(store: Store, id: Id, q: OrderRoutes.CreateRequest)
    ensures id !in store && OrderRoutes.Create(store, id, q).Ok? ==>
              BroadcastsUnmergeable(OrderRoutes.Create(store, id, q).value.emits)
  {
  }

  lemma RouterPickupUnmergeable(store: Store, id: Id, now: nat)
    ensures BroadcastsUnmergeable(OrderRoutes.Pickup(store, id, now).emits)
  {
  }

  lemma RouterDeliverUnmergeable(store: Store, id: Id, now: nat)
    ensures BroadcastsUnmergeable(OrderRoutes.Deliver(store, id, now).emits)
  {
  }

  lemma CourierAcceptUnmergeable(store: Store, id: Id, courier: Option<string>, now: nat)
    ensures DeliveryRoutes.Accept(store, id, courier, now).Ok? ==>
              BroadcastsUnmergeable(DeliveryRoutes.Accept(store, id, courier, now).value.emits)
  {
  }

  lemma CourierPickupUnmergeable(store: Store, id: Id, now: nat)
    ensures DeliveryRoutes.Pickup(store, id, now).Ok? ==>
              BroadcastsUnmergeable(DeliveryRoutes.Pickup(store, id, now).value.emits)
  {
  }

  /** Had the page joined its owner room, the plain document the create
      route sends there would be put in front of the list. */
  lemma JoinedPageWouldGetNewOrder(store: Store, id: Id, q: OrderRoutes.CreateRequest, orders: seq<Order>, me: Id)
    requires id !in store && q.ownerId == Some(me) && OrderRoutes.Create(store, id, q).Ok?
    ensures var reply := OrderRoutes.Create(store, id, q).value;
            Receive(orders, me, {OwnerRoom(me)}, reply.emits) == [reply.order.value] + orders
  {
    var reply := OrderRoutes.Create(store, id, q).value;
    var o := reply.order.value;
    assert reply.emits == [ Emit(OwnerRoom(me), NewOrder, Doc(o, false)),
                            Emit(CourierPool, AvailableOrder, PoolNoticeOf(o)) ];
    var after := MergeNew(orders, me, Doc(o, false));
    assert reply.emits[1..][1..] == [];
    assert Receive(orders, me, {OwnerRoom(me)}, reply.emits) == Receive(after, me, {OwnerRoom(me)}, reply.emits[1..]);
  }

  /** Had the page joined its owner room, the plain document the courier
      pickup route sends there would replace the order's entry. */
  lemma JoinedPageWouldSeePickup(store: Store, id: Id, now: nat, orders: seq<Order>, me: Id)
    requires id in store && store[id].id == id && store[id].ownerId == me
    requires DeliveryRoutes.Pickup(store, id, now).Ok?
    ensures var reply := DeliveryRoutes.Pickup(store, id, now).value;
            Receive(orders, me, {OwnerRoom(me)}, reply.emits) == ReplaceById(orders, id, reply.order.value)
  {
    var reply := DeliveryRoutes.Pickup(store, id, now).value;
    var o := reply.order.value;
    assert o.ownerId == me && o.id == id;
    assert reply.emits == DeliveryRoutes.Fanout(o, CourierRoomOf(o), OrderUpdated);
    OwnerHearsFanout(orders, o, CourierRoomOf(o), OrderUpdated);
  }

  /** Of the three events a courier action publishes, a page that joined
      the owner room merges exactly the one sent there. */
  lemma OwnerHearsFanout(orders: seq<Order>, o: Order, courierRoom: Room, e: EventName)
    requires courierRoom.CourierRoom?
    ensures Receive(orders, o.ownerId, {OwnerRoom(o.ownerId)}, DeliveryRoutes.Fanout(o, courierRoom, e))
              == ReplaceById(orders, o.id, o)
  {
    var me := o.ownerId;
    var emits := DeliveryRoutes.Fanout(o, courierRoom, e);
    var after := MergeUpdated(orders, me, Doc(o, false));
    assert after == ReplaceById(orders, o.id, o);
    assert Receive(orders, me, {OwnerRoom(me)}, emits) == Receive(orders, me, {OwnerRoom(me)}, emits[1..]);
    assert Receive(orders, me, {OwnerRoom(me)}, emits[1..]) == Receive(after, me, {OwnerRoom(me)}, emits[2..]);
    assert emits[2..][1..] == [];
  }

  /** A populated order is never merged, joined rooms or not: the status
      route's own updates reach the page only through its response. */
  lemma PopulatedNeverMerges(orders: seq<Order>, me: Id, joined: set<Room>, o: Order, room: Room, e: EventName)
    ensures Receive(orders, me, joined, [Emit(room, e, Doc(o, true))]) == orders
  {
    assert !Merges(me, joined, Emit(room, e, Doc(o, true)));
  }
}

=== FILE: owner_routes.dfy ===
/** The owner handlers of backend/routes/ownerRoutes.js: register with its
    owner-code choice, login by e-mail or code, add-dish, the cascade that
    deletes an owner's dishes with the owner, orphan cleanup, the public
    dish listing and the combined hotel/dish search. Owners and dishes are
    sequences in store order. */
module OwnerRoutes {
  import opened Wrappers
  import opened Text
  import opened Validators
  import opened Seqs
  import opened Catalog

  /** A stored owner. The schema trims `hotelName` and lower-cases `email`. */
  datatype Owner = Owner(id: Id, hotelName: string, email: string, phone: string, password: Digest,
                         ownerCode: string, address: string)

  predicate IsOwnerId(owners: seq<Owner>, id: Id) {
    exists k :: 0 <= k < |owners| && owners[k].id == id
  }

  function FindOwner(owners: seq<Owner>, id: Id): (r: Option<Owner>)
    ensures r.Some? <==> IsOwnerId(owners, id)
    ensures r.Some? ==> r.value in owners && r.value.id == id
  {
    if owners == [] then None
    else if owners[0].id == id then Some(owners[0])
    else FindOwner(owners[1..], id)
  }

  predicate CodeTaken(owners: seq<Owner>, code: string) {
    exists k :: 0 <= k < |owners| && owners[k].ownerCode == code
  }

  /* ---------------------------------------------------------------
     Register
     --------------------------------------------------------------- */

  datatype OwnerRegistration = OwnerRegistration(hotelName: Option<string>, phone: Option<string>, email: Option<string>,
                                                 password: Option<string>, ownerCode: Option<string>)

  /** The codes the handler tries, in order: the trimmed code the caller
      sent, when that is non-empty, then the generator's codes one after
      another. `codes` stands for the successive `OWN-XXXXXX` values the
      random generator returns. */
  function Candidates(provided: Option<string>, codes: seq<string>): seq<string> {
    (if provided.Some? && Trim(provided.value) != [] then [Trim(provided.value)] else []) + codes
  }

  /** The first candidate no owner holds. */
  function FirstFree(owners: seq<Owner>, cands: seq<string>): (r: Option<nat>)
    ensures r.Some? ==> r.value < |cands| && !CodeTaken(owners, cands[r.value])
    ensures r.Some? ==> forall k :: 0 <= k < r.value ==> CodeTaken(owners, cands[k])
    ensures r.None? ==> forall k :: 0 <= k < |cands| ==> CodeTaken(owners, cands[k])
  {
    if cands == [] then None
    else if !CodeTaken(owners, cands[0]) then Some(0)
    else match FirstFree(owners, cands[1..])
      case Some(k) => Some(k + 1)
      case None => None
  }

  predicate EmailTaken(owners: seq<Owner>, email: string) {
    exists k :: 0 <= k < |owners| && owners[k].email == ToLower(email)
  }

  predicate PhoneTaken(owners: seq<Owner>, phone: string) {
    exists k :: 0 <= k < |owners| && owners[k].phone == phone
  }

  /** What the owner schema demands of the stored fields. */
  predicate OwnerSchemaOk(hotelName: string, email: string, phone: string) {
    NameOk(Trim(hotelName)) && EmailWithAt(ToLower(email)) && PhoneOk(phone)
  }

  /** POST /register. Four fields are required; an e-mail or a phone that
      an owner already has is refused; the code is the first free
      candidate; the owner schema checks the hotel name, e-mail and phone
      patterns. */
  function Register(owners: seq<Owner>, id: Id, q: OwnerRegistration, codes: seq<string>): (r: Result<seq<Owner>, Error>)
    requires exists k :: 0 <= k < |codes| && !CodeTaken(owners, codes[k])
    ensures !(Present(q.hotelName) && Present(q.phone) && Present(q.email) && Present(q.password)) ==> r == Err(BadRequest("fields"))
    ensures r.Ok? <==> Present(q.hotelName) && Present(q.phone) && Present(q.email) && Present(q.password)
                       && !EmailTaken(owners, q.email.value) && !PhoneTaken(owners, q.phone.value)
                       && OwnerSchemaOk(q.hotelName.value, q.email.value, q.phone.value)
    ensures r.Ok? ==> |r.value| == |owners| + 1 && r.value[..|owners|] == owners
    ensures r.Ok? ==> var o := r.value[|owners|];
              && o.id == id && o.hotelName == Trim(q.hotelName.value) && o.email == ToLower(q.email.value)
              && o.phone == q.phone.value && o.password == Digest(q.password.value) && o.address == ""
    ensures r.Ok? ==> !CodeTaken(owners, r.value[|owners|].ownerCode)
    ensures r.Ok? ==> r.value[|owners|].ownerCode in Candidates(q.ownerCode, codes)
    ensures r.Ok? && q.ownerCode.Some? && Trim(q.ownerCode.value) != [] && !CodeTaken(owners, Trim(q.ownerCode.value)) ==>
              r.value[|owners|].ownerCode == Trim(q.ownerCode.value)
  {
    if !(Present(q.hotelName) && Present(q.phone) && Present(q.email) && Present(q.password)) then Err(BadRequest("fields"))
    else if EmailTaken(owners, q.email.value) then Err(BadRequest("email exists"))
    else if PhoneTaken(owners, q.phone.value) then Err(BadRequest("phone exists"))
    else
      var cands := Candidates(q.ownerCode, codes);
      assert forall k :: 0 <= k < |codes| ==> codes[k] == cands[|cands| - |codes| + k];
      var i := FirstFree(owners, cands);
      assert i.Some?;
      if !OwnerSchemaOk(q.hotelName.value, q.email.value, q.phone.value) then Err(SchemaRejected("owner"))
      else Ok(owners + [Owner(id, Trim(q.hotelName.value), ToLower(q.email.value), q.phone.value,
                              Digest(q.password.value), cands[i.value], "")])
  }

  /** Owner codes stay unique: registering keeps every code distinct. */
  lemma RegisterKeepsCodesUnique(owners: seq<Owner>, id: Id, q: OwnerRegistration, codes: seq<string>)
    requires exists k :: 0 <= k < |codes| && !CodeTaken(owners, codes[k])
    requires forall i, j :: 0 <= i < j < |owners| ==> owners[i].ownerCode != owners[j].ownerCode
    requires Register(owners, id, q, codes).Ok?
    ensures var os := Register(owners, id, q, codes).value;
            forall i, j :: 0 <= i < j < |os| ==> os[i].ownerCode != os[j].ownerCode
  {
    var os := Register(owners, id, q, codes).value;
    forall i, j | 0 <= i < j < |os|
      ensures os[i].ownerCode != os[j].ownerCode
    {
      if j == |owners| {
        assert os[i] == owners[i];
      } else {
        assert os[i] == owners[i] && os[j] == owners[j];
      }
    }
  }

  /* ---------------------------------------------------------------
     Login
     --------------------------------------------------------------- */

  /** The `$or` lookup: the first owner in store order whose e-mail is the
      given one or whose code is the given one; an absent or empty
      alternative is not part of the query. */
  function FindLogin(owners: seq<Owner>, email: Option<string>, code: Option<string>): (r: Option<nat>)
    ensures r.Some? ==> r.value < |owners|
    ensures r.Some? ==> (Present(email) && owners[r.value].email == ToLower(email.value))
                        || (Present(code) && owners[r.value].ownerCode == code.value)
    ensures r.None? ==> forall k :: 0 <= k < |owners| ==>
              !(Present(email) && owners[k].email == ToLower(email.value)) && !(Present(code) && owners[k].ownerCode == code.value)
  {
    if owners == [] then None
    else if (Present(email) && owners[0].email == ToLower(email.value)) || (Present(code) && owners[0].ownerCode == code.value) then Some(0)
    else match FindLogin(owners[1..], email, code)
      case Some(k) => Some(k + 1)
      case None => None
  }

  /** POST /login: a password and at least one of e-mail and code. */
  function Login(owners: seq<Owner>, email: Option<string>, code: Option<string>, password: Option<string>): (r: Result<Owner, Error>)
    ensures (!Present(email) && !Present(code)) || !Present(password) ==> r == Err(BadRequest("fields"))
    ensures r.Ok? <==> (Present(email) || Present(code)) && Present(password) && FindLogin(owners, email, code).Some?
                       && owners[FindLogin(owners, email, code).value].password == Digest(password.value)
    ensures r.Ok? ==> r.value in owners
  {
    if (!Present(email) && !Present(code)) || !Present(password) then Err(BadRequest("fields"))
    else match FindLogin(owners, email, code)
      case None => Err(BadRequest("credentials"))
      case Some(k) =>
        if owners[k].password != Digest(password.value) then Err(BadRequest("credentials"))
        else Ok(owners[k])
  }

  /** An owner can log in with the code alone, whatever e-mail field the
      form leaves empty, once the code is unique. */
  lemma LoginByCode(owners: seq<Owner>, k: nat, p: string)
    requires k < |owners| && owners[k].ownerCode != [] && owners[k].password == Digest(p) && p != []
    requires forall i, j :: 0 <= i < j < |owners| ==> owners[i].ownerCode != owners[j].ownerCode
    ensures Login(owners, None, Some(owners[k].ownerCode), Some(p)) == Ok(owners[k])
  {
    var r := FindLogin(owners, None, Some(owners[k].ownerCode));
    assert r.Some?;
  }

  /* ---------------------------------------------------------------
     Dishes
     --------------------------------------------------------------- */

  datatype DishRequest = DishRequest(ownerId: Option<Id>, name: Option<string>, price: Option<int>,
                                     image: Option<string>, about: Option<string>)

  /** POST /add-dish: owner id, name and a non-zero price are required, the
      owner must exist, and the Dish schema has the last word. */
  function AddDish(owners: seq<Owner>, dishes: seq<Dish>, id: Id, q: DishRequest): (r: Result<seq<Dish>, Error>)
    ensures !(Present(q.ownerId) && Present(q.name) && NonZero(q.price)) ==> r == Err(BadRequest("fields"))
    ensures Present(q.ownerId) && Present(q.name) && NonZero(q.price) && !IsOwnerId(owners, q.ownerId.value) ==> r == Err(NotFound)
    ensures r.Ok? ==> IsOwnerId(owners, q.ownerId.value)
    ensures r.Ok? ==> |r.value| == |dishes| + 1 && r.value[..|dishes|] == dishes
    ensures r.Ok? ==> DishValid(r.value[|dishes|]) && r.value[|dishes|].ownerId == q.ownerId.value
    ensures r.Ok? ==> var c := CastDish(id, q.ownerId.value, q.name.value, q.price.value, q.image, q.about);
              c.Ok? && r.value[|dishes|] == c.value
    ensures Present(q.ownerId) && Present(q.name) && NonZero(q.price) && IsOwnerId(owners, q.ownerId.value) ==>
              (r.Ok? <==> CastDish(id, q.ownerId.value, q.name.value, q.price.value, q.image, q.about).Ok?)
  {
    if !(Present(q.ownerId) && Present(q.name) && NonZero(q.price)) then Err(BadRequest("fields"))
    else if FindOwner(owners, q.ownerId.value).None? then Err(NotFound)
    else
      var d :- CastDish(id, q.ownerId.value, q.name.value, q.price.value, q.image, q.about);
      Ok(dishes + [d])
  }

  /** Every dish refers to a stored owner. */
  predicate NoDangling(owners: seq<Owner>, dishes: seq<Dish>) {
    forall k :: 0 <= k < |dishes| ==> IsOwnerId(owners, dishes[k].ownerId)
  }

  /** DELETE /owner/:id: first every dish of that owner, then the owner. */
  function DeleteOwner(owners: seq<Owner>, dishes: seq<Dish>, id: Id): (r: (seq<Owner>, seq<Dish>))
    ensures !IsOwnerId(r.0, id)
    ensures forall d :: d in r.1 <==> d in dishes && d.ownerId != id
    ensures forall o :: o in r.0 <==> o in owners && o.id != id
  {
    var os := Filter(owners, (o: Owner) => o.id != id);
    assert forall k :: 0 <= k < |os| ==> os[k] in os;
    (os, Filter(dishes, (d: Dish) => d.ownerId != id))
  }

  /** The cascade keeps the catalog free of dangling owner references. */
  lemma DeleteOwnerKeepsNoDangling(owners: seq<Owner>, dishes: seq<Dish>, id: Id)
    requires NoDangling(owners, dishes)
    ensures NoDangling(DeleteOwner(owners, dishes, id).0, DeleteOwner(owners, dishes, id).1)
  {
    var (os, ds) := DeleteOwner(owners, dishes, id);
    forall k | 0 <= k < |ds|
      ensures IsOwnerId(os, ds[k].ownerId)
    {
      var d := ds[k];
      assert d in dishes && d.ownerId != id;
      var i :| 0 <= i < |dishes| && dishes[i] == d;
      var j :| 0 <= j < |owners| && owners[j].id == d.ownerId;
      assert owners[j] in os;
    }
  }

  /** DELETE /cleanup-orphan-dishes: every dish whose owner id is not a
      stored owner's goes. */
  function CleanupOrphans(owners: seq<Owner>, dishes: seq<Dish>): (r: seq<Dish>)
    ensures NoDangling(owners, r)
    ensures forall d :: d in dishes && IsOwnerId(owners, d.ownerId) ==> d in r
    ensures forall d :: d in r ==> d in dishes
    ensures NoDangling(owners, dishes) ==> r == dishes
  {
    var r := Filter(dishes, (d: Dish) => IsOwnerId(owners, d.ownerId));
    assert forall k :: 0 <= k < |r| ==> r[k] in r;
    r
  }

  /** Cleaning up twice removes nothing more. */
  lemma CleanupIdempotent(owners: seq<Owner>, dishes: seq<Dish>)
    ensures CleanupOrphans(owners, CleanupOrphans(owners, dishes)) == CleanupOrphans(owners, dishes)
  {
  }

  /* ---------------------------------------------------------------
     Listings
     --------------------------------------------------------------- */

  /** The hotel name a dish shows: its owner's, or the fallback when the
      owner is gone (or has an empty name). */
  function HotelOf(owners: seq<Owner>, d: Dish, fallback: string): (r: string)
    ensures IsOwnerId(owners, d.ownerId) && FindOwner(owners, d.ownerId).value.hotelName != [] ==>
              r == FindOwner(owners, d.ownerId).value.hotelName
    ensures !IsOwnerId(owners, d.ownerId) ==> r == fallback
  {
    match FindOwner(owners, d.ownerId)
    case Some(o) => if o.hotelName != [] then o.hotelName else fallback
    case None => fallback
  }

  /** An entry of GET /all-dishes. */
  datatype Listing = Listing(id: Id, ownerId: Option<Id>, hotelName: string, name: string, price: int, image: string, about: Option<string>)

  function ListingOf(owners: seq<Owner>, d: Dish): Listing {
    Listing(d.id, if IsOwnerId(owners, d.ownerId) then Some(d.ownerId) else None,
            HotelOf(owners, d, "Unknown Hotel"), d.name, d.price, d.image, d.about)
  }

  /** GET /all-dishes: every dish, in store order, with its hotel's name. */
  function AllDishes(owners: seq<Owner>, dishes: seq<Dish>): (r: seq<Listing>)
    ensures |r| == |dishes|
    ensures forall k :: 0 <= k < |dishes| ==> r[k].id == dishes[k].id && r[k].name == dishes[k].name
                                              && r[k].price == dishes[k].price
    ensures forall k :: 0 <= k < |dishes| ==> (r[k].ownerId.Some? <==> IsOwnerId(owners, dishes[k].ownerId))
    ensures forall k :: 0 <= k < |dishes| && !IsOwnerId(owners, dishes[k].ownerId) ==> r[k].hotelName == "Unknown Hotel"
    ensures forall k :: 0 <= k < |dishes| && IsOwnerId(owners, dishes[k].ownerId) ==>
              && r[k].ownerId == Some(dishes[k].ownerId)
              && r[k].hotelName == (if FindOwner(owners, dishes[k].ownerId).value.hotelName != []
                                    then FindOwner(owners, dishes[k].ownerId).value.hotelName else "Unknown Hotel")
    ensures forall k :: 0 <= k < |dishes| ==> r[k].image == dishes[k].image && r[k].about == dishes[k].about
  {
    if dishes == [] then [] else [ListingOf(owners, dishes[0])] + AllDishes(owners, dishes[1..])
  }

  datatype Hit = HotelHit(name: string, id: Id) | DishHit(name: string, price: int, image: string, hotelName: string, id: Id)

  function HotelHitOf(o: Owner): Hit {
    HotelHit(o.hotelName, o.id)
  }

  function DishHitOf(owners: seq<Owner>, d: Dish): Hit {
    DishHit(d.name, d.price, d.image, HotelOf(owners, d, "Unknown"), d.id)
  }

  /** The hotels whose name contains `q`, ignoring case, in store order. */
  function HotelHits(owners: seq<Owner>, q: string): (r: seq<Hit>)
    ensures forall h :: h in r ==> exists o :: o in owners && ContainsIgnoringCase(o.hotelName, q) && h == HotelHitOf(o)
    ensures forall o :: o in owners && ContainsIgnoringCase(o.hotelName, q) ==> HotelHitOf(o) in r
  {
    if owners == [] then []
    else
      var rest := HotelHits(owners[1..], q);
      assert forall o :: o in owners[1..] ==> o in owners;
      (if ContainsIgnoringCase(owners[0].hotelName, q) then [HotelHitOf(owners[0])] else []) + rest
  }

  /** The dishes whose name contains `q`, ignoring case, in store order. */
  function DishHits(owners: seq<Owner>, dishes: seq<Dish>, q: string): (r: seq<Hit>)
    ensures forall h :: h in r ==> exists d :: d in dishes && ContainsIgnoringCase(d.name, q) && h == DishHitOf(owners, d)
    ensures forall d :: d in dishes && ContainsIgnoringCase(d.name, q) ==> DishHitOf(owners, d) in r
  {
    if dishes == [] then []
    else
      var rest := DishHits(owners, dishes[1..], q);
      assert forall d :: d in dishes[1..] ==> d in dishes;
      (if ContainsIgnoringCase(dishes[0].name, q) then [DishHitOf(owners, dishes[0])] else []) + rest
  }

  /** GET /search: nothing for an absent or empty query; otherwise every
      hotel whose name contains the query, then every dish whose name does,
      ignoring case. */
  function Search(owners: seq<Owner>, dishes: seq<Dish>, q: Option<string>): (r: seq<Hit>)
    ensures !Present(q) ==> r == []
    ensures Present(q) ==> r == HotelHits(owners, q.value) + DishHits(owners, dishes, q.value)
    ensures Present(q) ==> forall o :: o in owners && ContainsIgnoringCase(o.hotelName, q.value) ==> HotelHitOf(o) in r
    ensures Present(q) ==> forall d :: d in dishes && ContainsIgnoringCase(d.name, q.value) ==> DishHitOf(owners, d) in r
    ensures forall i, j :: 0 <= i < j < |r| && r[j].HotelHit? ==> r[i].HotelHit?
  {
    if !Present(q) then []
    else
      var hs := HotelHits(owners, q.value);
      var ds := DishHits(owners, dishes, q.value);
      assert forall j :: |hs| <= j < |hs + ds| ==> (hs + ds)[j] in ds;
      assert forall j :: 0 <= j < |hs| ==> hs[j] in hs;
      hs + ds
  }
}

=== FILE: reviews.dfy ===
/** Reviews (backend/models/Review.js, backend/routes/reviewRoutes.js): one
    review per customer and dish, and the dish's average rating recomputed
    from all of its reviews whenever one is added. Ratings are whole stars;
    averages are kept in tenths of a star, rounded half up. */
module Reviews {
  import opened Wrappers
  import opened Text
  import opened Seqs
  import opened Catalog

  datatype Review = Review(id: Id, customerId: Id, dishId: Id, rating: int, comment: string)

  /** What the schema and its unique index demand. */
  predicate ReviewsValid(rs: seq<Review>) {
    && (forall k :: 0 <= k < |rs| ==> rs[k].customerId != [] && rs[k].dishId != [] && 1 <= rs[k].rating <= 5)
    && (forall i, j :: 0 <= i < j < |rs| ==> (rs[i].customerId, rs[i].dishId) != (rs[j].customerId, rs[j].dishId))
  }

  predicate Reviewed(rs: seq<Review>, c: Id, d: Id) {
    exists k :: 0 <= k < |rs| && rs[k].customerId == c && rs[k].dishId == d
  }

  /** The ratings of one dish, in store order. */
  function RatingsOf(rs: seq<Review>, d: Id): (r: seq<int>)
    ensures |r| <= |rs|
    ensures (forall k :: 0 <= k < |rs| ==> 1 <= rs[k].rating <= 5) ==> forall k :: 0 <= k < |r| ==> 1 <= r[k] <= 5
  {
    if rs == [] then []
    else (if rs[0].dishId == d then [rs[0].rating] else []) + RatingsOf(rs[1..], d)
  }

  lemma {:induction false} RatingsOfAppend(rs: seq<Review>, x: Review, d: Id)
    ensures RatingsOf(rs + [x], d) == RatingsOf(rs, d) + (if x.dishId == d then [x.rating] else [])
  {
    if rs == [] {
      assert rs + [x] == [x];
      assert [x][1..] == [];
    } else {
      var head := if rs[0].dishId == d then [rs[0].rating] else [];
      var tail := if x.dishId == d then [x.rating] else [];
      assert (rs + [x])[0] == rs[0];
      assert (rs + [x])[1..] == rs[1..] + [x];
      RatingsOfAppend(rs[1..], x, d);
      calc {
        RatingsOf(rs + [x], d);
        head + RatingsOf(rs[1..] + [x], d);
        head + (RatingsOf(rs[1..], d) + tail);
        (head + RatingsOf(rs[1..], d)) + tail;
        RatingsOf(rs, d) + tail;
      }
    }
  }

  lemma {:induction false} RatingsOfNonEmpty(rs: seq<Review>, d: Id, k: nat)
    requires k < |rs| && rs[k].dishId == d
    ensures |RatingsOf(rs, d)| > 0
  {
    if k > 0 {
      RatingsOfNonEmpty(rs[1..], d, k - 1);
    }
  }

  /** The mean of `xs`, times ten, rounded half up; 0 for no ratings. */
  function MeanTenths(xs: seq<int>): int {
    if |xs| == 0 then 0 else (20 * Sum(xs) + |xs|) / (2 * |xs|)
  }

  lemma {:induction false} SumBounds(xs: seq<int>, lo: int, hi: int)
    requires forall k :: 0 <= k < |xs| ==> lo <= xs[k] <= hi
    ensures lo * |xs| <= Sum(xs) <= hi * |xs|
  {
    if xs != [] {
      SumBounds(xs[1..], lo, hi);
    }
  }

  /** The mean of whole ratings in 1..5 lies in 1.0..5.0, so an average
      written back to a dish always passes the dish schema's 0..5. */
  lemma MeanTenthsBounds(xs: seq<int>)
    requires |xs| > 0 && forall k :: 0 <= k < |xs| ==> 1 <= xs[k] <= 5
    ensures 10 <= MeanTenths(xs) <= 50
  {
    SumBounds(xs, 1, 5);
    var n := |xs|;
    var s := Sum(xs);
    assert 20 * s + n >= 20 * n;
    assert 20 * s + n < 102 * n;
    assert (20 * s + n) / (2 * n) >= 10 by {
      DivLower(20 * s + n, 2 * n, 10);
    }
    assert (20 * s + n) / (2 * n) <= 50 by {
      DivUpper(20 * s + n, 2 * n, 51);
    }
  }

  lemma {:induction false} MulMonotone(b: int, x: int, y: int)
    requires b >= 0 && x <= y
    ensures b * x <= b * y
    decreases y - x
  {
    if x < y {
      MulMonotone(b, x, y - 1);
      assert b * y == b * (y - 1) + b;
    }
  }

  lemma DivLower(a: int, b: int, q: int)
    requires b > 0 && a >= q * b
    ensures a / b >= q
  {
    var t := a / b;
    assert a == b * t + a % b && a % b < b;
    if t < q {
      assert b * (t + 1) == b * t + b;
      MulMonotone(b, t + 1, q);
    }
  }

  lemma DivUpper(a: int, b: int, q: int)
    requires b > 0 && a < q * b
    ensures a / b < q
  {
    var t := a / b;
    assert a == b * t + a % b && a % b >= 0;
    if t >= q {
      MulMonotone(b, q, t);
    }
  }

  /** The dishes after `findByIdAndUpdate(dishId, { avgRating })`, which
      runs no validators and leaves the list alone when the dish is gone. */
  function SetRating(dishes: seq<Dish>, d: Id, avg: int): (r: seq<Dish>)
    ensures |r| == |dishes|
    ensures forall k :: 0 <= k < |dishes| ==> r[k] == if dishes[k].id == d then dishes[k].(avgRating := avg) else dishes[k]
  {
    if dishes == [] then []
    else [if dishes[0].id == d then dishes[0].(avgRating := avg) else dishes[0]] + SetRating(dishes[1..], d, avg)
  }

  datatype Added = Added(reviews: seq<Review>, dishes: seq<Dish>, avgRating: int)

  /** POST /add. Customer, dish and a non-zero rating are required; a second
      review by the same customer of the same dish is refused before
      anything is written; the schema wants the rating in 1..5; the new
      review is stored first and then counted in the average written to the
      dish. */
  function AddReview(rs: seq<Review>, dishes: seq<Dish>, id: Id, c: Option<Id>, d: Option<Id>,
                     rating: Option<int>, comment: Option<string>): (r: Result<Added, Error>)
    ensures !(Present(c) && Present(d) && NonZero(rating)) ==> r == Err(BadRequest("fields"))
    ensures Present(c) && Present(d) && NonZero(rating) && Reviewed(rs, c.value, d.value) ==> r == Err(BadRequest("duplicate"))
    ensures r.Ok? <==> Present(c) && Present(d) && NonZero(rating) && !Reviewed(rs, c.value, d.value) && 1 <= rating.value <= 5
    ensures r.Ok? ==> r.value.reviews == rs + [Review(id, c.value, d.value, rating.value, Trim(comment.GetOr("")))]
    ensures r.Ok? ==> r.value.avgRating == MeanTenths(RatingsOf(r.value.reviews, d.value))
    ensures r.Ok? ==> r.value.dishes == SetRating(dishes, d.value, r.value.avgRating)
  {
    if !(Present(c) && Present(d) && NonZero(rating)) then Err(BadRequest("fields"))
    else if Reviewed(rs, c.value, d.value) then Err(BadRequest("duplicate"))
    else if !(1 <= rating.value <= 5) then Err(SchemaRejected("rating"))
    else
      var rs' := rs + [Review(id, c.value, d.value, rating.value, Trim(comment.GetOr("")))];
      var avg := MeanTenths(RatingsOf(rs', d.value));
      Ok(Added(rs', SetRating(dishes, d.value, avg), avg))
  }

  /** Adding keeps the reviews valid (one per customer and dish), keeps
      every valid dish valid, and the average it writes counts the new
      review and lies within one to five stars. */
  lemma AddReviewKeepsInvariants(rs: seq<Review>, dishes: seq<Dish>, id: Id, c: Option<Id>, d: Option<Id>,
                                 rating: Option<int>, comment: Option<string>)
    requires ReviewsValid(rs)
    requires AddReview(rs, dishes, id, c, d, rating, comment).Ok?
    ensures var a := AddReview(rs, dishes, id, c, d, rating, comment).value;
            && ReviewsValid(a.reviews)
            && 10 <= a.avgRating <= 50
            && |RatingsOf(a.reviews, d.value)| == |RatingsOf(rs, d.value)| + 1
            && forall k :: 0 <= k < |dishes| && DishValid(dishes[k]) ==> DishValid(a.dishes[k])
  {
    var a := AddReview(rs, dishes, id, c, d, rating, comment).value;
    var x := Review(id, c.value, d.value, rating.value, Trim(comment.GetOr("")));
    AppendKeepsValid(rs, x);
    RatingsOfAppend(rs, x, d.value);
    RatingsOfNonEmpty(a.reviews, d.value, |rs|);
    MeanTenthsBounds(RatingsOf(a.reviews, d.value));
    RatingKeepsDishesValid(dishes, d.value, a.avgRating);
  }

  /** A well-formed review of a pair not yet reviewed keeps the store valid. */
  lemma AppendKeepsValid(rs: seq<Review>, x: Review)
    requires ReviewsValid(rs) && !Reviewed(rs, x.customerId, x.dishId)
    requires x.customerId != [] && x.dishId != [] && 1 <= x.rating <= 5
    ensures ReviewsValid(rs + [x])
  {
    var rs' := rs + [x];
    forall i, j | 0 <= i < j < |rs'|
      ensures (rs'[i].customerId, rs'[i].dishId) != (rs'[j].customerId, rs'[j].dishId)
    {
      assert rs'[i] == rs[i];
      if j < |rs| {
        assert rs'[j] == rs[j];
      }
    }
  }

  /** Writing an average within the schema's range keeps valid dishes valid. */
  lemma RatingKeepsDishesValid(dishes: seq<Dish>, d: Id, avg: int)
    requires 0 <= avg <= 50
    ensures forall k :: 0 <= k < |dishes| && DishValid(dishes[k]) ==> DishValid(SetRating(dishes, d, avg)[k])
  {
  }

  /** The second review of a dish by the same customer is refused and
      changes nothing. */
  lemma SecondReviewRefused(rs: seq<Review>, dishes: seq<Dish>, id: Id, id2: Id, c: Id, d: Id, r1: int, r2: int,
                            m1: Option<string>, m2: Option<string>)
    requires AddReview(rs, dishes, id, Some(c), Some(d), Some(r1), m1).Ok?
    ensures var a := AddReview(rs, dishes, id, Some(c), Some(d), Some(r1), m1).value;
            AddReview(a.reviews, a.dishes, id2, Some(c), Some(d), Some(r2), m2).Err?
  {
    var a := AddReview(rs, dishes, id, Some(c), Some(d), Some(r1), m1).value;
    assert a.reviews[|rs|].customerId == c && a.reviews[|rs|].dishId == d;
  }

  /* ---------------------------------------------------------------
     Averages of every dish
     --------------------------------------------------------------- */

  /** The dish ids that have reviews, each once, in order of first review. */
  function ReviewedDishes(rs: seq<Review>): (r: seq<Id>)
    ensures forall i, j :: 0 <= i < j < |r| ==> r[i] != r[j]
    ensures forall d :: d in r <==> exists k :: 0 <= k < |rs| && rs[k].dishId == d
  {
    if rs == [] then []
    else
      var rest := ReviewedDishes(rs[..|rs| - 1]);
      assert forall k :: 0 <= k < |rs| - 1 ==> rs[..|rs| - 1][k] == rs[k];
      if rs[|rs| - 1].dishId in rest then rest else rest + [rs[|rs| - 1].dishId]
  }

  datatype Average = Average(dishId: Id, avgRating: int, count: nat)

  function AveragesOf(rs: seq<Review>, ds: seq<Id>): (r: seq<Average>)
    ensures |r| == |ds|
    ensures forall k :: 0 <= k < |ds| ==> r[k] == Average(ds[k], MeanTenths(RatingsOf(rs, ds[k])), |RatingsOf(rs, ds[k])|)
  {
    if ds == [] then [] else [Average(ds[0], MeanTenths(RatingsOf(rs, ds[0])), |RatingsOf(rs, ds[0])|)] + AveragesOf(rs, ds[1..])
  }

  predicate HasReview(rs: seq<Review>, d: Id) {
    exists k :: 0 <= k < |rs| && rs[k].dishId == d
  }

  predicate HasEntry(avgs: seq<Average>, d: Id) {
    exists k :: 0 <= k < |avgs| && avgs[k].dishId == d
  }

  lemma AveragesOfCover(rs: seq<Review>, ds: seq<Id>, d: Id)
    requires d in ds
    ensures HasEntry(AveragesOf(rs, ds), d)
  {
    var k :| 0 <= k < |ds| && ds[k] == d;
    assert AveragesOf(rs, ds)[k].dishId == d;
  }

  lemma AveragesOfCounted(rs: seq<Review>, ds: seq<Id>, k: nat)
    requires k < |ds| && HasReview(rs, ds[k])
    ensures AveragesOf(rs, ds)[k].count > 0
  {
    var j :| 0 <= j < |rs| && rs[j].dishId == ds[k];
    RatingsOfNonEmpty(rs, ds[k], j);
  }

  /** GET /averages/all: one entry per reviewed dish with its rounded mean
      and its number of reviews. */
  function AveragesAll(rs: seq<Review>): (r: seq<Average>)
    ensures forall i, j :: 0 <= i < j < |r| ==> r[i].dishId != r[j].dishId
    ensures forall d :: HasEntry(r, d) <==> HasReview(rs, d)
    ensures forall k :: 0 <= k < |r| ==> r[k].count == |RatingsOf(rs, r[k].dishId)| > 0
    ensures forall k :: 0 <= k < |r| ==> r[k].avgRating == MeanTenths(RatingsOf(rs, r[k].dishId))
  {
    var ds := ReviewedDishes(rs);
    var r := AveragesOf(rs, ds);
    forall k | 0 <= k < |r|
      ensures r[k].count > 0
    {
      assert ds[k] in ds;
      AveragesOfCounted(rs, ds, k);
    }
    forall d | HasReview(rs, d)
      ensures HasEntry(r, d)
    {
      AveragesOfCover(rs, ds, d);
    }
    forall d | HasEntry(r, d)
      ensures HasReview(rs, d)
    {
      var k :| 0 <= k < |r| && r[k].dishId == d;
      assert ds[k] in ds;
    }
    r
  }

  /** The average the add route writes is the one the averages route
      reports for that dish. */
  lemma AddAgreesWithAverages(rs: seq<Review>, dishes: seq<Dish>, id: Id, c: Option<Id>, d: Option<Id>,
                              rating: Option<int>, comment: Option<string>)
    requires AddReview(rs, dishes, id, c, d, rating, comment).Ok?
    ensures var a := AddReview(rs, dishes, id, c, d, rating, comment).value;
            exists k :: 0 <= k < |AveragesAll(a.reviews)| && AveragesAll(a.reviews)[k] ==
              Average(d.value, a.avgRating, |RatingsOf(a.reviews, d.value)|)
  {
    var a := AddReview(rs, dishes, id, c, d, rating, comment).value;
    var all := AveragesAll(a.reviews);
    assert a.reviews[|rs|].dishId == d.value;
    assert HasReview(a.reviews, d.value);
    var k :| 0 <= k < |all| && all[k].dishId == d.value;
    assert all[k] == Average(d.value, a.avgRating, |RatingsOf(a.reviews, d.value)|);
  }
}

=== FILE: seqs.dfy ===
/** Sequence operations the handlers perform through `Array.prototype`
    methods and store queries: `filter`, `deleteMany`, `findOne`, and
    `reduce` to a sum. */
module Seqs {
  import opened Wrappers

  /** `s.filter(f)`: the elements satisfying `f`, in their original order. */
  function Filter<T(!new)>(s: seq<T>, f: T -> bool): (r: seq<T>)
    ensures |r| <= |s|
    ensures forall x :: x in r <==> x in s && f(x)
    ensures (forall k :: 0 <= k < |s| ==> f(s[k])) ==> r == s
    ensures (forall k :: 0 <= k < |s| ==> !f(s[k])) ==> r == []
  {
    if s == [] then []
    else if f(s[0]) then [s[0]] + Filter(s[1..], f)
    else Filter(s[1..], f)
  }

  lemma {:induction false} FilterAppend<T(!new)>(a: seq<T>, b: seq<T>, f: T -> bool)
    ensures Filter(a + b, f) == Filter(a, f) + Filter(b, f)
  {
    if a == [] {
      assert a + b == b;
    } else {
      assert (a + b)[1..] == a[1..] + b;
      FilterAppend(a[1..], b, f);
    }
  }

  /** Filtering twice keeps what satisfies both conditions. */
  lemma {:induction false} FilterFilter<T(!new)>(s: seq<T>, f: T -> bool, g: T -> bool)
    ensures Filter(Filter(s, f), g) == Filter(s, x => f(x) && g(x))
  {
    if s != [] {
      FilterFilter(s[1..], f, g);
    }
  }

  /** Two conditions that agree on every element filter alike. */
  lemma {:induction false} FilterSameOn<T(!new)>(s: seq<T>, f: T -> bool, g: T -> bool)
    requires forall k :: 0 <= k < |s| ==> f(s[k]) == g(s[k])
    ensures Filter(s, f) == Filter(s, g)
  {
    if s != [] {
      FilterSameOn(s[1..], f, g);
    }
  }

  /** `findOne`: the position of the first element satisfying `f`. */
  function FirstIndex<T>(s: seq<T>, f: T -> bool): (r: Option<nat>)
    ensures r.Some? ==> r.value < |s| && f(s[r.value])
    ensures r.Some? ==> forall k :: 0 <= k < r.value ==> !f(s[k])
    ensures r.None? ==> forall k :: 0 <= k < |s| ==> !f(s[k])
  {
    if s == [] then None
    else if f(s[0]) then Some(0)
    else match FirstIndex(s[1..], f)
      case Some(k) => Some(k + 1)
      case None => None
  }

  function Sum(xs: seq<int>): int {
    if xs == [] then 0 else xs[0] + Sum(xs[1..])
  }

  lemma {:induction false} SumAppend(a: seq<int>, b: seq<int>)
    ensures Sum(a + b) == Sum(a) + Sum(b)
  {
    if a == [] {
      assert a + b == b;
    } else {
      assert (a + b)[1..] == a[1..] + b;
      SumAppend(a[1..], b);
    }
  }
}

=== FILE: text.dfy ===
/** Character classes and string helpers with the meaning JavaScript gives
    them in the handlers: `\s`, `\d`, `\w`, `includes`, `trim`,
    `toLowerCase` (ASCII part), `split(/\s+/)`, and the leftmost-position
    search every `String.prototype.match` performs. */
module Text {
  import opened Wrappers

  /** JavaScript's `\s` class (WhiteSpace and LineTerminator code points),
      which is also what `trim` strips. */
  predicate IsSpace(c: char) {
    c == ' ' || c == '\t' || c == '\n' || c == '\r' || c == '\U{000B}' || c == '\U{000C}'
    || c == '\U{00A0}' || c == '\U{1680}' || ('\U{2000}' <= c <= '\U{200A}')
    || c == '\U{2028}' || c == '\U{2029}' || c == '\U{202F}' || c == '\U{205F}'
    || c == '\U{3000}' || c == '\U{FEFF}'
  }

  /** Characters `.` refuses to match in a regular expression without the `s` flag. */
  predicate IsLineTerminator(c: char) {
    c == '\n' || c == '\r' || c == '\U{2028}' || c == '\U{2029}'
  }

  predicate IsDigit(c: char) { '0' <= c <= '9' }
  predicate IsUpper(c: char) { 'A' <= c <= 'Z' }
  predicate IsLower(c: char) { 'a' <= c <= 'z' }
  predicate IsLetter(c: char) { IsUpper(c) || IsLower(c) }

  /** JavaScript's `\w`, used by `\b`. */
  predicate IsWordChar(c: char) { IsLetter(c) || IsDigit(c) || c == '_' }

  function LowerChar(c: char): char {
    if IsUpper(c) then (c as int + 32) as char else c
  }

  /** `toLowerCase`, restricted to the ASCII letters. */
  function ToLower(s: string): (r: string)
    ensures |r| == |s|
    ensures forall i :: 0 <= i < |s| ==> r[i] == LowerChar(s[i])
  {
    if s == [] then [] else [LowerChar(s[0])] + ToLower(s[1..])
  }

  /** Lower-casing a lower-cased string changes nothing. */
  lemma ToLowerIdempotent(s: string)
    ensures ToLower(ToLower(s)) == ToLower(s)
  {
    var r := ToLower(s);
    forall i | 0 <= i < |r|
      ensures ToLower(r)[i] == r[i]
    {
      assert r[i] == LowerChar(s[i]);
    }
  }

  predicate NoSpaces(s: string) {
    forall i :: 0 <= i < |s| ==> !IsSpace(s[i])
  }

  predicate AllSpaces(s: string) {
    forall i :: 0 <= i < |s| ==> IsSpace(s[i])
  }

  /* ---------------------------------------------------------------
     Substring search
     --------------------------------------------------------------- */

  predicate OccursAt(s: string, w: string, i: nat) {
    i + |w| <= |s| && s[i..i + |w|] == w
  }

  /** Position of the first occurrence of `w` in `s` at or after `from`. */
  function IndexFrom(s: string, w: string, from: nat): (r: Option<nat>)
    decreases |s| - from
    ensures r.Some? ==> from <= r.value && OccursAt(s, w, r.value)
    ensures r.Some? ==> forall k :: from <= k < r.value ==> !OccursAt(s, w, k)
    ensures r.None? ==> forall k :: from <= k ==> !OccursAt(s, w, k)
  {
    if from + |w| > |s| then None
    else if s[from..from + |w|] == w then Some(from)
    else IndexFrom(s, w, from + 1)
  }

  /** `s.includes(w)`. */
  predicate Contains(s: string, w: string) {
    IndexFrom(s, w, 0).Some?
  }

  lemma ContainsIff(s: string, w: string)
    ensures Contains(s, w) <==> exists i: nat :: OccursAt(s, w, i)
  {
    var r := IndexFrom(s, w, 0);
    if r.Some? {
      assert OccursAt(s, w, r.value);
    }
  }

  /** A Mongo `$regex` with option `i` on plain text, read as a
      case-insensitive substring test. */
  predicate ContainsIgnoringCase(s: string, q: string) {
    Contains(ToLower(s), ToLower(q))
  }

  /* ---------------------------------------------------------------
     Trimming and scanning
     --------------------------------------------------------------- */

  /** First index at or after `i` that is not whitespace (or `|s|`). */
  function SkipSpaces(s: string, i: nat): (r: nat)
    requires i <= |s|
    decreases |s| - i
    ensures i <= r <= |s|
    ensures forall k :: i <= k < r ==> IsSpace(s[k])
    ensures r < |s| ==> !IsSpace(s[r])
  {
    if i < |s| && IsSpace(s[i]) then SkipSpaces(s, i + 1) else i
  }

  /** Index one past the last non-whitespace character of `s[..j]`, or 0. */
  function LastNonSpaceEnd(s: string, j: nat): (r: nat)
    requires j <= |s|
    ensures r <= j
    ensures forall k :: r <= k < j ==> IsSpace(s[k])
    ensures r > 0 ==> !IsSpace(s[r - 1])
  {
    if j > 0 && IsSpace(s[j - 1]) then LastNonSpaceEnd(s, j - 1) else j
  }

  /** `s.trim()`: the slice left after removing leading and trailing whitespace. */
  function Trim(s: string): (r: string)
    ensures |r| <= |s|
    ensures r != [] ==> !IsSpace(r[0]) && !IsSpace(r[|r| - 1])
    ensures exists a: nat, b: nat :: a <= b <= |s| && r == s[a..b] && AllSpaces(s[..a]) && AllSpaces(s[b..])
  {
    var a := SkipSpaces(s, 0);
    var b := LastNonSpaceEnd(s, |s|);
    if b <= a then
      assert AllSpaces(s[..a]);
      assert AllSpaces(s[a..]);
      assert s[a..a] == [];
      []
    else
      assert AllSpaces(s[..a]);
      assert AllSpaces(s[b..]);
      s[a..b]
  }

  /** Trimming a trimmed string changes nothing. */
  lemma TrimIdempotent(s: string)
    ensures Trim(Trim(s)) == Trim(s)
  {
    var r := Trim(s);
    if r != [] {
      assert SkipSpaces(r, 0) == 0;
      assert LastNonSpaceEnd(r, |r|) == |r|;
    }
  }

  /** A string that starts and ends with a non-space trims to itself. */
  lemma TrimOfPlain(s: string)
    requires |s| > 0 && !IsSpace(s[0]) && !IsSpace(s[|s| - 1])
    ensures Trim(s) == s
  {
    assert SkipSpaces(s, 0) == 0;
    assert LastNonSpaceEnd(s, |s|) == |s|;
  }

  /** A string is blank when `trim()` leaves nothing. */
  predicate Blank(s: string) {
    Trim(s) == []
  }

  lemma BlankIffAllSpaces(s: string)
    ensures Blank(s) <==> AllSpaces(s)
  {
    var a := SkipSpaces(s, 0);
    var b := LastNonSpaceEnd(s, |s|);
  }

  /* ---------------------------------------------------------------
     Whitespace-separated words
     --------------------------------------------------------------- */

  /** End of the run of non-whitespace characters that starts at `i`. */
  function WordEnd(s: string, i: nat): (r: nat)
    requires i <= |s|
    decreases |s| - i
    ensures i <= r <= |s|
    ensures forall k :: i <= k < r ==> !IsSpace(s[k])
    ensures r < |s| ==> IsSpace(s[r])
  {
    if i < |s| && !IsSpace(s[i]) then WordEnd(s, i + 1) else i
  }

  /** The maximal non-whitespace runs of `s`, in order; for a string that
      is already trimmed and not empty this is `s.split(/\s+/)`. */
  function Words(s: string): (ws: seq<string>)
    decreases |s|
    ensures forall k :: 0 <= k < |ws| ==> ws[k] != [] && NoSpaces(ws[k])
  {
    if s == [] then []
    else if IsSpace(s[0]) then Words(s[1..])
    else
      var b := WordEnd(s, 0);
      [s[..b]] + Words(s[b..])
  }

  /** Every non-whitespace character of `s`, in order. */
  function Visible(s: string): string {
    if s == [] then [] else (if IsSpace(s[0]) then [] else [s[0]]) + Visible(s[1..])
  }

  function Concat(ws: seq<string>): string {
    if ws == [] then [] else ws[0] + Concat(ws[1..])
  }

  lemma {:induction false} VisibleAppend(x: string, y: string)
    ensures Visible(x + y) == Visible(x) + Visible(y)
    decreases |x|
  {
    if x == [] {
      assert x + y == y;
    } else {
      assert (x + y)[1..] == x[1..] + y;
      VisibleAppend(x[1..], y);
    }
  }

  lemma {:induction false} VisibleOfSpaces(x: string)
    requires AllSpaces(x)
    ensures Visible(x) == []
    decreases |x|
  {
    if x != [] {
      VisibleOfSpaces(x[1..]);
    }
  }

  lemma {:induction false} VisibleOfWord(x: string)
    requires NoSpaces(x)
    ensures Visible(x) == x
    decreases |x|
  {
    if x != [] {
      VisibleOfWord(x[1..]);
    }
  }

  /** Splitting into words loses exactly the whitespace: the words, glued
      back together, are the visible characters of the input. */
  lemma {:induction false} WordsKeepVisibleText(s: string)
    ensures Concat(Words(s)) == Visible(s)
    decreases |s|
  {
    if s != [] {
      if IsSpace(s[0]) {
        WordsKeepVisibleText(s[1..]);
      } else {
        var b := WordEnd(s, 0);
        assert s == s[..b] + s[b..];
        VisibleAppend(s[..b], s[b..]);
        VisibleOfWord(s[..b]);
        WordsKeepVisibleText(s[b..]);
        assert Words(s)[1..] == Words(s[b..]);
      }
    }
  }

  /** `words.join(" ")`. */
  function JoinSpaced(ws: seq<string>): string {
    if ws == [] then []
    else if |ws| == 1 then ws[0]
    else ws[0] + " " + JoinSpaced(ws[1..])
  }

  /** Joining words with single spaces and splitting again gives the words
      back, provided none is empty or contains whitespace. */
  lemma {:induction false} WordsOfJoin(ws: seq<string>)
    requires forall k :: 0 <= k < |ws| ==> ws[k] != [] && NoSpaces(ws[k])
    ensures Words(JoinSpaced(ws)) == ws
    decreases |ws|
  {
    if ws != [] {
      var w := ws[0];
      var x := JoinSpaced(ws);
      var tail := if |ws| == 1 then [] else " " + JoinSpaced(ws[1..]);
      assert x == w + tail;
      assert !IsSpace(x[0]);
      var b := WordEnd(x, 0);
      assert forall k :: 0 <= k < |w| ==> x[k] == w[k];
      assert |w| < |x| ==> x[|w|] == ' ';
      assert b == |w|;
      assert x[..b] == w;
      assert x[b..] == tail;
      if |ws| > 1 {
        assert tail[1..] == JoinSpaced(ws[1..]);
        WordsOfJoin(ws[1..]);
      }
    }
  }

  /* ---------------------------------------------------------------
     Digit runs
     --------------------------------------------------------------- */

  function DigitRunEnd(s: string, i: nat): (r: nat)
    requires i <= |s|
    decreases |s| - i
    ensures i <= r <= |s|
    ensures forall k :: i <= k < r ==> IsDigit(s[k])
    ensures r < |s| ==> !IsDigit(s[r])
  {
    if i < |s| && IsDigit(s[i]) then DigitRunEnd(s, i + 1) else i
  }

  function DigitValue(c: char): nat
    requires IsDigit(c)
  {
    (c as int - '0' as int) as nat
  }

  /** The decimal value of a string of digits (`parseInt(d, 10)` without
      the loss of precision of large doubles). */
  function DecimalValue(d: string): nat
    requires forall k :: 0 <= k < |d| ==> IsDigit(d[k])
  {
    if d == [] then 0 else DecimalValue(d[..|d| - 1]) * 10 + DigitValue(d[|d| - 1])
  }

  /** The value of the run of digits that starts at `i`. */
  function NumberAt(s: string, i: nat): nat
    requires i <= |s|
  {
    DecimalValue(s[i..DigitRunEnd(s, i)])
  }

  /* ---------------------------------------------------------------
     Leftmost match
     --------------------------------------------------------------- */

  /** What `match` returns for a pattern without the `g` flag: the result
      of the first position, scanning left to right from `i`, at which the
      pattern succeeds. `at(k)` is the pattern's result when its match must
      start at position `k`. */
  function Leftmost<T>(n: nat, at: nat -> Option<T>, i: nat): (r: Option<(nat, T)>)
    decreases n - i
    ensures r.Some? ==> i <= r.value.0 < n && at(r.value.0) == Some(r.value.1)
    ensures r.Some? ==> forall k :: i <= k < r.value.0 ==> at(k).None?
    ensures r.None? ==> forall k :: i <= k < n ==> at(k).None?
  {
    if i >= n then None
    else match at(i)
      case Some(v) => Some((i, v))
      case None => Leftmost(n, at, i + 1)
  }

  /** The largest `k` in `lo..hi` with `p(k)`: what a greedy quantifier
      settles on after backtracking from its longest attempt. */
  function Greatest(lo: nat, hi: nat, p: nat -> bool): (r: Option<nat>)
    decreases hi
    ensures r.Some? ==> lo <= r.value <= hi && p(r.value)
    ensures r.Some? ==> forall k :: r.value < k <= hi ==> !p(k)
    ensures r.None? ==> forall k :: lo <= k <= hi ==> !p(k)
  {
    if hi < lo then None
    else if p(hi) then Some(hi)
    else if hi == 0 then None
    else Greatest(lo, hi - 1, p)
  }

  /** The first `k` in `from..n-1` with `p(k)`: which alternative of a
      list is taken, trying them in order. */
  function FirstWhere(n: nat, p: nat -> bool, from: nat): (r: Option<nat>)
    decreases n - from
    ensures r.Some? ==> from <= r.value < n && p(r.value)
    ensures r.Some? ==> forall k :: from <= k < r.value ==> !p(k)
    ensures r.None? ==> forall k :: from <= k < n ==> !p(k)
  {
    if from >= n then None
    else if p(from) then Some(from)
    else FirstWhere(n, p, from + 1)
  }
}

=== FILE: validators.dfy ===
/** The field rules the account forms and routes apply, one predicate per
    regular expression. Every pattern is anchored at both ends, so each
    predicate describes the whole string. Three places check e-mail and
    password, and they do not agree: backend/routes/customerRoutes.js and
    frontend/src/components/DeliveryBoyAuth.js want a dot after the `@`,
    frontend/src/components/LoginPopup.js does not; LoginPopup wants a
    strong password, the others only a length. */
module Validators {
  import opened Text

  /** A stored password: an ideal salted hash, which compares equal
      exactly for the password it was made from. */
  datatype Digest = Digest(secret: string)

  /** `^[A-Z][a-zA-Z\s]*$` */
  predicate NameOk(s: string) {
    |s| >= 1 && IsUpper(s[0]) && forall k :: 1 <= k < |s| ==> IsLetter(s[k]) || IsSpace(s[k])
  }

  /** `^[6-9]\d{9}$` */
  predicate PhoneOk(s: string) {
    |s| == 10 && '6' <= s[0] <= '9' && forall k :: 0 <= k < |s| ==> IsDigit(s[k])
  }

  /** `[^\s@]` repeated over `s[lo..hi]`: no white space and no `@` there. */
  predicate Plain(s: string, lo: nat, hi: nat)
    requires lo <= hi <= |s|
  {
    forall k :: lo <= k < hi ==> !IsSpace(s[k]) && s[k] != '@'
  }

  /** `^[^\s@]+@[^\s@]+$` (LoginPopup): one `@` with plain text on both sides. */
  predicate EmailWithAt(s: string) {
    exists a :: 0 < a < |s| - 1 && s[a] == '@' && Plain(s, 0, a) && Plain(s, a + 1, |s|)
  }

  /** `^[^\s@]+@[^\s@]+\.[^\s@]+$` (customer routes and courier form): as
      above, and a dot with plain text on both sides somewhere after the `@`. */
  predicate EmailWithDot(s: string) {
    exists a, d :: 0 < a && a + 1 < d && d + 1 < |s| && s[a] == '@' && s[d] == '.'
                   && Plain(s, 0, a) && Plain(s, a + 1, d) && Plain(s, d + 1, |s|)
  }

  /** The length rule of the courier form, of change-password and of the
      account schemas. */
  predicate LongEnough(s: string) {
    |s| >= 6
  }

  predicate IsSpecial(c: char) {
    c == '!' || c == '@' || c == '#' || c == '$' || c == '%' || c == '^' || c == '&' || c == '*'
  }

  /** `^(?=.*[A-Z])(?=.*[!@#$%^&*])[A-Za-z\d!@#$%^&*]{6,}$`: six or more
      characters from the class, one of them upper case and one of them
      special, in any position (the class holds no line terminator, so the
      lookaheads' `.*` can reach every character). */
  predicate StrongPassword(s: string) {
    && |s| >= 6
    && (forall k :: 0 <= k < |s| ==> IsLetter(s[k]) || IsDigit(s[k]) || IsSpecial(s[k]))
    && (exists k :: 0 <= k < |s| && IsUpper(s[k]))
    && (exists k :: 0 <= k < |s| && IsSpecial(s[k]))
  }

  /** Position of the single `@` of a plain-sided address. */
  function AtOf(s: string): (r: nat)
    requires EmailWithAt(s)
    ensures 0 < r < |s| - 1 && s[r] == '@' && Plain(s, 0, r) && Plain(s, r + 1, |s|)
    ensures forall k :: 0 <= k < |s| && k != r ==> s[k] != '@'
  {
    var a :| 0 < a < |s| - 1 && s[a] == '@' && Plain(s, 0, a) && Plain(s, a + 1, |s|);
    a
  }

  /** The stricter address rule implies the looser one: whatever the
      customer routes and the courier form accept, LoginPopup accepts. */
  lemma EmailWithDotIsWithAt(s: string)
    requires EmailWithDot(s)
    ensures EmailWithAt(s)
  {
    var a, d :| 0 < a && a + 1 < d && d + 1 < |s| && s[a] == '@' && s[d] == '.'
                && Plain(s, 0, a) && Plain(s, a + 1, d) && Plain(s, d + 1, |s|);
    assert Plain(s, a + 1, |s|);
  }

  /** The two address rules differ by the dot alone: an address passes the
      dotted rule exactly when it passes LoginPopup's rule and has a dot
      after the `@` with at least one character on each side of it. So
      `a@b`, which has none, passes LoginPopup but neither the customer
      routes nor the courier form. */
  lemma {:induction false} EmailWithDotIffDotAfterAt(s: string)
    ensures EmailWithDot(s) <==> EmailWithAt(s) && exists d :: AtOf(s) + 1 < d < |s| - 1 && s[d] == '.'
  {
    if EmailWithDot(s) {
      var a, d :| 0 < a && a + 1 < d && d + 1 < |s| && s[a] == '@' && s[d] == '.'
                  && Plain(s, 0, a) && Plain(s, a + 1, d) && Plain(s, d + 1, |s|);
      EmailWithDotIsWithAt(s);
      assert AtOf(s) == a;
    }
    if EmailWithAt(s) && exists d :: AtOf(s) + 1 < d < |s| - 1 && s[d] == '.' {
      var a := AtOf(s);
      var d :| a + 1 < d < |s| - 1 && s[d] == '.';
      assert Plain(s, a + 1, d) && Plain(s, d + 1, |s|);
    }
  }

  /** The rule looks at which characters occur, not where: the capital
      letter need not come first, whatever the form's message says, since
      moving any prefix to the end changes nothing. */
  lemma StrongPasswordRotates(a: string, b: string)
    ensures StrongPassword(a + b) <==> StrongPassword(b + a)
  {
    if StrongPassword(a + b) { StrongPasswordRotatesOneWay(a, b); }
    if StrongPassword(b + a) { StrongPasswordRotatesOneWay(b, a); }
  }

  lemma StrongPasswordRotatesOneWay(a: string, b: string)
    requires StrongPassword(a + b)
    ensures StrongPassword(b + a)
  {
    var s, t := a + b, b + a;
    assert forall k :: 0 <= k < |t| ==> t[k] == if k < |b| then s[|a| + k] else s[k - |b|];
    var u :| 0 <= u < |s| && IsUpper(s[u]);
    assert IsUpper(t[if u < |a| then |b| + u else u - |a|]);
    var x :| 0 <= x < |s| && IsSpecial(s[x]);
    assert IsSpecial(t[if x < |a| then |b| + x else x - |a|]);
  }
}

=== FILE: wrappers.dfy ===
/** Failure-compatible wrappers shared by every route model: Option for
    nullable/absent values and Result for handlers that answer with an
    error status instead of a document. */
module Wrappers {

  datatype Option<+T> = None | Some(value: T) {
    predicate IsFailure() { None? }

    function PropagateFailure<U>(): Option<U>
      requires None?
    {
      None
    }

    function Extract(): T
      requires Some?
    {
      value
    }

    function GetOr(default: T): T {
      match this
      case Some(v) => v
      case None => default
    }
  }

  datatype Result<+R, +E> = Ok(value: R) | Err(error: E) {
    predicate IsFailure() { Err? }

    function PropagateFailure<U>(): Result<U, E>
      requires Err?
    {
      Err(error)
    }

    function Extract(): R
      requires Ok?
    {
      value
    }
  }

  /** The error statuses the HTTP handlers answer with. `BadRequest` is a
      400 naming the failed check, `NotFound` a 404, `InvalidTransition` the
      400 a guarded lifecycle action returns when its precondition fails, and
      `SchemaRejected` the 500 that follows a document-schema validation
      error thrown by the store. */
  datatype Error =
    | BadRequest(reason: string)
    | NotFound
    | InvalidTransition
    | SchemaRejected(field: string)

  /** JavaScript truthiness of an optional string field: absent and empty are falsy. */
  predicate Present(o: Option<string>) {
    o.Some? && o.value != ""
  }

  /** JavaScript truthiness of an optional number: absent and zero are falsy. */
  predicate NonZero(o: Option<int>) {
    o.Some? && o.value != 0
  }

  /** `x || d` on an optional number. */
  function OrDefault(o: Option<int>, d: int): (r: int)
    ensures NonZero(o) ==> r == o.value
    ensures !NonZero(o) ==> r == d
  {
    if NonZero(o) then o.value else d
  }
}
